=== FILE: README.md ===
# A verified model of the engine's windowing and software rendering core

The engine opens a Win32 window, owns a scene and draws it through one of
several interchangeable graphics backends. This project models the following
parts of it as pure Dafny functions over immutable values, and proves
properties about them:

- **Scene.** An entity is a vertex list with an optional per-vertex colour list, a
  uniform colour and a position. A world is an ordered list of entities plus
  floating texts. A viewport holds a size, a view matrix, a projection matrix,
  an optional world and a list of text overlays.
- **Camera and input.** `AFreeCamera` is moved by key and mouse events and pushes
  its view and projection to every viewport it is registered with.
  `AWindowImplWin32` translates window messages into engine events.
  `AFpsCounter` computes a frame rate. `ARenderTimeTracker` reports the share of
  draw time each backend took.
- **Window front-ends.** `AWindow` and `ARenderWindow` own a renderer, switch
  backends at run time and resize the renderer only when the client size
  changed.
- **DirectX12 backend.** This is a CPU rasterizer into a GDI back buffer:
  - homogeneous clipping against the six planes of the view volume;
  - perspective divide and fan triangulation;
  - edge-function coverage with a depth test;
  - composition of overlay text and world-anchored text.
- **OpenGL backend.** Immediate-mode batches plus GDI text.
- **Vulkan backend.** A GDI fallback that sorts primitives far to near
  (painter's algorithm) and fills them.
- **`VulkanApp`.**
  - Instance and device set-up: validation layers, extensions, queue families,
    physical-device choice.
  - From the earlier version: swapchain parameter choice, the frame loop with
    its frame-in-flight rotation, and swapchain re-creation. These sit on the
    legacy `Win32Window`.

Floating point is modelled as real arithmetic. Every float-to-integer cast is
written out as truncation toward zero (`Numeric.Trunc`). Integer division is
C++ truncating division (`Numeric.DivTrunc`). The 32-bit unsigned and 16-bit
word conversions of the Win32 API are written out explicitly. A frame buffer is
a sequence of depth values and BGRA pixels that the draw operations return.
Operating-system, GDI, OpenGL and Vulkan calls become inputs: whether an
allocation succeeds, what an enumeration returns, the outcome of acquire and
present. Their effects are modelled as values returned to the caller.

The model follows the code where it departs from the documented intent:

- The camera pitch clamp is inclusive at ±89°.
- Clipping one edge against one plane can emit two vertices.
- The DirectX12 renderer clips with the source's crossing fraction. For the
  Right, Top and Far planes that fraction is always 0 on a crossing edge, so
  those passes do not cut: they keep the outside end of an entering edge (see
  Findings). The corrected fraction is modelled beside it, and the clipping
  lemmas are stated for both.
- The DirectX12 rasterizer interpolates colours linearly in screen space.
- The Vulkan backend's solid polygon fill averages per-vertex colours and does
  not clamp them, so a channel above 1 wraps modulo 256 (see Findings). The
  clamped fill is modelled beside it.

## Model

| member | source | states |
|---|---|---|
| Entities.NewEntity | src/AEntity.cpp:5 | a new entity holds exactly the given vertices, no per-vertex colours, and the header's default colour and position |
| Entities.CreateTriangle | src/AEntity.cpp:7-9 | the triangle factory yields exactly the three given corners, in order |
| Entities.CreateRectangle | src/AEntity.cpp:11-22 | the rectangle factory yields four corners at (±w/2, ±h/2, 0), counter-clockwise from bottom-left |
| Entities.RectangleCentredOnOrigin | src/AEntity.cpp:11-22 | the rectangle lies in the z = 0 plane, its corners sum to the origin, and its sides are exactly width and height long |
| Entities.SetPosition | src/AEntity.cpp:32-34 | only the position changes; vertices, colours and per-vertex colours are untouched |
| Entities.SetColor | src/AEntity.cpp:40-42 | only the uniform colour changes |
| Entities.ResolvedColors | src/Graphics/DirectX12/DirectX12Renderer.cpp:354-363 | every vertex gets its own colour when the per-vertex list is exactly as long as the vertex list, and the uniform colour otherwise |
| Worlds.AddEntity | src/AWorld.cpp:3-8 | a null entity is ignored; otherwise the entity is appended after all existing ones, and floating texts are kept |
| Worlds.EntitiesInInsertionOrder | src/AWorld.cpp:3-12 | after any series of additions the world lists the previous entities followed by the non-null added ones, in call order |
| Viewports.NewViewport | src/AViewport.cpp:4 | a new viewport has the given size, no world and no overlays |
| Viewports.AspectRatio | src/AViewport.cpp:27-32 | the aspect ratio is 1 for a zero height, and otherwise the ratio r with r · height = width |
| Viewports.SetSize | src/AViewport.cpp:14-17 | only the size changes, and the aspect ratio then satisfies ratio · height = width |
| Viewports.SetRect | src/AWindow.cpp:105 | only the position and size change |
| Viewports.SetWorld | src/AViewport.cpp:6-8 | the world read back afterwards is the one set; nothing else changes |
| Viewports.SetViewMatrix | src/AViewport.cpp:34-36 | the view matrix read back is the one set; nothing else changes |
| Viewports.SetProjectionMatrix | src/AViewport.cpp:38-40 | the projection matrix read back is the one set; nothing else changes |
| Overlays.AddText | src/Overlay.cpp:3-6 | the text is appended, the returned handle designates it, and floating texts are untouched |
| Overlays.AddFloatingText | src/Overlay.cpp:8-11 | the floating text is appended, the returned handle designates it, and screen texts are untouched |
| Overlays.AddTextHandleStable | src/ARenderOverlay.cpp:3-6 | the handle returned for a text still designates that text after any number of further additions; `ARenderOverlay`, whose texts live in their own allocations, adds in the same way |
| FreeCamera.FanOut | src/AFreeCamera.cpp:58-66 | every registered viewport gets the given view and a perspective built from its own aspect ratio; every other field, and every unregistered viewport, is unchanged |
| FreeCamera.UpdateMatrices | src/AFreeCamera.cpp:49-66 | forward becomes the direction of the current yaw and pitch; each registered viewport gets the look-at view from the position towards position + forward and its own perspective; nothing else changes |
| FreeCamera.UpdateMatricesIdempotent | src/AFreeCamera.cpp:49-66 | refreshing the matrices twice gives the same camera and viewports as refreshing once |
| FreeCamera.NewCamera | src/AFreeCamera.cpp:7-14 | the camera is registered with exactly the one viewport, at the given position, with yaw and pitch being the angles of the look-at direction, and forward consistent with them |
| FreeCamera.AddViewport | src/AFreeCamera.cpp:32-35 | the viewport is appended to the registration list; the pose is unchanged and all registrations stay valid |
| FreeCamera.MovedBy | src/AFreeCamera.cpp:77-104 | R and F move exactly one step along world z; keys outside the ten movement keys leave the position where it is |
| FreeCamera.HandleKeyPressed | src/AFreeCamera.cpp:77-107 | a key changes only the position, by the key's move; orientation and registrations are kept and forward stays consistent |
| FreeCamera.OppositeKeysCancel | src/AFreeCamera.cpp:80-101 | pressing a movement key and then its opposite (W/S, Up/Down, A/D, Left/Right, R/F) returns the camera to its starting position |
| FreeCamera.ClampPitch | src/AFreeCamera.cpp:114-116 | the pitch ends in [−89°, 89°], values inside are kept, and values outside are clamped to the nearer bound |
| FreeCamera.HandleMouseMoved | src/AFreeCamera.cpp:109-119 | yaw decreases by dx · sensitivity; pitch decreases by dy · sensitivity and is then clamped; the position is kept |
| FreeCamera.DispatchEvent | src/AFreeCamera.cpp:16-30 | a missing event, or input being disabled, changes nothing; key presses go to the key handler and mouse moves to the mouse handler; every other event is ignored |
| FreeCamera.PitchStaysClamped | src/AFreeCamera.cpp:109-119 | over any sequence of events the pitch stays within ±89°, forward stays consistent, and the registrations do not change |
| Win32Window.MapVirtualKey | src/Win32/AWindowImplWin32.cpp:12-35 | exactly the listed virtual keys map to a scancode; W is reached from 'W' and 'Z' only, A from 'A' and 'Q' only; no key maps to a mouse button |
| Win32Window.OnlyAliasesCollide | src/Win32/AWindowImplWin32.cpp:12-35 | two different listed keys share a scancode only when they are the Z/W or Q/A layout aliases |
| Win32Window.MapMouseButton | src/Win32/AWindowImplWin32.cpp:37-51 | down and up messages of a button map to that button, in both directions of the equivalence; anything else is Unknown |
| Win32Window.SizeRoundTrip | src/Win32/AWindowImplWin32.cpp:277-280 | LOWORD and HIWORD recover a width and height packed into an lParam |
| Win32Window.PointRoundTrip | src/Win32/AWindowImplWin32.cpp:236-237 | GET_X_LPARAM and GET_Y_LPARAM recover signed 16-bit coordinates, negative ones included |
| Win32Window.Create | src/Win32/AWindowImplWin32.cpp:61-107 | creation succeeds exactly when the class was or gets registered and the window is created; success opens the window; a failed registration is retried on the next call |
| Win32Window.Close | src/Win32/AWindowImplWin32.cpp:109-115 | the window is closed and its handle dropped; nothing else changes |
| Win32Window.SetRect | src/Win32/AWindowImplWin32.cpp:153-160 | without a window nothing changes; otherwise exactly the stored size changes |
| Win32Window.CenterCursor | src/Win32/AWindowImplWin32.cpp:282-296 | only a grabbed cursor in an existing window is re-centred, and the last mouse position becomes the client centre (C++ truncating halves) |
| Win32Window.SetCursorGrabbed | src/Win32/AWindowImplWin32.cpp:162-186 | without a window, or when the state is already as requested, nothing changes; grabbing centres the cursor; the event queue, open flag and size are never touched |
| Win32Window.PushEvent | src/Win32/AWindowImplWin32.cpp:273-275 | the event is appended to the queue and nothing else changes |
| Win32Window.HandleSizeChange | src/Win32/AWindowImplWin32.cpp:277-280 | the size becomes the low and high words of the lParam; nothing else changes |
| Win32Window.Handle | src/Win32/AWindowImplWin32.cpp:192-271 | handling a message decides at most one event to queue and never touches the queue, the grab state, the handle or the child flag |
| Win32Window.WndProc | src/Win32/AWindowImplWin32.cpp:192-271 | a message queues at most one event and keeps what was queued before; messages the procedure does not handle go to the default procedure and change nothing |
| Win32Window.WndProcLifecycle | src/Win32/AWindowImplWin32.cpp:205-248 | WM_CLOSE closes the window, queues Closed, returns 0 and destroys the window; WM_DESTROY closes it and posts quit only for a top-level window; WM_SIZE stores the size; WM_ERASEBKGND returns 1 and changes nothing |
| Win32Window.WndProcKeys | src/Win32/AWindowImplWin32.cpp:221-234 | a key message queues a press or release of the mapped key, and queues nothing exactly when the key is unmapped |
| Win32Window.WndProcMouseMove | src/Win32/AWindowImplWin32.cpp:235-245 | a mouse move queues the delta from the last position together with the new position; the new position is remembered, or replaced by the client centre while the cursor is grabbed |
| Win32Window.ButtonEventsNameTheButton | src/Win32/AWindowImplWin32.cpp:249-265 | every button message queues exactly one press or release, naming a real button |
| Win32Window.Pump | src/Win32/AWindowImplWin32.cpp:125-128 | dispatching n messages queues between 0 and n events and keeps the grab state, handle and child flag |
| Win32Window.WndProcAppends | src/Win32/AWindowImplWin32.cpp:192-271 | what a message queues does not depend on what was queued before: the result is the old queue followed by what an empty queue would receive |
| Win32Window.PumpAppends | src/Win32/AWindowImplWin32.cpp:121-128 | dispatching a message sequence appends to the queue exactly what it would queue starting from an empty queue |
| Win32Window.PollEvents | src/Win32/AWindowImplWin32.cpp:121-133 | polling first discards what was queued, then returns exactly the events the pending messages produce, at most one per message, and leaves the queue empty |
| Win32Window.PollTwice | src/Win32/AWindowImplWin32.cpp:121-133 | a second poll with no new messages returns nothing |
| Win32Window.MouseDeltasTelescope | src/Win32/AWindowImplWin32.cpp:235-245 | with the cursor free, the x deltas of a run of mouse moves add up to the total cursor travel |
| LegacyWindow.ToUint32 | src_old_version/Win32Window.cpp:10 | `static_cast<uint32_t>` keeps values in range and otherwise wraps modulo 2^32 |
| LegacyWindow.GetClientSize | src_old_version/Win32Window.cpp:5-13 | the size is 0×0 without a window or client rectangle, and otherwise right − left by bottom − top, as 32-bit unsigned values |
| LegacyWindow.ConsumeResizeFlag | src_old_version/Win32Window.cpp:15-20 | the result is the previous flag, and the flag is clear afterwards |
| LegacyWindow.ConsumeTwice | src_old_version/Win32Window.cpp:15-20 | a second consume right after the first reports no resize |
| LegacyWindow.WindowProc | src_old_version/Win32Window.cpp:109-146 | WM_DESTROY and nothing else posts quit; WM_SIZE on an attached window and nothing else sets the resize flag |
| LegacyWindow.PumpMessages | src_old_version/Win32Window.cpp:65-77 | pumping reports "keep running" exactly when no quit is pending, queued or provoked; with a window, a queued size message sets the resize flag unless the queue also holds `WM_QUIT`; a flag already set stays set |
| LegacyWindow.SizeOnlyQueueKeepsRunning | src_old_version/Win32Window.cpp:65-77 | a queue holding only size messages keeps the loop running and leaves a resize to consume |
| RenderWindows.CreateRenderer | src/AWindow.cpp:14-27 | the factory creates a renderer for every backend except None, and it is for the requested backend |
| RenderWindows.RecreateRenderer | src/AWindow.cpp:151-164 | with backend None nothing happens; a failed initialize drops the renderer and resets the backend to None; success records the size and hands over the world |
| RenderWindows.NewWindow | src/AWindow.cpp:37-45 | the window starts with a full-size viewport and a renderer that matches its backend; the backend is the requested one unless its initialization failed |
| RenderWindows.SetGraphicsBackend | src/AWindow.cpp:128-141 | re-selecting the current backend does nothing; a switch shuts the old renderer down first and ends on the new backend exactly when it is None or initializes |
| RenderWindows.SwitchToNoneDropsRenderer | src/AWindow.cpp:128-141 | switching to None shuts the renderer down and leaves none |
| RenderWindows.Display | src/AWindow.cpp:110-126 | without a renderer nothing happens; the renderer is resized exactly when the client size differs from the last one, and it always receives the world and then a draw |
| RenderWindows.DisplayResizesOnce | src/AWindow.cpp:110-126 | a second display without a size change does not resize again |
| RenderWindows.SetRect | src/AWindow.cpp:101-108 | the viewport takes the new size and the remembered size is invalidated; the window size changes only when a window exists |
| RenderWindows.SetRectForcesResize | src/AWindow.cpp:101-108 | the display after a non-negative set-rect always resizes the renderer |
| RenderWindows.CoherentAlways | src/AWindow.cpp:128-164 | switching, displaying and moving never leave a renderer that disagrees with the selected backend |
| RenderWindows.RenderCreateRenderer | src/ARenderWindow.cpp:12-25 | the render window's factory always creates a renderer, falling back to OpenGL for None |
| RenderWindows.RenderRecreate | src/ARenderWindow.cpp:78-87 | initialize is always called; failure drops the renderer but keeps the backend; success records the size and hands over the world |
| RenderWindows.NewRenderWindow | src/ARenderWindow.cpp:97-105 | the render window keeps its own viewport and backend, and has a renderer exactly when initialization succeeded |
| RenderWindows.RenderSetGraphicsBackend | src/ARenderWindow.cpp:62-72 | re-selecting does nothing; otherwise the backend is taken even if its renderer fails, and the old renderer is shut down first |
| RenderWindows.FailedSwitchDiffers | src/ARenderWindow.cpp:78-87 | after a failed switch, `AWindow` reports backend None while `ARenderWindow` reports the requested backend; neither has a renderer |
| RenderWindows.RenderDisplay | src/ARenderWindow.cpp:43-60 | without a renderer nothing happens; the renderer is resized exactly when the owner's size differs from the last one, and the last call is a draw |
| RenderWindows.RenderSetRect | src/ARenderWindow.cpp:117-121 | the base window is moved and the render viewport takes the new size; nothing else in the renderer state changes |
| RenderWindows.RenderSetRectResizesOnlyOnChange | src/ARenderWindow.cpp:117-121 | despite the set-rect, the next display resizes only when the size differs from the last one rendered |
| RenderTimeTracker.Index | src/ARenderTimeTracker.cpp:44 | each backend's slot is inside the statistics array, and slot 0 belongs to None alone |
| RenderTimeTracker.IndexRoundTrip | src/ARenderTimeTracker.cpp:76 | the slot-to-backend cast used in the report inverts the backend-to-slot cast used when recording |
| RenderTimeTracker.BackendNamesDistinct | src/ARenderTimeTracker.cpp:8-16 | different backends are printed under different names |
| RenderTimeTracker.BackendName | src/ARenderTimeTracker.cpp:8-16 | every backend has a non-empty name, and the name is "None" exactly for the slot without a backend |
| RenderTimeTracker.NewTracker | src/ARenderTimeTracker.cpp:20-22 | a new tracker has one empty slot per backend and its last report at construction time |
| RenderTimeTracker.ReportAndReset | src/ARenderTimeTracker.cpp:55-83 | statistics are always cleared; a report is printed exactly when the total time is positive, with one line per sampled slot |
| RenderTimeTracker.PercentSumOfLines | src/ARenderTimeTracker.cpp:67-80 | the printed percentages of the slots from any point on add up to those slots' share of the total |
| RenderTimeTracker.ReportSumsTo100 | src/ARenderTimeTracker.cpp:55-83 | the percentages of a printed report add up to exactly 100 |
| RenderTimeTracker.Record | src/ARenderTimeTracker.cpp:39-53 | None is not recorded; otherwise only the backend's slot gains the time and one sample. Once the interval has passed, the report is exactly the one for the updated statistics: printed iff their total is positive, with their lines. The statistics are then cleared and the current reading becomes the last report time |
| RenderTimeTracker.RecordedBackendReported | src/ARenderTimeTracker.cpp:67-80 | a report includes a line for every sampled slot |
| RenderTimeTracker.RecordReportNamesBackend | src/ARenderTimeTracker.cpp:39-53 | a report triggered by a recording names the backend just recorded |
| FpsCounter.NewCounter | src/AFpsCounter.cpp:3 | a new counter starts at the current clock reading with nothing counted |
| FpsCounter.Tick | src/AFpsCounter.cpp:5-19 | tick returns the time since the last tick; under a second it accumulates; once a second is reached the rate becomes frames / elapsed and counting restarts |
| FpsCounter.Reset | src/AFpsCounter.cpp:25-30 | reset is the same as a fresh counter at the current reading, and the rate reads 0 |
| FpsCounter.TickKeepsRange | src/AFpsCounter.cpp:5-19 | with a monotone clock, the accumulated time stays in [0, 1) and a refreshed rate is positive and at most the frames counted |
| FpsCounter.TicksWithoutRefresh | src/AFpsCounter.cpp:5-19 | until a second has accumulated, every tick is counted, the rate is kept, and the accumulated time equals the clock's advance |
| Colors.ChannelByte | src/Graphics/DirectX12/DirectX12Renderer.cpp:22 | a channel becomes a byte: 0 at or below 0, 255 at or above 1, and otherwise ⌊255 · c⌋ |
| Colors.ToColorRef | src/Graphics/DirectX12/DirectX12Renderer.cpp:20-25 | the three channels are each clamped and truncated to a byte |
| Colors.ChannelByteClampIdempotent | src/Graphics/OpenGL/OpenGLRenderer.cpp:13 | clamping before conversion changes nothing |
| Colors.ChannelByteMonotone | src/Graphics/DirectX12/DirectX12Renderer.cpp:22 | a brighter channel never gives a smaller byte |
| Numeric.DivTrunc | src/Win32/AWindowImplWin32.cpp:289-290 | C++ integer division truncates toward zero: the remainder a − q·b has the sign of the dividend and is smaller than the divisor in size |
| Numeric.DivTruncOdd | src/Win32/AWindowImplWin32.cpp:289-290 | truncating division is odd in the dividend: (−a)/b = −(a/b) |
| Numeric.DivTruncNotEuclidean | src/Win32/AWindowImplWin32.cpp:289-290 | −7/2 truncates to −3, where Euclidean division gives −4 |
| Projection.NdcOutside | src/Graphics/DirectX12/DirectX12Renderer.cpp:32-34 | for positive w, the NDC depth test `z/w` outside [−1, 1] is the clip-space test z outside [−w, w] |
| Projection.ProjectClip | src/Graphics/DirectX12/DirectX12Renderer.cpp:29-38 | a clip point is rejected exactly when w ≤ 0 or its depth is outside [−w, w] |
| Projection.ScreenPointInside | src/Graphics/DirectX12/DirectX12Renderer.cpp:36-37 | NDC coordinates in [−1, 1] land inside [0, width] × [0, height] |
| Projection.ProjectClipInsideViewport | src/Graphics/DirectX12/DirectX12Renderer.cpp:29-38 | a clip point with w > 0 and all coordinates within [−w, w] is accepted and lands inside the viewport |
| Projection.ProjectToScreen | src/Graphics/DirectX12/DirectX12Renderer.cpp:27-39 | a world point is rejected exactly when its clip position has w ≤ 0 or lies before the near or beyond the far plane |
| Projection.ProjectInsideViewport | src/Graphics/OpenGL/OpenGLRenderer.cpp:18-30 | a point inside the view volume is accepted and lands inside the viewport |
| Clipping.Inside | src/Graphics/DirectX12/DirectX12Renderer.cpp:225-235 | each plane test is "signed distance to the plane ≥ 0" |
| Clipping.SafeDiv | src/Graphics/DirectX12/DirectX12Renderer.cpp:238-244 | the fraction is in [0, 1]; it is 0 for a denominator below 1e-6 in magnitude, and exactly num / den when that is already in range |
| Clipping.ComputeT | src/Graphics/DirectX12/DirectX12Renderer.cpp:245-253 | the corrected crossing fraction is in [0, 1] (see Findings) |
| Clipping.ComputeTAsWritten | src/Graphics/DirectX12/DirectX12Renderer.cpp:245-253 | the crossing fraction as the source computes it is in [0, 1] |
| Clipping.ComputeTIsPlaneFraction | src/Graphics/DirectX12/DirectX12Renderer.cpp:237-254 | the corrected fraction is d_a / (d_a − d_b) of the signed plane distances, for all six planes |
| Clipping.ComputeTAgreesOnLowerPlanes | src/Graphics/DirectX12/DirectX12Renderer.cpp:246-250 | for Left, Bottom and Near the source's formula is the correct one |
| Clipping.ComputeTAsWrittenCollapses | src/Graphics/DirectX12/DirectX12Renderer.cpp:247-251 | for Right, Top and Far, the source's formula gives fraction 0 to every edge that crosses the plane, leaving or entering |
| Clipping.ComputeTAsWrittenCounterexample | src/Graphics/DirectX12/DirectX12Renderer.cpp:247 | an edge from x = 0 to x = 2 with w = 1 is cut at t = 0 by the source's formula, instead of at t = 0.5 |
| Clipping.InterpolateClip | src/Graphics/DirectX12/DirectX12Renderer.cpp:215-223 | t = 0 gives the start vertex, and every plane distance is interpolated linearly along the edge |
| Clipping.EdgeOutput | src/Graphics/DirectX12/DirectX12Renderer.cpp:263-277 | one edge contributes at most two vertices; nothing exactly when both ends are outside; and its last vertex is the end vertex whenever that is inside |
| Clipping.EdgeOutputAsWrittenNoCut | src/Graphics/DirectX12/DirectX12Renderer.cpp:245-277 | with the source's fraction, a crossing edge on Right, Top or Far is not cut: a leaving edge emits its inside start vertex, an entering edge its outside start vertex and then its end vertex |
| Clipping.ClipPolygon | src/Graphics/DirectX12/DirectX12Renderer.cpp:256-280 | one clipping pass at most doubles the vertex count, and an empty polygon stays empty |
| Clipping.ClipPolygonAllInside | src/Graphics/DirectX12/DirectX12Renderer.cpp:256-280 | a polygon wholly inside a plane comes back unchanged, rotated by one vertex, with either fraction |
| Clipping.ClipPolygonAllOutside | src/Graphics/DirectX12/DirectX12Renderer.cpp:256-280 | a polygon wholly outside a plane is removed entirely, with either fraction |
| Clipping.CrossingOnPlane | src/Graphics/DirectX12/DirectX12Renderer.cpp:270-276 | with the corrected fraction, the vertex inserted on a crossing edge lies exactly on the plane (unless the edge is nearly parallel to it) |
| Clipping.EdgeOutputNearInside | src/Graphics/DirectX12/DirectX12Renderer.cpp:263-277 | every vertex an edge emits is inside the plane up to the 1e-6 epsilon, for the corrected fraction on every plane and for the source's fraction on Left, Bottom and Near |
| Clipping.ClipPolygonBounds | src/Graphics/DirectX12/DirectX12Renderer.cpp:256-280 | after a pass, every vertex is inside the plane up to the epsilon (corrected fraction on every plane; source's fraction on Left, Bottom and Near), and a bound that held for any plane before the pass still holds after |
| Clipping.ClipAllInsideVolume | src/Graphics/DirectX12/DirectX12Renderer.cpp:371-384 | a polygon that survives all six passes lies, up to the epsilon, inside every plane its passes cut on: all six with the corrected fraction, Left, Bottom and Near with the source's |
| Clipping.ClipAll | src/Graphics/DirectX12/DirectX12Renderer.cpp:371-384 | the six passes run Left, Right, Bottom, Top, Near, Far; the result has at most 64 times the input's vertices |
| Clipping.ClipAllAsWrittenLowerPlanes | src/Graphics/DirectX12/DirectX12Renderer.cpp:371-384 | a polygon that survives the source's clipper lies inside Left, Bottom and Near up to the epsilon |
| Clipping.ClipAgainstStopsEarly | src/Graphics/DirectX12/DirectX12Renderer.cpp:376-381 | once a plane leaves fewer than three vertices, the remaining planes are skipped |
| Clipping.ClipAgainstContinues | src/Graphics/DirectX12/DirectX12Renderer.cpp:376-381 | a pass that leaves three or more vertices hands exactly them to the remaining planes |
| Clipping.ClipAllInsideUnchanged | src/Graphics/DirectX12/DirectX12Renderer.cpp:371-384 | a polygon inside the view volume comes out with the same vertices, rotated by six |
| Clipping.ClipPolygonAsWrittenKeepsOutside | src/Graphics/DirectX12/DirectX12Renderer.cpp:256-280 | the source's pass against Right, Top or Far over a triangle whose last corner alone is outside keeps that corner, giving the four vertices (v1, v1, v2, v0) |
| Clipping.ClipAllAsWrittenKeepsCorner | src/Graphics/DirectX12/DirectX12Renderer.cpp:371-384 | a triangle inside every plane but Right, with only its first corner beyond Right, keeps that corner through all six of the source's passes |
| Clipping.ClipAllAsWrittenKeepsOutside | src/Graphics/DirectX12/DirectX12Renderer.cpp:371-384 | the triangle (2,0,0,1), (0,0,0,1), (0,0.5,0,1) comes out of the source's clipper still holding (2,0,0,1), which is outside the Right plane |
| Raster.ToScreen | src/Graphics/DirectX12/DirectX12Renderer.cpp:386-396 | the screen vertex carries the clip vertex's colour |
| Raster.ToScreenInViewport | src/Graphics/DirectX12/DirectX12Renderer.cpp:388-395 | a vertex inside all six planes, with w > 0, lands inside the viewport with depth in [0, 1] |
| Raster.FanTriangles | src/Graphics/DirectX12/DirectX12Renderer.cpp:405-418 | no triangle for fewer than three vertices; otherwise every triangle is (0, k, k+1) with 0 < k and k+1 below the vertex count |
| Raster.FanTrianglesIsFan | src/Graphics/DirectX12/DirectX12Renderer.cpp:409-418 | all three branches of the triangulation give the same fan: n − 2 triangles (0, k+1, k+2) |
| Raster.PixelOf | src/Graphics/DirectX12/DirectX12Renderer.cpp:334-338 | a written pixel has byte channels in BGR order and alpha 255 |
| Raster.FragmentAt | src/Graphics/DirectX12/DirectX12Renderer.cpp:301-332 | a degenerate triangle (area below 1e-5) covers nothing; a covered pixel has all edge weights of the area's sign; without interpolation the colour is uniform |
| Raster.IdxInRange | src/Graphics/DirectX12/DirectX12Renderer.cpp:322 | every in-frame pixel's index is inside the buffers |
| Raster.IdxInjective | src/Graphics/DirectX12/DirectX12Renderer.cpp:322 | different pixels have different indices |
| Raster.Span | src/Graphics/DirectX12/DirectX12Renderer.cpp:283-291 | the scanned range is inside [0, size − 1] and not empty |
| Raster.BoundingBox | src/Graphics/DirectX12/DirectX12Renderer.cpp:283-291 | the scanned box lies inside the frame |
| Raster.CoveredInBox | src/Graphics/DirectX12/DirectX12Renderer.cpp:283-316 | every pixel the coverage test accepts is inside the scanned box, so the clamped box loses no pixel |
| Raster.FragmentWeights | src/Graphics/DirectX12/DirectX12Renderer.cpp:312-319 | the normalised weights of a covered pixel are barycentric: non-negative, summing to 1, and reproducing the pixel centre |
| Raster.FragmentDepthIsCombination | src/Graphics/DirectX12/DirectX12Renderer.cpp:320 | a fragment's depth is the barycentric combination of the corner depths |
| Raster.FragmentDepthBetween | src/Graphics/DirectX12/DirectX12Renderer.cpp:320 | a fragment's depth lies between the smallest and largest corner depth |
| Raster.WriteOnlyTouches | src/Graphics/DirectX12/DirectX12Renderer.cpp:322-338 | writing a pixel changes that pixel and no other |
| Raster.ShadePixel | src/Graphics/DirectX12/DirectX12Renderer.cpp:323-339 | the stored depth never increases; a covered fragment strictly nearer than the stored depth replaces it with its depth and colour, and otherwise the pixel stays as it was |
| Raster.RasterizeTriangle | src/Graphics/DirectX12/DirectX12Renderer.cpp:282-343 | every pixel of the frame ends as the depth-tested shade of the triangle over its previous value; a degenerate triangle leaves the frame as it was |
| Raster.ShadeNeverDeepens | src/Graphics/DirectX12/DirectX12Renderer.cpp:323-324 | shading never increases a stored depth, and a fragment at or behind it leaves the pixel unchanged |
| Raster.ShadeOrderIndependent | src/Graphics/DirectX12/DirectX12Renderer.cpp:323-339 | the resulting depth does not depend on the order two triangles are drawn in, and neither does the colour when their depths differ |
| Dx12Renderer.ResolveScreenTexts | src/Graphics/DirectX12/DirectX12Renderer.cpp:53-62 | screen-space texts are passed on one for one, with their text, position, alignment, height and colour |
| Dx12Renderer.ResolveFloatingTexts | src/Graphics/DirectX12/DirectX12Renderer.cpp:64-77 | floating texts are never right-aligned and at most one comes out per text; when all project, each comes out, in order, at its projected position with its text, height and colour; when none does, none comes out |
| Dx12Renderer.ResolveFloatingTextsAppend | src/Graphics/DirectX12/DirectX12Renderer.cpp:64-95 | floating texts are resolved one by one, so resolving a concatenation concatenates the results |
| Dx12Renderer.ResolveFloatingTextsSingle | src/Graphics/DirectX12/DirectX12Renderer.cpp:64-77 | a single floating text yields its resolved copy exactly when it projects, and nothing otherwise |
| Dx12Renderer.FromOverlaysAppend | src/Graphics/DirectX12/DirectX12Renderer.cpp:79-89 | text collection distributes over concatenated overlay lists, so overlays are drawn in list order |
| Dx12Renderer.NullOverlayIgnored | src/Graphics/DirectX12/DirectX12Renderer.cpp:80-82 | a null overlay contributes nothing |
| Dx12Renderer.FromOverlaysBound | src/Graphics/DirectX12/DirectX12Renderer.cpp:79-89 | at most one resolved text per overlay text |
| Dx12Renderer.CollectTexts | src/Graphics/DirectX12/DirectX12Renderer.cpp:50-98 | at most one resolved text per overlay text or world floating text; with only null overlays, the texts are exactly the world's floating texts resolved in order |
| Dx12Renderer.CollectTextsWorldLast | src/Graphics/DirectX12/DirectX12Renderer.cpp:91-95 | when every world floating text projects, they are the last texts collected, in world order, each at its projected position |
| Dx12Renderer.NullOverlaysEmpty | src/Graphics/DirectX12/DirectX12Renderer.cpp:79-82 | a list of null overlays contributes no text |
| Dx12Renderer.TextX | src/Graphics/DirectX12/DirectX12Renderer.cpp:125 | a right-aligned text ends x pixels from the right edge; any other starts at x |
| Dx12Renderer.DrawOverlayText | src/Graphics/DirectX12/DirectX12Renderer.cpp:100-133 | without a DC nothing is drawn; otherwise each collected text is drawn once, in order, at its aligned position (a right-aligned text measured at its own pixel height) and in its clamped colour |
| Dx12Renderer.EntityClipVertices | src/Graphics/DirectX12/DirectX12Renderer.cpp:357-365 | there is one clip vertex per entity vertex, coloured by the per-vertex-or-uniform rule |
| Dx12Renderer.TransformVertices | src/Graphics/DirectX12/DirectX12Renderer.cpp:357-365 | each vertex becomes one clip vertex, in order, carrying its chosen colour |
| Dx12Renderer.ScreenPolygon | src/Graphics/DirectX12/DirectX12Renderer.cpp:386-396 | there is one screen vertex per clipped vertex |
| Dx12Renderer.FillPolygon | src/Graphics/DirectX12/DirectX12Renderer.cpp:398-418 | filling keeps the frame shape and never deepens a pixel; a polygon with fewer than three vertices draws nothing |
| Dx12Renderer.EntityPolygon | src/Graphics/DirectX12/DirectX12Renderer.cpp:345-384 | an entity with fewer than three vertices yields no polygon; the polygon is clipped by the source's clipper (its bounds are stated by Clipping.ClipAllAsWrittenLowerPlanes) |
| Dx12Renderer.DrawEntity | src/Graphics/DirectX12/DirectX12Renderer.cpp:345-419 | drawing one entity keeps the frame shape and never deepens a pixel; an entity clipped away draws nothing |
| Dx12Renderer.DrawEntities | src/Graphics/DirectX12/DirectX12Renderer.cpp:345-419 | drawing all entities keeps the frame shape and never deepens a pixel |
| Dx12Renderer.FreshFrame | src/Graphics/DirectX12/DirectX12Renderer.cpp:464-468 | a new back buffer has the requested size, with every pixel at depth 1 and zero colour |
| Dx12Renderer.Clear | src/Graphics/DirectX12/DirectX12Renderer.cpp:187-189 | clearing resets every pixel to depth 1 and zero colour and keeps the size |
| Dx12Renderer.ReleaseBackBuffer | src/Graphics/DirectX12/DirectX12Renderer.cpp:473-491 | the back buffer is gone and its size reads 0 × 0; nothing else changes |
| Dx12Renderer.EnsureBackBuffer | src/Graphics/DirectX12/DirectX12Renderer.cpp:427-471 | without a window nothing happens; a non-positive size frees the buffer; otherwise a buffer exists exactly when allocation succeeds or one of that size already existed, and it then has the requested size |
| Dx12Renderer.EnsureBackBufferIdempotent | src/Graphics/DirectX12/DirectX12Renderer.cpp:435-437 | ensuring the same size twice is the same as once |
| Dx12Renderer.Resize | src/Graphics/DirectX12/DirectX12Renderer.cpp:156-160 | the size is stored and the back buffer re-ensured; the window and world are kept |
| Dx12Renderer.Initialize | src/Graphics/DirectX12/DirectX12Renderer.cpp:143-149 | initialize succeeds exactly when there is a window; with a positive size and a successful allocation it then has a back buffer of that size |
| Dx12Renderer.Shutdown | src/Graphics/DirectX12/DirectX12Renderer.cpp:151-154 | shutdown frees the buffer and drops the window |
| Dx12Renderer.SetWorld | src/Graphics/DirectX12/DirectX12Renderer.cpp:162-164 | only the world changes |
| Dx12Renderer.Draw | src/Graphics/DirectX12/DirectX12Renderer.cpp:166-425 | a frame is presented exactly when a window, a positive viewport and a buffer of its size exist; every presented depth is at most 1; without a world the frame is clear and has no text; with one, the texts are the collected overlay texts |
| OpenGlRenderer.Initialize | src/Graphics/OpenGL/OpenGLRenderer.cpp:40-48 | initialize always reports success and records the window, size, DC and context it obtained |
| OpenGlRenderer.Shutdown | src/Graphics/OpenGL/OpenGLRenderer.cpp:50-61 | the context and window are dropped; the DC survives only when it existed without a window |
| OpenGlRenderer.ShutdownIdempotent | src/Graphics/OpenGL/OpenGLRenderer.cpp:50-61 | a second shutdown changes nothing |
| OpenGlRenderer.Resize | src/Graphics/OpenGL/OpenGLRenderer.cpp:63-70 | only the size changes |
| OpenGlRenderer.SetWorld | src/Graphics/OpenGL/OpenGLRenderer.cpp:101-103 | only the world changes |
| OpenGlRenderer.EntityBatch | src/Graphics/OpenGL/OpenGLRenderer.cpp:135-167 | an empty entity draws nothing; otherwise a triangle list exactly for three vertices and a fan for the rest, with model-view = view · translate(position), one vertex per entity vertex, and the per-vertex-or-uniform colour |
| OpenGlRenderer.AssemblyMatchesSoftwareFan | src/Graphics/OpenGL/OpenGLRenderer.cpp:154 | the triangles the GL primitive assembles are exactly the software rasterizer's fan |
| OpenGlRenderer.Batches | src/Graphics/OpenGL/OpenGLRenderer.cpp:93-95 | one batch per non-empty entity, none for empty ones, each with the viewport's projection |
| OpenGlRenderer.Anchor | src/Graphics/OpenGL/OpenGLRenderer.cpp:181-188 | a screen-space text anchors at its own position; a world text is skipped exactly when its clip position has w ≤ 0 or lies outside the depth range |
| OpenGlRenderer.AlignX | src/Graphics/OpenGL/OpenGLRenderer.cpp:203-206 | a right-aligned text ends at the anchor; any other starts there |
| OpenGlRenderer.RightAlignmentDiffers | src/Graphics/OpenGL/OpenGLRenderer.cpp:203-206 | the OpenGL and DirectX12 right alignments agree only when the anchor is the middle of the viewport |
| OpenGlRenderer.DrawOverlayText | src/Graphics/OpenGL/OpenGLRenderer.cpp:169-214 | without a DC nothing is drawn; there is never more than one call per text; when every text anchors, each is drawn once, in order, aligned by its width at its own pixel height and in its clamped colour; when none anchors, nothing is drawn |
| OpenGlRenderer.ScreenSpaceTextsAllDrawn | src/Graphics/OpenGL/OpenGLRenderer.cpp:183-185 | screen-space texts are all drawn at their own positions |
| OpenGlRenderer.Draw | src/Graphics/OpenGL/OpenGLRenderer.cpp:72-99 | nothing happens without a DC and context; otherwise the renderer adopts the viewport size, resizing exactly when it differed; without a world nothing is batched and no text drawn |
| OpenGlRenderer.SecondDrawDoesNotResize | src/Graphics/OpenGL/OpenGLRenderer.cpp:77-79 | a second draw of the same viewport does not resize |
| VulkanRenderer.ReleaseBackBuffer | src/Graphics/Vulkan/VulkanRenderer.cpp:237-252 | the DC is freed and the size reads 0 × 0; a bitmap is freed only together with its DC; nothing else changes |
| VulkanRenderer.EnsureBackBuffer | src/Graphics/Vulkan/VulkanRenderer.cpp:217-235 | without a window nothing happens; a bitmap of the right size is kept; otherwise the DC and bitmap are re-created as the allocations allow, and the size is recorded even when they fail |
| VulkanRenderer.EnsureBackBufferIdempotent | src/Graphics/Vulkan/VulkanRenderer.cpp:222-224 | once the bitmap exists, ensuring the same size again changes nothing |
| VulkanRenderer.Resize | src/Graphics/Vulkan/VulkanRenderer.cpp:54-58 | the size is stored and, with a window, the back buffer takes it |
| VulkanRenderer.Initialize | src/Graphics/Vulkan/VulkanRenderer.cpp:16-42 | initialize always reports success, whether or not the instance could be created |
| VulkanRenderer.Shutdown | src/Graphics/Vulkan/VulkanRenderer.cpp:44-52 | shutdown releases the back buffer, instance and window, and keeps the world |
| VulkanRenderer.SetWorld | src/Graphics/Vulkan/VulkanRenderer.cpp:60-63 | only the world changes |
| VulkanRenderer.ProjectClips | src/Graphics/Vulkan/VulkanRenderer.cpp:131-146 | projection never yields more points than vertices |
| VulkanRenderer.ProjectClipsKeepsAll | src/Graphics/Vulkan/VulkanRenderer.cpp:131-146 | with no w = 0, every vertex is projected, in order |
| VulkanRenderer.ProjectClipsDropsZeroW | src/Graphics/Vulkan/VulkanRenderer.cpp:133-135 | a vertex with w = 0 is dropped and leaves the other points as they were |
| VulkanRenderer.BuildPrimitive | src/Graphics/Vulkan/VulkanRenderer.cpp:121-153 | a primitive is built exactly when the entity and its projection both have at least three points; its depth is the mean of the point depths, it is a triangle exactly for three vertices, and it has per-vertex colours exactly when the lengths match |
| VulkanRenderer.PrimitiveDepthInRange | src/Graphics/Vulkan/VulkanRenderer.cpp:143-152 | with per-vertex depths in [0, 1] the averaged depth is in [0, 1] |
| VulkanRenderer.EntityPrimitive | src/Graphics/Vulkan/VulkanRenderer.cpp:112-154 | entities with fewer than three vertices are skipped, and every built primitive is well formed |
| VulkanRenderer.BuildPrimitives | src/Graphics/Vulkan/VulkanRenderer.cpp:112-154 | at most one well-formed primitive per entity, and none when every entity has fewer than three vertices |
| VulkanRenderer.SortFarToNear | src/Graphics/Vulkan/VulkanRenderer.cpp:157-159 | the sort is a permutation ordered by non-increasing depth |
| VulkanRenderer.SortedFromBuilt | src/Graphics/Vulkan/VulkanRenderer.cpp:157-159 | sorting introduces no primitive that was not built |
| VulkanRenderer.Channel16 | src/Graphics/Vulkan/VulkanRenderer.cpp:167-169 | the 16-bit gradient channel is the clamped byte repeated in both halves (byte · 0x0101) |
| VulkanRenderer.SolidColor | src/Graphics/Vulkan/VulkanRenderer.cpp:178-191 | the fill colour is the uniform colour, or with per-vertex colours their channel means with alpha 1 |
| VulkanRenderer.SolidRgbAsWritten | src/Graphics/Vulkan/VulkanRenderer.cpp:193-196 | each channel is the low byte of the truncated 255 · c |
| VulkanRenderer.SolidRgbAgreesInRange | src/Graphics/Vulkan/VulkanRenderer.cpp:193-196 | for channels in [0, 1] the unclamped conversion gives the same colour as the clamped one |
| VulkanRenderer.SolidRgbWrapsAbove | src/Graphics/Vulkan/VulkanRenderer.cpp:193-196 | a red of 1.2 becomes 50 instead of 255 |
| VulkanRenderer.FillOf | src/Graphics/Vulkan/VulkanRenderer.cpp:161-209 | a gradient fill is used exactly for a triangle with per-vertex colours: its three corners, each channel the clamped byte times 0x0101; anything else is a solid polygon whose colour is the unclamped, byte-wrapped conversion of the mean colour |
| VulkanRenderer.ClampedFillOf | src/Graphics/Vulkan/VulkanRenderer.cpp:161-209 | the corrected fill: the same gradient fills, and a solid polygon in the clamped mean colour, saturating at 255 and 0 |
| VulkanRenderer.ClampedFillAgreesInRange | src/Graphics/Vulkan/VulkanRenderer.cpp:193-196 | for mean channels in [0, 1] the source's fill and the clamped fill are the same |
| VulkanRenderer.FillOfWrapsAbove | src/Graphics/Vulkan/VulkanRenderer.cpp:193-196 | a solid quad of red 1.2 is filled with red 50 by the source and 255 by the clamped fill |
| VulkanRenderer.Fills | src/Graphics/Vulkan/VulkanRenderer.cpp:161-210 | one fill per primitive, in drawing order, each as the source computes it (solid colours unclamped) |
| VulkanRenderer.DrawWorld | src/Graphics/Vulkan/VulkanRenderer.cpp:109-210 | the drawn primitives are exactly the built ones, reordered far to near, each filled once as the source fills it |
| VulkanRenderer.Draw | src/Graphics/Vulkan/VulkanRenderer.cpp:65-215 | nothing happens without a window; the back buffer follows the viewport size; a drawn frame is cleared to (18, 22, 28) and shows the built primitives far to near, filled as the source fills them |
| VulkanSetup.FindQueueFamilies | src/VulkanApp.cpp:415-446 | the scan stops at the first prefix holding both capabilities, and reports the last graphics and the last present family within it; each reported family really has its capability |
| VulkanSetup.CompleteIffBothExist | src/VulkanApp.cpp:415-446 | the result is complete exactly when some family does graphics and some family presents |
| VulkanSetup.FirstFamilyDoingBoth | src/VulkanApp.cpp:439-442 | a first family doing both is chosen for both |
| VulkanSetup.LaterGraphicsFamilyWins | src/VulkanApp.cpp:427-430 | a later graphics family overrides an earlier one as long as no family presents yet |
| VulkanSetup.ValidationLayerSupported | src/VulkanApp.cpp:335-356 | validation is supported exactly when the Khronos validation layer is listed |
| VulkanSetup.GatherRequiredExtensions | src/VulkanApp.cpp:358-390 | the surface and Win32-surface extensions come first; debug utils is added, and enabled, exactly when validation is on and the extension is available |
| VulkanSetup.DeviceExtensionsSupported | src/VulkanApp.cpp:392-413 | a device is accepted exactly when it lists the swapchain extension |
| VulkanSetup.SetupDebugMessenger | src/VulkanApp.cpp:174-220 | the messenger is skipped (reporting success) unless validation and debug utils are both on; then success is creation success |
| VulkanSetup.FirstSuitable | src/VulkanApp.cpp:253-272 | the chosen device is suitable and every earlier one is not; there is none exactly when no device is suitable |
| VulkanSetup.PickPhysicalDevice | src/VulkanApp.cpp:239-282 | picking fails without devices; an already chosen device is kept; otherwise the first suitable device is chosen with its queue families and name; only those three fields change |
| VulkanSetup.UniqueQueues | src/VulkanApp.cpp:286-293 | the queue list is graphics then present, without duplicates, with one entry exactly when they coincide |
| VulkanSetup.Initialize | src/VulkanApp.cpp:16-72 | re-initializing does nothing; otherwise set-up succeeds exactly when every mandatory step succeeds and a device can be picked; validation is on exactly in a debug build with the layer |
| VulkanSetup.CreateDevice | src/VulkanApp.cpp:52-69 | the surface, pick and device steps succeed together exactly when each does, and success marks the application initialized |
| VulkanSetup.FreshInitializeChoosesFirstSuitable | src/VulkanApp.cpp:16-72 | a successful first set-up uses the first suitable device, with complete queue families |
| VulkanSetup.Cleanup | src/VulkanApp.cpp:74-102 | every handle is released and the application is no longer initialized, but the chosen physical device and queue families are kept |
| VulkanSetup.CleanupIdempotent | src/VulkanApp.cpp:74-102 | a second cleanup changes nothing |
| VulkanSetup.StaleDeviceAfterCleanup | src/VulkanApp.cpp:74-102 | set-up after cleanup keeps a device that the new enumeration no longer lists |
| VulkanSetup.CleanupReleasingDevice | src/VulkanApp.cpp:74-102 | the corrected cleanup also forgets the physical device, queue families and name |
| VulkanSetup.ReinitializeChoosesAfresh | src/VulkanApp.cpp:239-282 | after the corrected cleanup, set-up picks the first suitable device of the new enumeration |
| VulkanSwapchain.ChooseSwapSurfaceFormat | src_old_version/VulkanApp.cpp:739-751 | the first BGRA8-sRGB / sRGB-nonlinear format is chosen when there is one, and otherwise the first format offered |
| VulkanSwapchain.ChoosePresentMode | src_old_version/VulkanApp.cpp:753-764 | mailbox is chosen exactly when offered, and FIFO otherwise |
| VulkanSwapchain.ChooseSwapExtent | src_old_version/VulkanApp.cpp:766-780 | the surface's extent is used unless it is the 0xFFFFFFFF wildcard; then the client size is clamped into the allowed range, and kept when already inside it |
| VulkanSwapchain.ImageCount | src_old_version/VulkanApp.cpp:514-518 | one image more than the minimum, capped by a non-zero maximum |
| VulkanSwapchain.ImageSharing | src_old_version/VulkanApp.cpp:532-543 | images are shared concurrently between the two families exactly when they differ, and exclusive with no family list otherwise |
| VulkanSwapchain.SharingMatchesUniqueQueues | src_old_version/VulkanApp.cpp:532-543 | the sharing decision agrees with the device's unique-queue list |
| VulkanSwapchain.OldTestIsStricter | src_old_version/VulkanApp.cpp:426-438 | the earlier device test is the current one plus non-empty formats and present modes |
| VulkanSwapchain.OldPickAcceptedByNew | src_old_version/VulkanApp.cpp:408-454 | any device set the earlier version could pick from, the current one can too |
| VulkanSwapchain.RecreateSwapchain | src_old_version/VulkanApp.cpp:1322-1378 | success only when every step succeeds; a failure to create the swapchain changes nothing; once it exists the image count is the new one; every image's frame is forgotten exactly when the steps up to the fence reset succeeded, even if a semaphore then fails; the current frame is kept |
| VulkanSwapchain.SubmitAndPresent | src_old_version/VulkanApp.cpp:1194-1248 | the frame advances modulo the frames in flight exactly when submission succeeds and presentation succeeds or is recovered; the image remembers the frame that used it unless the swapchain was re-created |
| VulkanSwapchain.DrawFrame | src_old_version/VulkanApp.cpp:1157-1250 | a zero-sized window skips the frame successfully; otherwise the resize flag is consumed, the frame advances exactly when it was presented, and the call succeeds exactly when skipped, presented, or recovered from an out-of-date acquire; frame slots stay below the frames in flight |
| VulkanSwapchain.StalePresentClearsImagesInFlight | src_old_version/VulkanApp.cpp:1235-1241 | an out-of-date present that re-creates the swapchain leaves no image associated with a frame |
| VulkanSwapchain.ResizeFailureKeepsNewImages | src_old_version/VulkanApp.cpp:1165-1360 | a resize whose re-creation fails after the new swapchain exists ends the frame with an error, with the new image count but the old image-to-frame map |
| VulkanSwapchain.FramesRotate | src_old_version/VulkanApp.cpp:1248 | n presented frames advance the current frame by n modulo the frames in flight |

## Left out

- Operating-system, GDI, WGL and Vulkan calls are left out because they are foreign calls. Only their outcomes are modelled, as inputs: handles obtained, allocations succeeding, enumerations, and acquire and present results. Their drawing effects are modelled as returned values: the software frame, the drawn texts, the GL batches and the GDI fills.
- Floating point is modelled as real arithmetic. Rounding, overflow to infinity and NaN are not modelled.
- A perspective divide by w = 0 yields 0 in the model; IEEE infinities are not modelled.
- Trigonometry, `normalize`, `cross`, `lookAt` and `perspective` are inputs to the camera, not computed.
- Clock readings are parameters. `ARenderTimeTracker::timeDraw` and `trackDraw` are left out because they only read the clock around a display and use a static instance.
- Printing is left out: the console output of the camera and `VulkanApp`, and the report text format with its one-decimal rounding.
- The Vulkan frame loop's fences and semaphores are left out. They are modelled only through the image-to-frame map.
- Shader modules, pipelines, render passes, framebuffers, command buffers, the vertex buffer and the allocator of the earlier `VulkanApp` are left out because they are only Vulkan object creation. In the swapchain re-creation they are modelled only as the stage at which it fails (`Recreation`).
- `RecreateSwapchain`'s busy-wait while the window is minimised is not modelled. The model takes the re-creation outcome as an input.
- `MAX_FRAMES_IN_FLIGHT` is a parameter, because it is defined in a header that is not part of this model.
- The earlier `VulkanApp`'s device set-up (`Initialize` up to `CreateLogicalDevice`, src_old_version/VulkanApp.cpp:60-111), `CreateInstance`, its helper checks and `FindQueueFamilies` follow the current version and are modelled once through it. The one difference, the swapchain-support test in `PickPhysicalDevice`, is the `needSwapchainSupport` parameter.
- The rest of the earlier `Initialize` (src_old_version/VulkanApp.cpp:113-158) is left out: it creates the allocator, swapchain, image views, render pass, pipeline, framebuffers, command pool, vertex buffer, command buffers and sync objects. Its `Cleanup` (168-272), which destroys them, is left out with it. Both are only Vulkan object creation and destruction.
- `EGraphicsBackend` is assumed to have the declaration order None, OpenGL, Vulkan, DirectX11, DirectX12, because the header is not part of this model.
- The DirectX11 backend is not modelled. It appears only as a factory choice.
- Text extents come from a function parameter of the text and its pixel height, because the font metrics are GDI's. Both backends measure each text in a font created at that height. When `CreateFontA` fails, the source measures in the device context's current font instead; that case is not modelled.
- OpenGL's `viewport.getOverlayTexts()` list is an input (`GlOverlayText`), because it is not part of `AViewport.cpp`.
- `Viewports.SetRect` models `AViewport::setRect`, whose definition is not part of this model. The constructor taking four arguments is taken to start with no world and no overlays.
- Overlays.AddText: returns an index as the handle. `Overlay` returns a reference into a `std::vector`, which later additions can invalidate; dangling references are not modelled. The same holds for AddFloatingText. `ARenderOverlay` stores owning pointers, so its references stay valid; apart from that its add operations are the same and are modelled by the same functions.
- A `WM_CLOSE` message is modelled as a request to destroy the window. The nested `WM_DESTROY` that `DestroyWindow` delivers is a separate message.
- The messages given to `Win32Window.Pump` and `PollEvents` are the ones addressed to this window. `PeekMessage` with a null window handle (src/Win32/AWindowImplWin32.cpp:124) also dispatches other windows' messages, such as a child window's, to their own procedures. Their events land in those windows' queues, so one window's `pollEvents` can clear events meant for another. This cross-window effect is not modelled; the child window is created disabled (src/Win32/AWindowImplWin32.cpp:82), so it receives little input of its own.
- `WndProc`'s path for a window without an attached object is left out: it forwards to the default procedure and changes no state. `WM_NCCREATE` attachment is left out with it.
- The `AWindow` operations that only forward to the Win32 implementation are not modelled separately: `close`, `pollEvents`, `setCursorGrabbed`, `isOpen`, the getters and `setTitle`.
- `Win32Window`'s constructor, destructor and class registration are left out because they are only OS calls.
- Dx12Renderer.ScreenPolygon: states only the vertex count. The position and depth mapping of each vertex is stated by Raster.ToScreen and Raster.ToScreenInViewport.
- Raster.ToScreen: states only that the colour is carried over. The coordinates are bounded by ToScreenInViewport, not given in closed form.
- Dx12Renderer.FillPolygon: states the frame shape and that no depth increases, not every pixel's value. The exact per-pixel effect of one triangle is stated by Raster.RasterizeTriangle.
- Dx12Renderer.DrawEntity: as FillPolygon.
- Dx12Renderer.DrawEntities: as FillPolygon.
- Dx12Renderer.Draw: states no pixel values beyond the clear and the depth bound when a world is present.
- Clipping.EdgeOutput: states the bound of two vertices, when the output is empty, and that an inside end vertex comes last, not the inserted vertex. The inserted vertex is stated by EdgeOutputNearInside, EdgeOutputAsWrittenNoCut and CrossingOnPlane.
- Win32Window.Pump: states only length bounds. Its exact effect is stated by PumpStep, PumpAppends and MouseDeltasTelescope.
- VulkanRenderer.ProjectClips: states only the length bound. Its contents are stated by ProjectClipsKeepsAll and ProjectClipsDropsZeroW.
- VulkanRenderer.EntityPrimitive: states skipping and well-formedness only. The primitive's contents are stated by BuildPrimitive.
- OpenGlRenderer.Batches: states counts and the projection. Each batch's contents are stated by EntityBatch.
- OpenGlRenderer.Draw: states the batch count bound, not each batch.
- OpenGlRenderer.Initialize: the pixel-format negotiation and GL state set-up are left out; only which handles were obtained is modelled.
- LegacyWindow.PumpMessages: the queue is a list of message codes. Messages posted while pumping are modelled only as `WM_QUIT` from `WM_DESTROY`.

## Findings

| source | as written | input that shows it | evidently intended | confidence | as-written member | corrected member |
|---|---|---|---|---|---|---|
| src/Graphics/DirectX12/DirectX12Renderer.cpp:247-251 | for Right, Top and Far the crossing fraction divides by a denominator of the wrong sign, so every crossing edge gets t clamped to 0 and those passes never cut; the DirectX12 renderer can then rasterize vertices outside the view volume | triangle (2,0,0,1), (0,0,0,1), (0,0.5,0,1): the corner (2,0,0,1), beyond Right, survives clipping | t = d_a / (d_a − d_b), so the edge from (0,0,0,1) to (2,0,0,1) is cut at t = 0.5, where x = w, and the clipped polygon lies inside every plane | not executed; high | Clipping.ClipAllAsWrittenKeepsOutside | Clipping.ClipAllInsideVolume |
| src/Graphics/Vulkan/VulkanRenderer.cpp:193-196 | the solid fill colour is `static_cast<int>(c · 255)` with no clamp, and `RGB` keeps only the low byte | red channel 1.2 gives 306, drawn as 50 | clamp to [0, 1] as the gradient path and the other backends do, giving 255 | not executed; medium | VulkanRenderer.FillOfWrapsAbove | VulkanRenderer.ClampedFillOf |
| src/VulkanApp.cpp:74-102 | `Cleanup` destroys the instance but keeps `physicalDevice_`; the next `PickPhysicalDevice` then skips selection | set up with devices [d], clean up, set up again with devices [e]: d, no longer enumerated, stays selected | cleanup forgets the physical device, so the next set-up selects afresh | not executed; low | VulkanSetup.StaleDeviceAfterCleanup | VulkanSetup.ReinitializeChoosesAfresh |

=== FILE: camera.dfy ===
/**
 * `AFreeCamera`: a position and a yaw/pitch orientation driven by key and
 * mouse events, which after every change recomputes its view matrix and pushes
 * it, with a per-viewport projection, to every viewport it was registered with.
 *
 * Trigonometry, `normalize`, `cross`, `lookAt` and `perspective` are inputs
 * (`CameraMath`). Viewports are shared objects in the source; here they live in
 * a store and the camera holds their positions in it.
 */
module FreeCamera {
  import opened LinAlg
  import opened Events
  import opened Viewports

  /** The vector and matrix functions the camera calls, all outside this model. */
  datatype CameraMath = CameraMath(
    /** `normalize(cos p cos y, cos p sin y, sin p)` for yaw y and pitch p. */
    direction: (real, real) -> Vec3,
    /** `atan2(f.y, f.x)` and `asin(f.z)` of `normalize(v)`: the angles of a direction. */
    angles: Vec3 -> (real, real),
    /** `normalize(cross(forward, up))`. */
    rightOf: (Vec3, Vec3) -> Vec3,
    /** `lookAt(eye, focus, up)`. */
    lookAt: (Vec3, Vec3, Vec3) -> Mat4,
    /** `perspective(radians(60), aspect, 0.1, 1000)`. */
    perspective: real -> Mat4)

  /** The member initialisers of the camera's header, which is not part of this model. */
  datatype CameraSettings = CameraSettings(up: Vec3, moveStep: real, sensitivity: real, inputEnabled: bool)

  datatype Camera = Camera(
    position: Vec3, yaw: real, pitch: real, forward: Vec3,
    settings: CameraSettings, viewports: seq<nat>)

  /** `glm::radians(89.0f)`, to the precision of a double. */
  const MaxPitch: real := 1.5533430342749532

  /** Every registered viewport exists in the store. */
  predicate Registered(c: Camera, store: seq<Viewport>) {
    forall k :: 0 <= k < |c.viewports| ==> c.viewports[k] < |store|
  }

  /** The stored forward vector is the direction of the stored angles, as `updateMatrices` leaves it. */
  predicate Consistent(c: Camera, m: CameraMath) {
    c.forward == m.direction(c.yaw, c.pitch)
  }

  /** The viewport as the fan-out loop leaves it: the camera's view and its own projection. */
  function Refreshed(vp: Viewport, view: Mat4, m: CameraMath): Viewport {
    SetProjectionMatrix(SetViewMatrix(vp, view), m.perspective(AspectRatio(vp)))
  }

  /** The fan-out loop over the registered viewports, in registration order. */
  function FanOut(handles: seq<nat>, view: Mat4, m: CameraMath, store: seq<Viewport>): (r: seq<Viewport>)
    requires forall k :: 0 <= k < |handles| ==> handles[k] < |store|
    ensures |r| == |store|
    ensures forall j :: 0 <= j < |store| ==>
      if j in handles then
        r[j].view == view && r[j].projection == m.perspective(AspectRatio(store[j])) &&
        r[j].(view := store[j].view, projection := store[j].projection) == store[j]
      else r[j] == store[j]
  {
    if |handles| == 0 then store
    else
      var prev := FanOut(handles[..|handles| - 1], view, m, store);
      var j := handles[|handles| - 1];
      assert forall i :: i in handles <==> i in handles[..|handles| - 1] || i == j;
      prev[j := Refreshed(prev[j], view, m)]
  }

  /**
   * `updateMatrices`: forward follows yaw and pitch, the view looks from the
   * position one unit along it, and every registered viewport receives that view
   * and a projection built from its own aspect ratio.
   */
  function UpdateMatrices(c: Camera, m: CameraMath, store: seq<Viewport>): (r: (Camera, seq<Viewport>))
    requires Registered(c, store)
    ensures r.0 == c.(forward := m.direction(c.yaw, c.pitch))
    ensures Consistent(r.0, m)
    ensures |r.1| == |store|
    ensures forall j :: 0 <= j < |store| ==>
      if j in c.viewports then
        r.1[j].view == m.lookAt(c.position, Add3(c.position, r.0.forward), c.settings.up) &&
        r.1[j].projection == m.perspective(AspectRatio(store[j])) &&
        r.1[j].(view := store[j].view, projection := store[j].projection) == store[j]
      else r.1[j] == store[j]
  {
    var forward := m.direction(c.yaw, c.pitch);
    var view := m.lookAt(c.position, Add3(c.position, forward), c.settings.up);
    (c.(forward := forward), FanOut(c.viewports, view, m, store))
  }

  /** Refreshing twice gives what refreshing once gives: the matrices depend only on the camera and the sizes. */
  lemma UpdateMatricesIdempotent(c: Camera, m: CameraMath, store: seq<Viewport>)
    requires Registered(c, store)
    ensures var (c1, s1) := UpdateMatrices(c, m, store);
      UpdateMatrices(c1, m, s1) == (c1, s1)
  {
    var (c1, s1) := UpdateMatrices(c, m, store);
    var (c2, s2) := UpdateMatrices(c1, m, s1);
    forall j | 0 <= j < |s1|
      ensures s2[j] == s1[j]
    {
      if j in c.viewports {
        assert s1[j].width == store[j].width && s1[j].height == store[j].height;
        assert AspectRatio(s1[j]) == AspectRatio(store[j]);
      }
    }
    assert s2 == s1;
  }

  /** The constructor: exactly the given viewport registered, angles taken from the initial look direction. */
  function NewCamera(vp: nat, position: Vec3, lookAt: Vec3, settings: CameraSettings,
                     m: CameraMath, store: seq<Viewport>): (r: (Camera, seq<Viewport>))
    requires vp < |store|
    ensures r.0.viewports == [vp]
    ensures r.0.position == position && r.0.settings == settings
    ensures (r.0.yaw, r.0.pitch) == m.angles(Sub3(lookAt, position))
    ensures Consistent(r.0, m)
  {
    var (yaw, pitch) := m.angles(Sub3(lookAt, position));
    UpdateMatrices(Camera(position, yaw, pitch, m.direction(yaw, pitch), settings, [vp]), m, store)
  }

  /** `addViewport`: the viewport is appended to the registration list, then all are refreshed. */
  function AddViewport(c: Camera, vp: nat, m: CameraMath, store: seq<Viewport>): (r: (Camera, seq<Viewport>))
    requires Registered(c, store) && vp < |store|
    ensures r.0.viewports == c.viewports + [vp]
    ensures r.0.position == c.position && r.0.yaw == c.yaw && r.0.pitch == c.pitch
    ensures Registered(r.0, r.1)
  {
    UpdateMatrices(c.(viewports := c.viewports + [vp]), m, store)
  }

  /** The position after one key press, before the matrices are refreshed. */
  function MovedBy(c: Camera, code: Scancode, m: CameraMath): (p: Vec3)
    ensures code == R ==> p == c.position.(z := c.position.z + c.settings.moveStep)
    ensures code == F ==> p == c.position.(z := c.position.z - c.settings.moveStep)
    ensures code !in {W, Up, S, Down, A, Left, D, Right, R, F} ==> p == c.position
  {
    var right := m.rightOf(c.forward, c.settings.up);
    var step := c.settings.moveStep;
    match code
    case W => Add3(c.position, Scale3(c.forward, step))
    case Up => Add3(c.position, Scale3(c.forward, step))
    case S => Sub3(c.position, Scale3(c.forward, step))
    case Down => Sub3(c.position, Scale3(c.forward, step))
    case A => Sub3(c.position, Scale3(right, step))
    case Left => Sub3(c.position, Scale3(right, step))
    case D => Add3(c.position, Scale3(right, step))
    case Right => Add3(c.position, Scale3(right, step))
    case R => c.position.(z := c.position.z + step)
    case F => c.position.(z := c.position.z - step)
    case _ => c.position
  }

  /** `handleKeyPressed`: moves the position, never the angles, and always refreshes the matrices. */
  function HandleKeyPressed(c: Camera, code: Scancode, m: CameraMath, store: seq<Viewport>): (r: (Camera, seq<Viewport>))
    requires Registered(c, store)
    ensures r.0.yaw == c.yaw && r.0.pitch == c.pitch && r.0.viewports == c.viewports
    ensures r.0.position == MovedBy(c, code, m)
    ensures Consistent(r.0, m)
    ensures Registered(r.0, r.1)
  {
    UpdateMatrices(c.(position := MovedBy(c, code, m)), m, store)
  }

  /** Keys that move in opposite directions: forward and back, left and right, up and down. */
  predicate Opposites(a: Scancode, b: Scancode) {
    match a
    case W => b == S
    case S => b == W
    case Up => b == Down
    case Down => b == Up
    case A => b == D
    case D => b == A
    case Left => b == Right
    case Right => b == Left
    case R => b == F
    case F => b == R
    case _ => false
  }

  /** A key and its opposite cancel: forward then back, or right then left, returns to the start. */
  lemma OppositeKeysCancel(c: Camera, m: CameraMath, store: seq<Viewport>, there: Scancode, back: Scancode)
    requires Registered(c, store) && Consistent(c, m)
    requires Opposites(there, back)
    ensures var (c1, s1) := HandleKeyPressed(c, there, m, store);
      HandleKeyPressed(c1, back, m, s1).0.position == c.position
  {
    var (c1, s1) := HandleKeyPressed(c, there, m, store);
    MovesCancel(c, c1, m, there, back);
  }

  /** The position arithmetic behind `OppositeKeysCancel`, for a camera whose direction and settings are unchanged. */
  lemma MovesCancel(c: Camera, c1: Camera, m: CameraMath, there: Scancode, back: Scancode)
    requires Opposites(there, back)
    requires c1.forward == c.forward && c1.settings == c.settings
    requires c1.position == MovedBy(c, there, m)
    ensures MovedBy(c1, back, m) == c.position
  {
    var step := c.settings.moveStep;
    var ahead := Scale3(c.forward, step);
    var side := Scale3(m.rightOf(c.forward, c.settings.up), step);
    match there
    case W => StepsCancel(c.position, ahead);
    case Up => StepsCancel(c.position, ahead);
    case S => StepsCancel(c.position, ahead);
    case Down => StepsCancel(c.position, ahead);
    case A => StepsCancel(c.position, side);
    case Left => StepsCancel(c.position, side);
    case D => StepsCancel(c.position, side);
    case Right => StepsCancel(c.position, side);
    case R =>
    case F =>
  }

  /** A step and its opposite cancel. */
  lemma StepsCancel(p: Vec3, v: Vec3)
    ensures Sub3(Add3(p, v), v) == p && Add3(Sub3(p, v), v) == p
  {
  }

  /** The pitch clamp: inclusive bounds of plus and minus 89 degrees. */
  function ClampPitch(p: real): (r: real)
    ensures -MaxPitch <= r <= MaxPitch
    ensures -MaxPitch <= p <= MaxPitch ==> r == p
    ensures p > MaxPitch ==> r == MaxPitch
    ensures p < -MaxPitch ==> r == -MaxPitch
  {
    if p > MaxPitch then MaxPitch else if p < -MaxPitch then -MaxPitch else p
  }

  /** `handleMouseMoved`: yaw and pitch fall by the scaled deltas, pitch clamped, then a refresh. */
  function HandleMouseMoved(c: Camera, dx: real, dy: real, m: CameraMath, store: seq<Viewport>): (r: (Camera, seq<Viewport>))
    requires Registered(c, store)
    ensures r.0.yaw == c.yaw - dx * c.settings.sensitivity
    ensures r.0.pitch == ClampPitch(c.pitch - dy * c.settings.sensitivity)
    ensures -MaxPitch <= r.0.pitch <= MaxPitch
    ensures r.0.position == c.position && r.0.viewports == c.viewports
    ensures Consistent(r.0, m)
    ensures Registered(r.0, r.1)
  {
    var yaw := c.yaw - dx * c.settings.sensitivity;
    var pitch := ClampPitch(c.pitch - dy * c.settings.sensitivity);
    UpdateMatrices(c.(yaw := yaw, pitch := pitch), m, store)
  }

  /**
   * `dispatchEvent`: a null event, or any event while input is disabled, changes
   * nothing; key presses and mouse moves go to their handlers; any other event is ignored.
   */
  function DispatchEvent(c: Camera, e: Wrappers.Option<Event>, m: CameraMath, store: seq<Viewport>): (r: (Camera, seq<Viewport>))
    requires Registered(c, store)
    ensures e.None? || !c.settings.inputEnabled ==> r == (c, store)
    ensures e.Some? && c.settings.inputEnabled && e.value.KeyPressed? ==> r == HandleKeyPressed(c, e.value.code, m, store)
    ensures e.Some? && c.settings.inputEnabled && e.value.MouseMoved? ==> r == HandleMouseMoved(c, e.value.dx, e.value.dy, m, store)
    ensures e.Some? && !e.value.KeyPressed? && !e.value.MouseMoved? ==> r == (c, store)
    ensures Registered(r.0, r.1)
  {
    if e.None? || !c.settings.inputEnabled then (c, store)
    else
      match e.value
      case KeyPressed(code) => HandleKeyPressed(c, code, m, store)
      case MouseMoved(dx, dy, _, _) => HandleMouseMoved(c, dx, dy, m, store)
      case _ => (c, store)
  }

  /** Whatever events arrive, the pitch reached by a mouse move stays inside the clamp and forward stays consistent. */
  lemma {:induction false} PitchStaysClamped(c: Camera, es: seq<Wrappers.Option<Event>>, m: CameraMath, store: seq<Viewport>)
    requires Registered(c, store) && Consistent(c, m)
    requires -MaxPitch <= c.pitch <= MaxPitch
    ensures var r := DispatchAll(c, es, m, store);
      -MaxPitch <= r.0.pitch <= MaxPitch && Consistent(r.0, m) && r.0.viewports == c.viewports
    decreases |es|
  {
    if |es| > 0 {
      var (c1, s1) := DispatchEvent(c, es[0], m, store);
      PitchStaysClamped(c1, es[1..], m, s1);
    }
  }

  /** Dispatching a list of events in order. */
  function DispatchAll(c: Camera, es: seq<Wrappers.Option<Event>>, m: CameraMath, store: seq<Viewport>): (r: (Camera, seq<Viewport>))
    requires Registered(c, store)
    ensures Registered(r.0, r.1)
    decreases |es|
  {
    if |es| == 0 then (c, store)
    else
      var (c1, s1) := DispatchEvent(c, es[0], m, store);
      DispatchAll(c1, es[1..], m, s1)
  }
}

=== FILE: clipping.dfy ===
/**
 * Homogeneous clipping of the DirectX12 software rasterizer: Sutherland-Hodgman
 * against the six planes of the OpenGL clip volume `-w <= x, y, z <= w`.
 */
module Clipping {
  import opened Numeric
  import opened LinAlg
  import opened Colors
  import opened Seqs

  /** A clip-space position with the colour it carries. */
  datatype ClipVertex = ClipVertex(pos: Vec4, color: Color)

  datatype ClipPlane = Left | Right | Bottom | Top | Near | Far

  /** The order in which the renderer clips. */
  const AllPlanes: seq<ClipPlane> := [Left, Right, Bottom, Top, Near, Far]

  /** Guard on the denominator of the intersection parameter (`1e-6f`). */
  const TEpsilon: real := 0.000001

  /**
   * Signed distance-like measure of a clip-space point from a plane: non-negative
   * exactly on the inner side. It is linear in the point's coordinates.
   */
  function Dist(v: Vec4, p: ClipPlane): real {
    match p
    case Left => v.w + v.x
    case Right => v.w - v.x
    case Bottom => v.w + v.y
    case Top => v.w - v.y
    case Near => v.w + v.z
    case Far => v.w - v.z
  }

  /** The `inside` lambda: the comparison of one coordinate against `w` for each plane. */
  predicate Inside(v: ClipVertex, p: ClipPlane)
    ensures Inside(v, p) <==> Dist(v.pos, p) >= 0.0
  {
    match p
    case Left => v.pos.x >= -v.pos.w
    case Right => v.pos.x <= v.pos.w
    case Bottom => v.pos.y >= -v.pos.w
    case Top => v.pos.y <= v.pos.w
    case Near => v.pos.z >= -v.pos.w
    case Far => v.pos.z <= v.pos.w
  }

  /** The `safeDiv` lambda: 0 for a near-zero denominator, else the quotient clamped to [0,1]. */
  function SafeDiv(num: real, den: real): (t: real)
    ensures 0.0 <= t <= 1.0
    ensures Abs(den) < TEpsilon ==> t == 0.0
    ensures Abs(den) >= TEpsilon && 0.0 <= num / den <= 1.0 ==> t == num / den
  {
    if Abs(den) < TEpsilon then 0.0 else Clamp(num / den, 0.0, 1.0)
  }

  /**
   * The `computeT` lambda exactly as the source writes it. For Right, Top and Far
   * the denominator has the opposite sign to the one the intersection needs.
   */
  function ComputeTAsWritten(a: Vec4, b: Vec4, p: ClipPlane): (t: real)
    ensures 0.0 <= t <= 1.0
  {
    match p
    case Left => SafeDiv(-(a.w + a.x), (b.w - a.w) + (b.x - a.x))
    case Right => SafeDiv(a.w - a.x, (b.w - a.w) - (b.x - a.x))
    case Bottom => SafeDiv(-(a.w + a.y), (b.w - a.w) + (b.y - a.y))
    case Top => SafeDiv(a.w - a.y, (b.w - a.w) - (b.y - a.y))
    case Near => SafeDiv(-(a.w + a.z), (b.w - a.w) + (b.z - a.z))
    case Far => SafeDiv(a.w - a.z, (b.w - a.w) - (b.z - a.z))
  }

  /**
   * `computeT` with the sign of the Right, Top and Far denominators restored; the
   * Left, Bottom and Near cases are the source's own expressions.
   */
  function ComputeT(a: Vec4, b: Vec4, p: ClipPlane): (t: real)
    ensures 0.0 <= t <= 1.0
  {
    match p
    case Left => SafeDiv(-(a.w + a.x), (b.w - a.w) + (b.x - a.x))
    case Right => SafeDiv(a.w - a.x, -((b.w - a.w) - (b.x - a.x)))
    case Bottom => SafeDiv(-(a.w + a.y), (b.w - a.w) + (b.y - a.y))
    case Top => SafeDiv(a.w - a.y, -((b.w - a.w) - (b.y - a.y)))
    case Near => SafeDiv(-(a.w + a.z), (b.w - a.w) + (b.z - a.z))
    case Far => SafeDiv(a.w - a.z, -((b.w - a.w) - (b.z - a.z)))
  }

  lemma SafeDivNegate(num: real, den: real)
    ensures SafeDiv(-num, -den) == SafeDiv(num, den)
  {
    if den != 0.0 {
      var q := num / den;
      assert q * den == num;
      assert q * (-den) == -num;
      assert (-num) / (-den) == q;
    }
  }

  /**
   * The corrected parameter is the fraction of the edge at which the plane measure
   * reaches zero, `Dist(a) / (Dist(a) - Dist(b))`, guarded and clamped as `safeDiv` does.
   */
  lemma ComputeTIsPlaneFraction(a: Vec4, b: Vec4, p: ClipPlane)
    ensures ComputeT(a, b, p) == SafeDiv(Dist(a, p), Dist(a, p) - Dist(b, p))
  {
    var d := Dist(a, p);
    var e := Dist(a, p) - Dist(b, p);
    match p
    case Left =>
      assert (b.w - a.w) + (b.x - a.x) == -e;
      SafeDivNegate(d, e);
    case Bottom =>
      assert (b.w - a.w) + (b.y - a.y) == -e;
      SafeDivNegate(d, e);
    case Near =>
      assert (b.w - a.w) + (b.z - a.z) == -e;
      SafeDivNegate(d, e);
    case Right =>
      assert -((b.w - a.w) - (b.x - a.x)) == e;
    case Top =>
      assert -((b.w - a.w) - (b.y - a.y)) == e;
    case Far =>
      assert -((b.w - a.w) - (b.z - a.z)) == e;
  }

  /** The source's Left, Bottom and Near parameters already agree with the corrected one. */
  lemma ComputeTAgreesOnLowerPlanes(a: Vec4, b: Vec4, p: ClipPlane)
    requires p == Left || p == Bottom || p == Near
    ensures ComputeTAsWritten(a, b, p) == ComputeT(a, b, p)
  {
  }

  /**
   * As written, an edge crossing Right, Top or Far in either direction gets t = 0:
   * the numerator and the denominator always have opposite signs, so the clamp
   * returns 0 and the "intersection" is the start vertex, wherever the plane is.
   */
  lemma ComputeTAsWrittenCollapses(a: Vec4, b: Vec4, p: ClipPlane)
    requires p == Right || p == Top || p == Far
    requires (Dist(a, p) >= 0.0) != (Dist(b, p) >= 0.0)
    ensures ComputeTAsWritten(a, b, p) == 0.0
  {
    var num := Dist(a, p);
    var den := Dist(b, p) - Dist(a, p);
    assert ComputeTAsWritten(a, b, p) == SafeDiv(num, den);
    if Abs(den) >= TEpsilon {
      if num >= 0.0 {
        assert den < 0.0;
        assert num / den <= 0.0;
      } else {
        assert den > 0.0;
        assert num / den < 0.0;
      }
    }
  }

  /** A concrete edge through the Right plane: the crossing is half-way, the source computes 0. */
  lemma ComputeTAsWrittenCounterexample()
    ensures ComputeTAsWritten(Vec4(0.0, 0.0, 0.0, 1.0), Vec4(2.0, 0.0, 0.0, 1.0), Right) == 0.0
    ensures ComputeT(Vec4(0.0, 0.0, 0.0, 1.0), Vec4(2.0, 0.0, 0.0, 1.0), Right) == 0.5
  {
    assert SafeDiv(1.0, -2.0) == 0.0;
    assert SafeDiv(1.0, 2.0) == 0.5;
  }

  /** The `interpolateClip` lambda: position and all four colour channels move by `t` along the edge. */
  function InterpolateClip(a: ClipVertex, b: ClipVertex, t: real): (r: ClipVertex)
    ensures t == 0.0 ==> r == a
    ensures forall p :: Dist(r.pos, p) == Dist(a.pos, p) + t * (Dist(b.pos, p) - Dist(a.pos, p))
  {
    var pos := Vec4(a.pos.x + t * (b.pos.x - a.pos.x), a.pos.y + t * (b.pos.y - a.pos.y),
                    a.pos.z + t * (b.pos.z - a.pos.z), a.pos.w + t * (b.pos.w - a.pos.w));
    var c := Color(a.color.r + t * (b.color.r - a.color.r), a.color.g + t * (b.color.g - a.color.g),
                   a.color.b + t * (b.color.b - a.color.b), a.color.a + t * (b.color.a - a.color.a));
    ClipVertex(pos, c)
  }

  /** The plane measure of an interpolated vertex moves linearly with `t`. */
  lemma InterpolateDist(a: ClipVertex, b: ClipVertex, t: real, p: ClipPlane)
    ensures Dist(InterpolateClip(a, b, t).pos, p) == Dist(a.pos, p) + t * (Dist(b.pos, p) - Dist(a.pos, p))
  {
  }

  /** The vertex that follows vertex `i` around the polygon, `input[(i + 1) % count]`. */
  function Next(input: seq<ClipVertex>, i: nat): ClipVertex
    requires i < |input|
  {
    if i + 1 < |input| then input[i + 1] else input[0]
  }

  /**
   * Which crossing fraction a clipping pass uses: the source's `computeT`, which
   * the renderer runs, or the one with the Right, Top and Far signs restored.
   */
  datatype Fraction = AsWritten | Corrected

  function EdgeT(a: Vec4, b: Vec4, p: ClipPlane, f: Fraction): real {
    if f == AsWritten then ComputeTAsWritten(a, b, p) else ComputeT(a, b, p)
  }

  /** The passes whose inserted vertices lie where the edge meets the plane. */
  predicate CutsOnPlane(f: Fraction, p: ClipPlane) {
    f == Corrected || p == Left || p == Bottom || p == Near
  }

  /**
   * What one edge `cur -> next` contributes to the clipped polygon: nothing when
   * both ends are outside, and otherwise a sequence ending in `next` exactly when
   * `next` is inside.
   */
  function EdgeOutput(cur: ClipVertex, next: ClipVertex, p: ClipPlane, f: Fraction): (out: seq<ClipVertex>)
    ensures |out| <= 2
    ensures out == [] <==> !Inside(cur, p) && !Inside(next, p)
    ensures Inside(next, p) ==> out[|out| - 1] == next
  {
    var ci := Inside(cur, p);
    var ni := Inside(next, p);
    if ci && ni then [next]
    else if ci && !ni then [InterpolateClip(cur, next, EdgeT(cur.pos, next.pos, p, f))]
    else if !ci && ni then [InterpolateClip(cur, next, EdgeT(cur.pos, next.pos, p, f)), next]
    else []
  }

  /**
   * As written, a crossing edge on Right, Top or Far is never cut: a leaving edge
   * emits its inside start vertex, and an entering edge emits its OUTSIDE start
   * vertex followed by the end vertex.
   */
  lemma EdgeOutputAsWrittenNoCut(cur: ClipVertex, next: ClipVertex, p: ClipPlane)
    requires p == Right || p == Top || p == Far
    requires Inside(cur, p) != Inside(next, p)
    ensures EdgeOutput(cur, next, p, AsWritten) == if Inside(cur, p) then [cur] else [cur, next]
  {
    ComputeTAsWrittenCollapses(cur.pos, next.pos, p);
  }

  /** The output of the first `k` edges of the polygon, in the order the loop pushes them. */
  function ClipEdges(input: seq<ClipVertex>, p: ClipPlane, k: nat, f: Fraction): (r: seq<ClipVertex>)
    requires k <= |input|
    ensures |r| <= 2 * k
  {
    if k == 0 then [] else ClipEdges(input, p, k - 1, f) + EdgeOutput(input[k - 1], Next(input, k - 1), p, f)
  }

  /**
   * The `clipPolygon` lambda: one Sutherland-Hodgman pass against plane `p`. Each
   * edge emits at most two vertices, so a pass at most doubles the vertex count;
   * nothing in, nothing out.
   */
  function ClipPolygon(input: seq<ClipVertex>, p: ClipPlane, f: Fraction): (r: seq<ClipVertex>)
    ensures |r| <= 2 * |input|
    ensures |input| == 0 ==> r == []
  {
    if |input| == 0 then [] else ClipEdges(input, p, |input|, f)
  }

  lemma {:induction false} ClipEdgesAllInside(input: seq<ClipVertex>, p: ClipPlane, k: nat, f: Fraction)
    requires k <= |input|
    requires forall i :: 0 <= i < |input| ==> Inside(input[i], p)
    ensures ClipEdges(input, p, k, f) == seq(k, i requires 0 <= i < k => Next(input, i))
  {
    if k > 0 {
      ClipEdgesAllInside(input, p, k - 1, f);
    }
  }

  /** A polygon wholly inside the plane comes back unchanged except rotated left by one place. */
  lemma ClipPolygonAllInside(input: seq<ClipVertex>, p: ClipPlane, f: Fraction)
    requires forall i :: 0 <= i < |input| ==> Inside(input[i], p)
    ensures ClipPolygon(input, p, f) == RotateLeft(input)
  {
    if |input| > 0 {
      ClipEdgesAllInside(input, p, |input|, f);
    }
  }

  lemma {:induction false} ClipEdgesAllOutside(input: seq<ClipVertex>, p: ClipPlane, k: nat, f: Fraction)
    requires k <= |input|
    requires forall i :: 0 <= i < |input| ==> !Inside(input[i], p)
    ensures ClipEdges(input, p, k, f) == []
  {
    if k > 0 {
      ClipEdgesAllOutside(input, p, k - 1, f);
      var next := Next(input, k - 1);
      assert !Inside(next, p) by {
        if k < |input| { assert next == input[k]; } else { assert next == input[0]; }
      }
      assert EdgeOutput(input[k - 1], next, p, f) == [];
    }
  }

  /** A polygon wholly outside the plane is clipped away entirely. */
  lemma ClipPolygonAllOutside(input: seq<ClipVertex>, p: ClipPlane, f: Fraction)
    requires forall i :: 0 <= i < |input| ==> !Inside(input[i], p)
    ensures ClipPolygon(input, p, f) == []
  {
    if |input| > 0 {
      ClipEdgesAllOutside(input, p, |input|, f);
    }
  }

  /** A vertex on the inner side of plane `p` up to the `safeDiv` guard. */
  predicate NearInside(v: ClipVertex, p: ClipPlane) {
    Dist(v.pos, p) > -TEpsilon
  }

  /** Every vertex of `s` measures more than `c` against plane `q`. */
  predicate AllAbove(s: seq<ClipVertex>, q: ClipPlane, c: real) {
    forall i :: 0 <= i < |s| ==> Dist(s[i].pos, q) > c
  }

  lemma InterpolateStaysAbove(a: ClipVertex, b: ClipVertex, t: real, q: ClipPlane, c: real)
    requires 0.0 <= t <= 1.0
    requires Dist(a.pos, q) > c && Dist(b.pos, q) > c
    ensures Dist(InterpolateClip(a, b, t).pos, q) > c
  {
    var r := InterpolateClip(a, b, t);
    assert Dist(r.pos, q) == Dist(a.pos, q) + t * (Dist(b.pos, q) - Dist(a.pos, q));
    BetweenAbove(Dist(a.pos, q), Dist(b.pos, q), t, c);
  }

  /** A point between two values above `c` is above `c`. */
  lemma BetweenAbove(da: real, db: real, t: real, c: real)
    requires 0.0 <= t <= 1.0 && da > c && db > c
    ensures da + t * (db - da) > c
  {
    var u := 1.0 - t;
    assert da + t * (db - da) == u * da + t * db;
    ScaleLe(u, c, da);
    ScaleLe(t, c, db);
    assert u * c + t * c == c;
    if t == 0.0 {
      assert u * da == da;
    } else {
      ScaleLt(t, c, db);
      AddLeLt(u * c, t * c, u * da, t * db);
    }
  }

  lemma AddLeLt(a: real, b: real, x: real, y: real)
    requires a <= x && b < y
    ensures a + b < x + y
  {
  }

  lemma ScaleLe(k: real, x: real, y: real)
    requires k >= 0.0 && x <= y
    ensures k * x <= k * y
  {
  }

  lemma ScaleLt(k: real, x: real, y: real)
    requires k > 0.0 && x < y
    ensures k * x < k * y
  {
  }

  /**
   * For a sign change that exceeds the guard, the guarded fraction `t` is the
   * exact one: `t * (da - db) == da`.
   */
  lemma CrossingFraction(da: real, db: real)
    requires (da >= 0.0) != (db >= 0.0)
    requires Abs(da - db) >= TEpsilon
    ensures SafeDiv(da, da - db) * (da - db) == da
  {
    var den := da - db;
    if da >= 0.0 {
      assert den > 0.0;
      assert da <= den;
      assert 0.0 <= da / den <= 1.0;
    } else {
      assert den < 0.0;
      assert da / den == (-da) / (-den);
      assert -da <= -den;
      assert 0.0 <= da / den <= 1.0;
    }
  }

  /** Moving that fraction along the edge brings the measure to zero. */
  lemma CrossingReachesZero(da: real, db: real, t: real, d: real)
    requires (da >= 0.0) != (db >= 0.0)
    requires Abs(da - db) >= TEpsilon
    requires t == SafeDiv(da, da - db)
    requires d == da + t * (db - da)
    ensures d == 0.0
  {
    CrossingFraction(da, db);
  }

  /**
   * Where an edge crosses the plane by more than the guard, the corrected
   * intersection lies exactly on the plane.
   */
  lemma CrossingOnPlane(cur: ClipVertex, next: ClipVertex, p: ClipPlane)
    requires Inside(cur, p) != Inside(next, p)
    requires Abs(Dist(cur.pos, p) - Dist(next.pos, p)) >= TEpsilon
    ensures Dist(InterpolateClip(cur, next, ComputeT(cur.pos, next.pos, p)).pos, p) == 0.0
  {
    var t := ComputeT(cur.pos, next.pos, p);
    InterpolateDist(cur, next, t, p);
    ComputeTIsPlaneFraction(cur.pos, next.pos, p);
    CrossingReachesZero(Dist(cur.pos, p), Dist(next.pos, p), t, Dist(InterpolateClip(cur, next, t).pos, p));
  }

  lemma AllAboveConcat(s: seq<ClipVertex>, t: seq<ClipVertex>, q: ClipPlane, c: real)
    requires AllAbove(s, q, c) && AllAbove(t, q, c)
    ensures AllAbove(s + t, q, c)
  {
    forall i | 0 <= i < |s + t| ensures Dist((s + t)[i].pos, q) > c {
      if i >= |s| {
        assert (s + t)[i] == t[i - |s|];
      }
    }
  }

  /**
   * Every vertex an edge emits is inside the plane up to the guard, for the
   * corrected fraction and for the source's on Left, Bottom and Near.
   */
  lemma EdgeOutputNearInside(cur: ClipVertex, next: ClipVertex, p: ClipPlane, f: Fraction)
    ensures CutsOnPlane(f, p) ==> AllAbove(EdgeOutput(cur, next, p, f), p, -TEpsilon)
  {
    var ci, ni := Inside(cur, p), Inside(next, p);
    if CutsOnPlane(f, p) && ci != ni {
      if f == AsWritten {
        ComputeTAgreesOnLowerPlanes(cur.pos, next.pos, p);
      }
      var da, db := Dist(cur.pos, p), Dist(next.pos, p);
      var x := InterpolateClip(cur, next, ComputeT(cur.pos, next.pos, p));
      if Abs(da - db) >= TEpsilon {
        CrossingOnPlane(cur, next, p);
      } else {
        ComputeTIsPlaneFraction(cur.pos, next.pos, p);
        assert x == cur;
      }
      assert NearInside(x, p);
    }
  }

  /** An edge whose endpoints both measure more than `c` against `q` emits only such vertices. */
  lemma EdgeOutputStaysAbove(cur: ClipVertex, next: ClipVertex, p: ClipPlane, f: Fraction, q: ClipPlane, c: real)
    requires Dist(cur.pos, q) > c && Dist(next.pos, q) > c
    ensures AllAbove(EdgeOutput(cur, next, p, f), q, c)
  {
    InterpolateStaysAbove(cur, next, EdgeT(cur.pos, next.pos, p, f), q, c);
  }

  lemma {:induction false} ClipEdgesNearInside(input: seq<ClipVertex>, p: ClipPlane, k: nat, f: Fraction)
    requires k <= |input|
    requires CutsOnPlane(f, p)
    ensures AllAbove(ClipEdges(input, p, k, f), p, -TEpsilon)
  {
    if k > 0 {
      ClipEdgesNearInside(input, p, k - 1, f);
      EdgeOutputNearInside(input[k - 1], Next(input, k - 1), p, f);
      AllAboveConcat(ClipEdges(input, p, k - 1, f), EdgeOutput(input[k - 1], Next(input, k - 1), p, f), p, -TEpsilon);
    }
  }

  lemma {:induction false} ClipEdgesStaysAbove(input: seq<ClipVertex>, p: ClipPlane, k: nat, f: Fraction, q: ClipPlane, c: real)
    requires k <= |input|
    requires AllAbove(input, q, c)
    ensures AllAbove(ClipEdges(input, p, k, f), q, c)
  {
    if k > 0 {
      ClipEdgesStaysAbove(input, p, k - 1, f, q, c);
      EdgeOutputStaysAbove(input[k - 1], Next(input, k - 1), p, f, q, c);
      AllAboveConcat(ClipEdges(input, p, k - 1, f), EdgeOutput(input[k - 1], Next(input, k - 1), p, f), q, c);
    }
  }

  /**
   * After a pass that cuts on the plane, every vertex is inside it up to the
   * guard; and for either fraction a bound all inputs satisfy against any plane
   * still holds, since new vertices lie on the segments between old ones.
   */
  lemma ClipPolygonBounds(input: seq<ClipVertex>, p: ClipPlane, f: Fraction, q: ClipPlane, c: real)
    ensures CutsOnPlane(f, p) ==> AllAbove(ClipPolygon(input, p, f), p, -TEpsilon)
    ensures AllAbove(input, q, c) ==> AllAbove(ClipPolygon(input, p, f), q, c)
  {
    if |input| > 0 {
      if CutsOnPlane(f, p) {
        ClipEdgesNearInside(input, p, |input|, f);
      }
      if AllAbove(input, q, c) {
        ClipEdgesStaysAbove(input, p, |input|, f, q, c);
      }
    }
  }

  /** `2^n`: the growth bound of `n` passes. */
  function Pow2(n: nat): (r: nat)
    ensures r >= 1
  {
    if n == 0 then 1 else 2 * Pow2(n - 1)
  }

  lemma MulMonotone(a: nat, x: nat, y: nat)
    requires x <= y
    ensures a * x <= a * y
  {
  }

  /** One more doubling pass keeps the `2^n` growth bound. */
  lemma GrowthStep(m: nat, out: nat, mid: nat, start: nat)
    requires m >= 1
    requires out <= Pow2(m - 1) * mid && mid <= 2 * start
    ensures out <= Pow2(m) * start
  {
    MulMonotone(Pow2(m - 1), mid, 2 * start);
    assert Pow2(m - 1) * (2 * start) == Pow2(m) * start;
  }

  /**
   * The clipping loop: one pass per plane in order, stopping once fewer than three
   * vertices remain. Every pass at most doubles the polygon.
   */
  function ClipAgainst(poly: seq<ClipVertex>, planes: seq<ClipPlane>, f: Fraction): (r: seq<ClipVertex>)
    ensures |r| <= Pow2(|planes|) * |poly|
    decreases |planes|
  {
    if |planes| == 0 then poly
    else
      var next := ClipPolygon(poly, planes[0], f);
      if |next| < 3 then next
      else
        var r := ClipAgainst(next, planes[1..], f);
        GrowthStep(|planes|, |r|, |next|, |poly|);
        r
  }

  /**
   * The polygon clipped against the whole volume, in the renderer's plane order:
   * at most 64 times as many vertices as it started with.
   */
  function ClipAll(poly: seq<ClipVertex>, f: Fraction): (r: seq<ClipVertex>)
    ensures |r| <= 64 * |poly|
  {
    assert Pow2(2) == 4 && Pow2(4) == 16;
    assert Pow2(6) == 64;
    ClipAgainst(poly, AllPlanes, f)
  }

  lemma {:induction false} ClipAgainstNearInside(poly: seq<ClipVertex>, planes: seq<ClipPlane>, f: Fraction, done: set<ClipPlane>)
    requires forall q :: q in done ==> AllAbove(poly, q, -TEpsilon)
    requires |ClipAgainst(poly, planes, f)| >= 3
    ensures forall q :: q in done || (q in planes && CutsOnPlane(f, q)) ==> AllAbove(ClipAgainst(poly, planes, f), q, -TEpsilon)
    decreases |planes|
  {
    if |planes| > 0 {
      var next := ClipPolygon(poly, planes[0], f);
      var done' := if CutsOnPlane(f, planes[0]) then done + {planes[0]} else done;
      forall q | q in done'
        ensures AllAbove(next, q, -TEpsilon)
      {
        ClipPolygonBounds(poly, planes[0], f, q, -TEpsilon);
      }
      if |next| >= 3 {
        ClipAgainstNearInside(next, planes[1..], f, done');
        forall q | q in planes
          ensures q == planes[0] || q in planes[1..]
        {
          var j :| 0 <= j < |planes| && planes[j] == q;
          if j > 0 {
            assert planes[1..][j - 1] == q;
          }
        }
      } else {
        assert false;
      }
    }
  }

  /**
   * A polygon that survives clipping has every vertex inside, up to the guard,
   * each plane its pass cuts on: all six with the corrected fraction, only Left,
   * Bottom and Near with the source's.
   */
  lemma ClipAllInsideVolume(poly: seq<ClipVertex>, f: Fraction)
    ensures |ClipAll(poly, f)| >= 3 ==>
      forall q, i :: CutsOnPlane(f, q) && 0 <= i < |ClipAll(poly, f)| ==> NearInside(ClipAll(poly, f)[i], q)
  {
    var r := ClipAll(poly, f);
    if |r| >= 3 {
      ClipAgainstNearInside(poly, AllPlanes, f, {});
      forall q: ClipPlane, i | CutsOnPlane(f, q) && 0 <= i < |r| ensures NearInside(r[i], q) {
        PlaneListed(q);
        assert AllAbove(r, q, -TEpsilon);
      }
    }
  }

  /** The source's clipper, as the renderer runs it, keeps survivors inside Left, Bottom and Near. */
  lemma ClipAllAsWrittenLowerPlanes(poly: seq<ClipVertex>)
    ensures var r := ClipAll(poly, AsWritten);
      |r| >= 3 ==> forall q, i :: (q == Left || q == Bottom || q == Near) && 0 <= i < |r| ==> NearInside(r[i], q)
  {
    var r := ClipAll(poly, AsWritten);
    ClipAllInsideVolume(poly, AsWritten);
    if |r| >= 3 {
      forall q, i | (q == Left || q == Bottom || q == Near) && 0 <= i < |r| ensures NearInside(r[i], q) {
        assert CutsOnPlane(AsWritten, q);
      }
    }
  }

  lemma PlaneListed(q: ClipPlane)
    ensures q in AllPlanes
  {
    match q
    case Left => assert AllPlanes[0] == q;
    case Right => assert AllPlanes[1] == q;
    case Bottom => assert AllPlanes[2] == q;
    case Top => assert AllPlanes[3] == q;
    case Near => assert AllPlanes[4] == q;
    case Far => assert AllPlanes[5] == q;
  }

  /** A pass that leaves fewer than three vertices ends the loop with that short result. */
  lemma ClipAgainstStopsEarly(poly: seq<ClipVertex>, planes: seq<ClipPlane>, f: Fraction)
    requires |planes| > 0 && |ClipPolygon(poly, planes[0], f)| < 3
    ensures ClipAgainst(poly, planes, f) == ClipPolygon(poly, planes[0], f)
  {
  }

  /** A pass that leaves three or more vertices hands them to the remaining planes. */
  lemma ClipAgainstContinues(poly: seq<ClipVertex>, planes: seq<ClipPlane>, f: Fraction, next: seq<ClipVertex>)
    requires |planes| > 0 && ClipPolygon(poly, planes[0], f) == next && |next| >= 3
    ensures ClipAgainst(poly, planes, f) == ClipAgainst(next, planes[1..], f)
  {
  }

  lemma {:induction false} ClipAgainstAllInside(poly: seq<ClipVertex>, planes: seq<ClipPlane>, f: Fraction)
    requires |poly| >= 3
    requires forall q, i :: q in planes && 0 <= i < |poly| ==> Inside(poly[i], q)
    ensures ClipAgainst(poly, planes, f) == Rotate(poly, |planes|)
    decreases |planes|
  {
    if |planes| > 0 {
      assert planes[0] in planes;
      ClipPolygonAllInside(poly, planes[0], f);
      var next := RotateLeft(poly);
      forall q, i | q in planes[1..] && 0 <= i < |next|
        ensures Inside(next[i], q)
      {
        assert next[i] in multiset(poly);
        var j :| 0 <= j < |poly| && poly[j] == next[i];
        assert q in planes;
      }
      ClipAgainstAllInside(next, planes[1..], f);
    }
  }

  /** A polygon already inside the volume passes all six planes, rotated by six places. */
  lemma ClipAllInsideUnchanged(poly: seq<ClipVertex>, f: Fraction)
    requires |poly| >= 3
    requires forall q, i :: 0 <= i < |poly| ==> Inside(poly[i], q)
    ensures ClipAll(poly, f) == Rotate(poly, 6)
  {
    ClipAgainstAllInside(poly, AllPlanes, f);
  }

  // ------------------------------------------------ the source's clipper on a triangle

  /**
   * The source's pass against Right, Top or Far over a triangle with only its
   * last corner outside keeps that corner: neither edge through it is cut.
   */
  lemma ClipPolygonAsWrittenKeepsOutside(tri: seq<ClipVertex>, p: ClipPlane)
    requires |tri| == 3 && (p == Right || p == Top || p == Far)
    requires Inside(tri[0], p) && Inside(tri[1], p) && !Inside(tri[2], p)
    ensures ClipPolygon(tri, p, AsWritten) == [tri[1], tri[1], tri[2], tri[0]]
  {
    EdgeOutputAsWrittenNoCut(tri[1], tri[2], p);
    EdgeOutputAsWrittenNoCut(tri[2], tri[0], p);
    assert Next(tri, 0) == tri[1] && Next(tri, 1) == tri[2] && Next(tri, 2) == tri[0];
    assert ClipEdges(tri, p, 1, AsWritten) == [tri[1]];
    assert ClipEdges(tri, p, 2, AsWritten) == [tri[1], tri[1]];
  }

  /**
   * A triangle inside every plane but Right, with its first corner beyond Right:
   * the source's clipping loop lets that corner through all six passes.
   */
  lemma ClipAllAsWrittenKeepsCorner(tri: seq<ClipVertex>)
    requires |tri| == 3
    requires forall q, i :: q != Right && 0 <= i < 3 ==> Inside(tri[i], q)
    requires !Inside(tri[0], Right) && Inside(tri[1], Right) && Inside(tri[2], Right)
    ensures tri[0] in ClipAll(tri, AsWritten)
  {
    var afterLeft := RotateLeft(tri);
    var afterRight := [tri[2], tri[2], tri[0], tri[1]];
    ClipLeftInside(tri);
    ClipAgainstContinues(tri, AllPlanes, AsWritten, afterLeft);
    ClipRightKeepsCorner(tri, afterLeft);
    ClipAgainstContinues(afterLeft, AllPlanes[1..], AsWritten, afterRight);
    ClipRestInside(tri, afterRight);
    assert afterRight[2] == tri[0];
  }

  lemma ClipLeftInside(tri: seq<ClipVertex>)
    requires |tri| == 3
    requires forall q, i :: q != Right && 0 <= i < 3 ==> Inside(tri[i], q)
    ensures ClipPolygon(tri, Left, AsWritten) == RotateLeft(tri)
  {
    assert forall i :: 0 <= i < |tri| ==> Inside(tri[i], Left);
    ClipPolygonAllInside(tri, Left, AsWritten);
  }

  lemma ClipRightKeepsCorner(tri: seq<ClipVertex>, afterLeft: seq<ClipVertex>)
    requires |tri| == 3 && afterLeft == RotateLeft(tri)
    requires !Inside(tri[0], Right) && Inside(tri[1], Right) && Inside(tri[2], Right)
    ensures ClipPolygon(afterLeft, Right, AsWritten) == [tri[2], tri[2], tri[0], tri[1]]
  {
    assert afterLeft == [tri[1], tri[2], tri[0]];
    ClipPolygonAsWrittenKeepsOutside(afterLeft, Right);
  }

  lemma ClipRestInside(tri: seq<ClipVertex>, afterRight: seq<ClipVertex>)
    requires |tri| == 3 && afterRight == [tri[2], tri[2], tri[0], tri[1]]
    requires forall q, i :: q != Right && 0 <= i < 3 ==> Inside(tri[i], q)
    ensures ClipAgainst(afterRight, AllPlanes[1..][1..], AsWritten) == Rotate(afterRight, 4)
    ensures multiset(Rotate(afterRight, 4)) == multiset(afterRight)
  {
    var rest := AllPlanes[1..][1..];
    assert rest == [Bottom, Top, Near, Far];
    forall q, i | q in rest && 0 <= i < |afterRight| ensures Inside(afterRight[i], q) {
      assert q != Right;
      assert afterRight[i] in tri;
    }
    ClipAgainstAllInside(afterRight, rest, AsWritten);
  }

  const White: Color := Color(1.0, 1.0, 1.0, 1.0)

  /** A corner beyond the Right plane (x = 2 > w = 1), and two inside every plane. */
  const Beyond: ClipVertex := ClipVertex(Vec4(2.0, 0.0, 0.0, 1.0), White)
  const Origin: ClipVertex := ClipVertex(Vec4(0.0, 0.0, 0.0, 1.0), White)
  const Upper: ClipVertex := ClipVertex(Vec4(0.0, 0.5, 0.0, 1.0), White)

  /**
   * A concrete case: the source's clipper returns the corner (2, 0, 0, 1), which
   * lies outside the volume. `ClipAllInsideVolume` rules this out for the
   * corrected fraction.
   */
  lemma ClipAllAsWrittenKeepsOutside(tri: seq<ClipVertex>)
    requires |tri| == 3 && tri[0] == Beyond && tri[1] == Origin && tri[2] == Upper
    ensures Beyond in ClipAll(tri, AsWritten) && !NearInside(Beyond, Right)
  {
    forall q, i | q != Right && 0 <= i < 3 ensures Inside(tri[i], q) {
      assert tri[i] == Beyond || tri[i] == Origin || tri[i] == Upper;
    }
    ClipAllAsWrittenKeepsCorner(tri);
  }
}

=== FILE: color.dfy ===
/** Entity colours and their conversion to the 8-bit channels GDI expects. */
module Colors {
  import opened Numeric

  /** `AEntity::Color`: four float channels, nominally in [0,1]. */
  datatype Color = Color(r: real, g: real, b: real, a: real)

  /** A GDI `COLORREF`, channel by channel. */
  datatype ColorRef = ColorRef(r: int, g: int, b: int)

  predicate IsByte(v: int) {
    0 <= v < 256
  }

  /** `static_cast<BYTE>(std::clamp(c, 0.0f, 1.0f) * 255.0f)`. */
  function ChannelByte(c: real): (v: int)
    ensures IsByte(v)
    ensures c <= 0.0 ==> v == 0
    ensures c >= 1.0 ==> v == 255
    ensures 0.0 <= c <= 1.0 ==> v as real <= c * 255.0 < v as real + 1.0
  {
    Trunc(Clamp(c, 0.0, 1.0) * 255.0)
  }

  /** `toColorRef` in both the OpenGL and the DirectX12 renderer. */
  function ToColorRef(c: Color): (r: ColorRef)
    ensures IsByte(r.r) && IsByte(r.g) && IsByte(r.b)
    ensures r.r == ChannelByte(c.r) && r.g == ChannelByte(c.g) && r.b == ChannelByte(c.b)
  {
    ColorRef(ChannelByte(c.r), ChannelByte(c.g), ChannelByte(c.b))
  }

  /** Clamping a channel into [0,1] before conversion changes nothing: the conversion already clamps. */
  lemma ChannelByteClampIdempotent(c: real)
    ensures ChannelByte(Clamp(c, 0.0, 1.0)) == ChannelByte(c)
  {
  }

  /** Brighter channels never give smaller bytes. */
  lemma ChannelByteMonotone(c: real, d: real)
    requires c <= d
    ensures ChannelByte(c) <= ChannelByte(d)
  {
    var x := Clamp(c, 0.0, 1.0) * 255.0;
    var y := Clamp(d, 0.0, 1.0) * 255.0;
    assert x <= y;
  }
}

=== FILE: dx12.dfy ===
/**
 * The DirectX12 backend as the source implements it: a GDI DIB-section back
 * buffer filled by the software rasterizer, with overlay and floating text
 * composited on top before the buffer is blitted to the window.
 */
module Dx12Renderer {
  import opened Numeric
  import opened LinAlg
  import opened Colors
  import opened Wrappers
  import opened Overlays
  import opened Entities
  import opened Worlds
  import opened Viewports
  import opened Clipping
  import opened Raster
  import opened Projection

  // ---------------------------------------------------------------- text

  /** `ResolvedText`: a label with its final screen position. */
  datatype ResolvedText = ResolvedText(text: string, x: int, y: int, alignRight: bool, pixelHeight: int, color: Color)

  /** The screen texts of one overlay, in order and unchanged. */
  function ResolveScreenTexts(ts: seq<Text>): (r: seq<ResolvedText>)
    ensures |r| == |ts|
    ensures forall i :: 0 <= i < |ts| ==>
      r[i].text == ts[i].text && r[i].x == ts[i].x && r[i].y == ts[i].y &&
      r[i].alignRight == ts[i].alignRight && r[i].pixelHeight == ts[i].pixelHeight && r[i].color == ts[i].color
  {
    if |ts| == 0 then []
    else
      var t := ts[0];
      [ResolvedText(t.text, t.x, t.y, t.alignRight, t.pixelHeight, t.color)] + ResolveScreenTexts(ts[1..])
  }

  /** Does a floating text project onto the viewport? */
  predicate Projects(f: FloatingText, vp: Viewport) {
    ProjectToScreen(f.worldPosition, vp.view, vp.projection, vp.width, vp.height).Some?
  }

  /** A label that projects, resolved at its screen point and never right-aligned. */
  function ResolveAt(f: FloatingText, vp: Viewport): ResolvedText
    requires Projects(f, vp)
  {
    var s := ProjectToScreen(f.worldPosition, vp.view, vp.projection, vp.width, vp.height).value;
    ResolvedText(f.text, s.0, s.1, false, f.pixelHeight, f.color)
  }

  /**
   * `appendFloatingText` over a list: labels that do not project are dropped, and
   * when all of them project each one is resolved in place.
   */
  function ResolveFloatingTexts(fs: seq<FloatingText>, vp: Viewport): (r: seq<ResolvedText>)
    ensures |r| <= |fs|
    ensures forall i :: 0 <= i < |r| ==> !r[i].alignRight
    ensures (forall j :: 0 <= j < |fs| ==> Projects(fs[j], vp)) ==>
      |r| == |fs| && forall j :: 0 <= j < |fs| ==> r[j] == ResolveAt(fs[j], vp)
    ensures (forall j :: 0 <= j < |fs| ==> !Projects(fs[j], vp)) ==> r == []
  {
    if |fs| == 0 then []
    else
      var f := fs[0];
      var rest := ResolveFloatingTexts(fs[1..], vp);
      assert forall j :: 0 <= j < |fs| - 1 ==> fs[1..][j] == fs[j + 1];
      match ProjectToScreen(f.worldPosition, vp.view, vp.projection, vp.width, vp.height)
      case None => rest
      case Some(s) => [ResolvedText(f.text, s.0, s.1, false, f.pixelHeight, f.color)] + rest
  }

  /** Resolution works label by label: resolving a concatenation concatenates the results. */
  lemma {:induction false} ResolveFloatingTextsAppend(a: seq<FloatingText>, b: seq<FloatingText>, vp: Viewport)
    ensures ResolveFloatingTexts(a + b, vp) == ResolveFloatingTexts(a, vp) + ResolveFloatingTexts(b, vp)
    decreases |a|
  {
    if |a| > 0 {
      assert (a + b)[1..] == a[1..] + b;
      assert (a + b)[0] == a[0];
      ResolveFloatingTextsAppend(a[1..], b, vp);
    } else {
      assert a + b == b;
    }
  }

  /**
   * A single label resolves to itself at its screen point, or to nothing when it
   * does not project; with the append lemma this pins any list's result down to
   * its projecting labels, in order.
   */
  lemma ResolveFloatingTextsSingle(f: FloatingText, vp: Viewport)
    ensures ResolveFloatingTexts([f], vp) == if Projects(f, vp) then [ResolveAt(f, vp)] else []
  {
    assert [f][1..] == [];
  }

  /** The texts of the viewport's overlays in order, skipping null entries. */
  function FromOverlays(os: seq<Option<Overlay>>, vp: Viewport): seq<ResolvedText> {
    if |os| == 0 then []
    else
      var head := match os[0]
        case None => []
        case Some(o) => ResolveScreenTexts(o.texts) + ResolveFloatingTexts(o.floatingTexts, vp);
      head + FromOverlays(os[1..], vp)
  }

  /** The world's floating labels, which the collection appends after the overlay texts. */
  function WorldLabels(vp: Viewport): seq<FloatingText> {
    match vp.world
    case None => []
    case Some(w) => w.floatingTexts
  }

  /**
   * `collectTexts`: the overlays' texts first, then the world's floating labels,
   * never more than the labels available; a list of null overlays contributes
   * nothing.
   */
  function CollectTexts(vp: Viewport): (r: seq<ResolvedText>)
    ensures |r| <= OverlayTextCount(vp.overlays) + |WorldLabels(vp)|
    ensures (forall k :: 0 <= k < |vp.overlays| ==> vp.overlays[k].None?) ==>
      r == ResolveFloatingTexts(WorldLabels(vp), vp)
  {
    FromOverlaysBound(vp.overlays, vp);
    NullOverlaysEmpty(vp.overlays, vp);
    FromOverlays(vp.overlays, vp) + ResolveFloatingTexts(WorldLabels(vp), vp)
  }

  /** When every world label projects, they close the collected list, in order and in place. */
  lemma CollectTextsWorldLast(vp: Viewport)
    requires forall j :: 0 <= j < |WorldLabels(vp)| ==> Projects(WorldLabels(vp)[j], vp)
    ensures |CollectTexts(vp)| >= |WorldLabels(vp)|
    ensures forall j :: 0 <= j < |WorldLabels(vp)| ==>
      CollectTexts(vp)[|CollectTexts(vp)| - |WorldLabels(vp)| + j] == ResolveAt(WorldLabels(vp)[j], vp)
  {
    var a := FromOverlays(vp.overlays, vp);
    var b := ResolveFloatingTexts(WorldLabels(vp), vp);
    assert CollectTexts(vp) == a + b;
    forall j | 0 <= j < |WorldLabels(vp)|
      ensures CollectTexts(vp)[|CollectTexts(vp)| - |WorldLabels(vp)| + j] == ResolveAt(WorldLabels(vp)[j], vp)
    {
      assert (a + b)[|a| + j] == b[j];
    }
  }

  lemma {:induction false} FromOverlaysAppend(a: seq<Option<Overlay>>, b: seq<Option<Overlay>>, vp: Viewport)
    ensures FromOverlays(a + b, vp) == FromOverlays(a, vp) + FromOverlays(b, vp)
    decreases |a|
  {
    if |a| > 0 {
      assert (a + b)[1..] == a[1..] + b;
      FromOverlaysAppend(a[1..], b, vp);
    } else {
      assert a + b == b;
    }
  }

  /** A null overlay pointer contributes nothing, wherever it sits in the list. */
  lemma NullOverlayIgnored(a: seq<Option<Overlay>>, b: seq<Option<Overlay>>, vp: Viewport)
    ensures FromOverlays(a + [None] + b, vp) == FromOverlays(a + b, vp)
  {
    var n: seq<Option<Overlay>> := [None];
    assert FromOverlays(n, vp) == [] by {
      assert n[1..] == [];
    }
    FromOverlaysAppend(a + n, b, vp);
    FromOverlaysAppend(a, n, vp);
    FromOverlaysAppend(a, b, vp);
    assert FromOverlays(a + n, vp) == FromOverlays(a, vp);
  }

  /** The number of labels a viewport could show: all overlay texts plus the world's floating ones. */
  function OverlayTextCount(os: seq<Option<Overlay>>): nat {
    if |os| == 0 then 0
    else (match os[0] case None => 0 case Some(o) => |o.texts| + |o.floatingTexts|) + OverlayTextCount(os[1..])
  }

  lemma {:induction false} FromOverlaysBound(os: seq<Option<Overlay>>, vp: Viewport)
    ensures |FromOverlays(os, vp)| <= OverlayTextCount(os)
  {
    if |os| > 0 {
      FromOverlaysBound(os[1..], vp);
    }
  }

  /** Null overlay pointers contribute no text. */
  lemma {:induction false} NullOverlaysEmpty(os: seq<Option<Overlay>>, vp: Viewport)
    ensures (forall k :: 0 <= k < |os| ==> os[k].None?) ==> FromOverlays(os, vp) == []
  {
    if |os| > 0 && forall k :: 0 <= k < |os| ==> os[k].None? {
      assert forall k :: 0 <= k < |os[1..]| ==> os[1..][k] == os[k + 1];
      NullOverlaysEmpty(os[1..], vp);
    }
  }

  /** Where the text is drawn: right-aligned texts are measured from the right edge by their x. */
  function TextX(viewportWidth: int, t: ResolvedText, extent: int): (x: int)
    ensures t.alignRight ==> x + extent == viewportWidth - t.x
    ensures !t.alignRight ==> x == t.x
  {
    if t.alignRight then viewportWidth - t.x - extent else t.x
  }

  /**
   * `drawOverlayText`: nothing without a device context, otherwise one call per
   * collected text in order. `extent` stands for `GetTextExtentPoint32A`
   * measured in the font created at the text's own pixel height.
   */
  function DrawOverlayText(hasDc: bool, vp: Viewport, extent: (string, int) -> int): (r: seq<DrawnText>)
    ensures !hasDc ==> r == []
    ensures hasDc ==> |r| == |CollectTexts(vp)|
    ensures hasDc ==> forall i :: 0 <= i < |r| ==>
      var t := CollectTexts(vp)[i];
      r[i].y == t.y && r[i].text == t.text && r[i].color == ToColorRef(t.color) &&
      r[i].x == TextX(vp.width, t, extent(t.text, t.pixelHeight))
  {
    if !hasDc then []
    else
      var ts := CollectTexts(vp);
      seq(|ts|, i requires 0 <= i < |ts| =>
        DrawnText(TextX(vp.width, ts[i], extent(ts[i].text, ts[i].pixelHeight)), ts[i].y, ts[i].text, ToColorRef(ts[i].color), ts[i].pixelHeight))
  }

  // -------------------------------------------------------------- entities

  /** The clip-space vertices of an entity under its `mvp` matrix, each with the colour it is drawn with. */
  function EntityClipVertices(e: Entity, mvp: Mat4): (r: seq<ClipVertex>)
    ensures |r| == |e.vertices|
    ensures forall i :: 0 <= i < |r| ==> r[i].color == ResolvedColors(e)[i]
  {
    TransformVertices(mvp, e.vertices, ResolvedColors(e))
  }

  /** The loop that builds the clip vertices, one per model-space vertex with its colour. */
  function TransformVertices(mvp: Mat4, vs: seq<Vec3>, cs: seq<Color>): (r: seq<ClipVertex>)
    requires |cs| == |vs|
    ensures |r| == |vs|
    ensures forall i :: 0 <= i < |r| ==> r[i].color == cs[i]
  {
    if |vs| == 0 then []
    else [ClipVertex(MulMV(mvp, Point(vs[0])), cs[0])] + TransformVertices(mvp, vs[1..], cs[1..])
  }

  /** Depth at every pixel is no further than in `f`. */
  ghost predicate NoDeeper(f: Frame, g: Frame)
    requires Valid(f) && Valid(g) && f.width == g.width && f.height == g.height
  {
    forall x, y :: InFrame(f, x, y) ==> At(g, x, y).0 <= At(f, x, y).0
  }

  /** The perspective divide and viewport mapping of every clipped vertex, in order. */
  function ScreenPolygon(poly: seq<ClipVertex>, width: int, height: int): (r: seq<ScreenVertex>)
    ensures |r| == |poly|
  {
    if |poly| == 0 then [] else [ToScreen(poly[0], width, height)] + ScreenPolygon(poly[1..], width, height)
  }

  /** Rasterize the fan of a screen polygon, triangle by triangle, with one shading mode. */
  method FillPolygon(f: Frame, screen: seq<ScreenVertex>, interpolate: bool, uniform: Color) returns (g: Frame)
    requires Valid(f) && f.width >= 1 && f.height >= 1
    ensures Valid(g) && g.width == f.width && g.height == f.height
    ensures NoDeeper(f, g)
    ensures |screen| < 3 ==> g == f
  {
    g := f;
    var tris := FanTriangles(|screen|);
    if |screen| >= 3 {
      FanTrianglesIsFan(|screen|);
    }
    var k := 0;
    while k < |tris|
      invariant 0 <= k <= |tris|
      invariant Valid(g) && g.width == f.width && g.height == f.height
      invariant NoDeeper(f, g)
      invariant |screen| < 3 ==> g == f
    {
      var tri := Triangle(screen[tris[k].0], screen[tris[k].1], screen[tris[k].2], interpolate, uniform);
      var g' := RasterizeTriangle(g, tri);
      forall x, y | InFrame(f, x, y) ensures At(g', x, y).0 <= At(f, x, y).0 {
        ShadeNeverDeepens(tri, x, y, At(g, x, y));
      }
      g := g';
      k := k + 1;
    }
  }

  /**
   * The polygon an entity contributes: nothing for fewer than three vertices,
   * otherwise its clip-space vertices clipped against the view volume by the
   * source's clipper, which keeps survivors inside Left, Bottom and Near only
   * (`ClipAllAsWrittenLowerPlanes`).
   */
  function EntityPolygon(e: Entity, view: Mat4, projection: Mat4): (r: seq<ClipVertex>)
    ensures |e.vertices| < 3 ==> r == []
  {
    if |e.vertices| < 3 then [] else ClipAll(EntityClipVertices(e, EntityMvp(e, view, projection)), AsWritten)
  }

  /**
   * One iteration of the entity loop: an entity whose polygon has fewer than three
   * vertices, before or after clipping, draws nothing; otherwise every fan triangle
   * of the clipped polygon is rasterized.
   */
  method DrawEntity(f: Frame, e: Entity, view: Mat4, projection: Mat4) returns (g: Frame)
    requires Valid(f) && f.width >= 1 && f.height >= 1
    ensures Valid(g) && g.width == f.width && g.height == f.height
    ensures NoDeeper(f, g)
    ensures |EntityPolygon(e, view, projection)| < 3 ==> g == f
  {
    var poly := EntityPolygon(e, view, projection);
    g := FillPolygon(f, ScreenPolygon(poly, f.width, f.height), HasPerVertexColors(e), e.color);
  }

  // ----------------------------------------------------------- back buffer

  /** The renderer's state: window handle present, requested size, world, and the back buffer if allocated. */
  datatype Dx12 = Dx12(hasWindow: bool, width: int, height: int, world: Option<World>, buffer: Option<Frame>)

  /** Every allocated back buffer is a valid, non-empty frame. */
  predicate Inv(r: Dx12) {
    r.buffer.Some? ==> Valid(r.buffer.value) && r.buffer.value.width >= 1 && r.buffer.value.height >= 1
  }

  function BufferWidth(r: Dx12): int {
    if r.buffer.Some? then r.buffer.value.width else 0
  }

  function BufferHeight(r: Dx12): int {
    if r.buffer.Some? then r.buffer.value.height else 0
  }

  /** A freshly allocated buffer: far depth everywhere, colour bits zero. */
  function FreshFrame(width: nat, height: nat): (f: Frame)
    requires width >= 1 && height >= 1
    ensures Valid(f) && f.width == width && f.height == height
    ensures forall x, y :: InFrame(f, x, y) ==> At(f, x, y) == (1.0, Cleared)
  {
    var f := Frame(width, height, seq(width * height, _ => 1.0), seq(width * height, _ => Cleared));
    forall x, y | InFrame(f, x, y) ensures At(f, x, y) == (1.0, Cleared) {
      IdxInRange(x, y, width, height);
    }
    f
  }

  /** `releaseBackBuffer`: no buffer, size zero. */
  function ReleaseBackBuffer(r: Dx12): (s: Dx12)
    ensures s.buffer.None? && BufferWidth(s) == 0 && BufferHeight(s) == 0
    ensures s.(buffer := r.buffer) == r
  {
    r.(buffer := None)
  }

  /**
   * `ensureBackBuffer`: nothing without a window; release for a non-positive size;
   * keep a buffer of the right size; otherwise reallocate. `allocOk` stands for the
   * success of `CreateDIBSection`.
   */
  function EnsureBackBuffer(r: Dx12, width: int, height: int, allocOk: bool): (s: Dx12)
    requires Inv(r)
    ensures Inv(s)
    ensures !r.hasWindow ==> s == r
    ensures r.hasWindow && (width <= 0 || height <= 0) ==> s.buffer.None?
    ensures r.hasWindow && width > 0 && height > 0 ==>
      (s.buffer.Some? <==> allocOk || (BufferWidth(r) == width && BufferHeight(r) == height))
    ensures r.hasWindow && s.buffer.Some? ==> BufferWidth(s) == width && BufferHeight(s) == height
    ensures s.hasWindow == r.hasWindow && s.world == r.world && s.width == r.width && s.height == r.height
  {
    if !r.hasWindow then r
    else if width <= 0 || height <= 0 then ReleaseBackBuffer(r)
    else if r.buffer.Some? && width == r.buffer.value.width && height == r.buffer.value.height then r
    else if !allocOk then ReleaseBackBuffer(r)
    else r.(buffer := Some(FreshFrame(width, height)))
  }

  /** Asking twice for the same size is the same as asking once. */
  lemma EnsureBackBufferIdempotent(r: Dx12, width: int, height: int, allocOk: bool)
    requires Inv(r)
    ensures EnsureBackBuffer(EnsureBackBuffer(r, width, height, allocOk), width, height, allocOk)
         == EnsureBackBuffer(r, width, height, allocOk)
  {
  }

  /** `resize`: record the size and make the buffer match it. */
  function Resize(r: Dx12, width: int, height: int, allocOk: bool): (s: Dx12)
    requires Inv(r)
    ensures Inv(s) && s.width == width && s.height == height
    ensures s.hasWindow == r.hasWindow && s.world == r.world
  {
    EnsureBackBuffer(r.(width := width, height := height), width, height, allocOk)
  }

  /** `initialize`: store the window and size, allocate, and report whether a window was given. */
  function Initialize(hasWindow: bool, width: int, height: int, world: Option<World>, allocOk: bool): (r: (Dx12, bool))
    ensures Inv(r.0) && r.1 == hasWindow && r.0.hasWindow == hasWindow
    ensures !hasWindow ==> r.0.buffer.None?
    ensures hasWindow && width > 0 && height > 0 && allocOk ==>
      r.0.buffer.Some? && BufferWidth(r.0) == width && BufferHeight(r.0) == height
  {
    (EnsureBackBuffer(Dx12(hasWindow, width, height, world, None), width, height, allocOk), hasWindow)
  }

  /** `shutdown`: release the buffer and forget the window. */
  function Shutdown(r: Dx12): (s: Dx12)
    ensures !s.hasWindow && s.buffer.None?
  {
    ReleaseBackBuffer(r).(hasWindow := false)
  }

  /** `setWorld`: the world whose entities are drawn. */
  function SetWorld(r: Dx12, w: Option<World>): (s: Dx12)
    ensures s.world == w && s.(world := r.world) == r
  {
    r.(world := w)
  }

  // ----------------------------------------------------------------- frame

  /** What one `draw` call shows: nothing, or the back buffer contents and the text calls made on it. */
  datatype Dx12Output = NotPresented | Presented(frame: Frame, texts: seq<DrawnText>)

  /** The fast clear: far depth and zero colour bits in every pixel. */
  function Clear(f: Frame): (g: Frame)
    requires Valid(f)
    ensures Valid(g) && g.width == f.width && g.height == f.height
    ensures forall x, y :: InFrame(g, x, y) ==> At(g, x, y) == (1.0, Cleared)
  {
    var g := Frame(f.width, f.height, seq(|f.depth|, _ => 1.0), seq(|f.color|, _ => Cleared));
    forall x, y | InFrame(g, x, y) ensures At(g, x, y) == (1.0, Cleared) {
      IdxInRange(x, y, g.width, g.height);
    }
    g
  }

  /** The entity loop over the renderer's world, in insertion order. */
  method DrawEntities(f: Frame, es: seq<Entity>, view: Mat4, projection: Mat4) returns (g: Frame)
    requires Valid(f) && f.width >= 1 && f.height >= 1
    ensures Valid(g) && g.width == f.width && g.height == f.height
    ensures NoDeeper(f, g)
  {
    g := f;
    var i := 0;
    while i < |es|
      invariant 0 <= i <= |es|
      invariant Valid(g) && g.width == f.width && g.height == f.height
      invariant NoDeeper(f, g)
    {
      var g' := DrawEntity(g, es[i], view, projection);
      forall x, y | InFrame(f, x, y) ensures At(g', x, y).0 <= At(f, x, y).0 {
        assert At(g', x, y).0 <= At(g, x, y).0;
      }
      g := g';
      i := i + 1;
    }
  }

  /**
   * `DirectX12Renderer::draw`: resize the buffer to the viewport, give up without a
   * window, a positive size or a buffer; clear; with no world present the cleared
   * buffer as is; otherwise draw every entity and then the overlay text.
   */
  method Draw(r: Dx12, vp: Viewport, allocOk: bool, extent: (string, int) -> int) returns (s: Dx12, out: Dx12Output)
    requires Inv(r)
    ensures Inv(s)
    ensures !r.hasWindow ==> s == r && out.NotPresented?
    ensures out.Presented? <==>
      r.hasWindow && vp.width > 0 && vp.height > 0 &&
      (allocOk || (BufferWidth(r) == vp.width && BufferHeight(r) == vp.height))
    ensures out.Presented? ==>
      Valid(out.frame) && out.frame.width == vp.width && out.frame.height == vp.height &&
      s.buffer == Some(out.frame) &&
      forall x, y :: InFrame(out.frame, x, y) ==> At(out.frame, x, y).0 <= 1.0
    ensures out.Presented? && r.world.None? ==>
      out.texts == [] && forall x, y :: InFrame(out.frame, x, y) ==> At(out.frame, x, y) == (1.0, Cleared)
    ensures out.Presented? && r.world.Some? ==> out.texts == DrawOverlayText(true, vp, extent)
  {
    s := r;
    if !s.hasWindow {
      return s, NotPresented;
    }
    if vp.width != BufferWidth(s) || vp.height != BufferHeight(s) {
      s := Resize(s, vp.width, vp.height, allocOk);
    }
    if vp.width <= 0 || vp.height <= 0 {
      return s, NotPresented;
    }
    if s.buffer.None? {
      return s, NotPresented;
    }
    var frame := Clear(s.buffer.value);
    if s.world.None? {
      s := s.(buffer := Some(frame));
      return s, Presented(frame, []);
    }
    var drawn := DrawEntities(frame, s.world.value.entities, vp.view, vp.projection);
    s := s.(buffer := Some(drawn));
    out := Presented(drawn, DrawOverlayText(true, vp, extent));
  }
}

=== FILE: events.dfy ===
/**
 * The engine's input events. Only the key codes and event kinds that the
 * Win32 translation produces or the free camera consumes are modelled; the
 * event header itself is not part of this model.
 */
module Events {

  /** `EEventKey::Scancode`. */
  datatype Scancode =
    | Unknown | Escape
    | W | A | S | D | P | O | R | F | L
    | Up | Down | Left | Right
    | Space | Shift | Control
    | MouseLeft | MouseRight | MouseMiddle

  /** `AEvent` with the payloads the window pushes. */
  datatype Event =
    | Closed
    | KeyPressed(code: Scancode)
    | KeyReleased(code: Scancode)
    | MouseMoved(dx: real, dy: real, x: real, y: real)
    | MouseButtonPressed(button: Scancode)
    | MouseButtonReleased(button: Scancode)
}

=== FILE: fps.dfy ===
/**
 * `AFpsCounter`: frames are counted until a second has accumulated, and
 * the rate is then the frame count over the time it took. Clock readings are
 * parameters in seconds, and `float` is modelled as a real.
 */
module FpsCounter {

  datatype Counter = Counter(lastTime: real, accumulated: real, frames: nat, fps: real)

  /** The constructor: the clock is read, nothing counted yet. */
  function NewCounter(now: real): (c: Counter)
    ensures c.lastTime == now && c.accumulated == 0.0 && c.frames == 0 && c.fps == 0.0
  {
    Counter(now, 0.0, 0, 0.0)
  }

  /**
   * `tick`: returns the time since the previous tick and counts the frame;
   * once a second or more has accumulated the rate is updated and the count
   * starts over.
   */
  function Tick(c: Counter, now: real): (r: (Counter, real))
    ensures r.1 == now - c.lastTime && r.0.lastTime == now
    ensures c.accumulated + r.1 < 1.0 ==>
      r.0 == c.(lastTime := now, accumulated := c.accumulated + r.1, frames := c.frames + 1)
    ensures c.accumulated + r.1 >= 1.0 ==>
      r.0.accumulated == 0.0 && r.0.frames == 0 && r.0.fps * (c.accumulated + r.1) == (c.frames + 1) as real
    ensures r.0.accumulated < 1.0
  {
    var delta := now - c.lastTime;
    var accumulated := c.accumulated + delta;
    var frames := c.frames + 1;
    if accumulated >= 1.0 then (Counter(now, 0.0, 0, frames as real / accumulated), delta)
    else (Counter(now, accumulated, frames, c.fps), delta)
  }

  function GetFps(c: Counter): real {
    c.fps
  }

  /** `reset`: the clock is read again and everything else cleared. */
  function Reset(c: Counter, now: real): (r: Counter)
    ensures r == NewCounter(now)
    ensures GetFps(r) == 0.0
  {
    Counter(now, 0.0, 0, 0.0)
  }

  /** What the counter keeps between ticks when the clock does not run backwards. */
  predicate InRange(c: Counter) {
    0.0 <= c.accumulated < 1.0
  }

  /**
   * With a clock that does not run backwards the accumulated time stays in
   * [0, 1), and a refreshed rate is positive and at most the frames counted,
   * since at least a second went by.
   */
  lemma {:induction false} TickKeepsRange(c: Counter, now: real)
    requires InRange(c) && now >= c.lastTime
    ensures InRange(Tick(c, now).0)
    ensures var r := Tick(c, now).0;
      c.accumulated + (now - c.lastTime) >= 1.0 ==> 0.0 < r.fps <= (c.frames + 1) as real
  {
    var acc := c.accumulated + (now - c.lastTime);
    if acc >= 1.0 {
      var n := (c.frames + 1) as real;
      var f := Tick(c, now).0.fps;
      assert f * acc == n;
      RateBounds(n, acc, f);
    }
  }

  /** A positive count over at least one second is positive and at most the count. */
  lemma RateBounds(n: real, acc: real, f: real)
    requires n >= 1.0 && acc >= 1.0 && f * acc == n
    ensures 0.0 < f <= n
  {
  }

  /** A run of ticks, each at the given clock reading. */
  function Ticks(c: Counter, nows: seq<real>): (r: Counter)
    decreases |nows|
  {
    if |nows| == 0 then c else Ticks(Tick(c, nows[0]).0, nows[1..])
  }

  /**
   * While the rate is not refreshed, the counter holds every tick since the
   * last refresh, and the time accumulated is exactly the clock's advance.
   */
  lemma {:induction false} TicksWithoutRefresh(c: Counter, nows: seq<real>)
    requires c.accumulated + (if |nows| == 0 then 0.0 else nows[|nows| - 1] - c.lastTime) < 1.0
    requires forall i, j :: 0 <= i < j < |nows| ==> nows[i] <= nows[j]
    requires |nows| > 0 ==> c.lastTime <= nows[0]
    ensures var r := Ticks(c, nows);
      r.frames == c.frames + |nows| && r.fps == c.fps
      && r.accumulated == c.accumulated + (r.lastTime - c.lastTime)
    decreases |nows|
  {
    if |nows| > 0 {
      var s := Tick(c, nows[0]).0;
      assert nows[0] <= nows[|nows| - 1];
      assert s.accumulated == c.accumulated + (nows[0] - c.lastTime);
      TicksWithoutRefresh(s, nows[1..]);
      if |nows| == 1 {
        assert Ticks(s, nows[1..]) == s;
      }
    }
  }
}

=== FILE: legacy_window.dfy ===
/**
 * The earlier `Win32Window` that the first Vulkan sample drove: a window
 * that only records that it was resized, posts the quit message when it is
 * destroyed, and a pump that stops at the quit message.
 */
module LegacyWindow {
  import opened Wrappers

  const WmDestroy: int := 0x0002
  const WmSize: int := 0x0005
  const WmPaint: int := 0x000F
  const WmQuit: int := 0x0012

  const Uint32Range: int := 0x1_0000_0000

  /** `hwnd_` (whether the window exists and is attached) and `framebufferResized_`. */
  datatype Window = Window(hasWindow: bool, framebufferResized: bool)

  /** `RECT` as `GetClientRect` fills it. */
  datatype Rect = Rect(left: int, top: int, right: int, bottom: int)

  /** `WindowSize`: two `uint32_t`. */
  datatype WindowSize = WindowSize(width: int, height: int)

  /** `static_cast<uint32_t>` of a difference of two `LONG`s. */
  function ToUint32(v: int): (u: int)
    ensures 0 <= u < Uint32Range
    ensures 0 <= v < Uint32Range ==> u == v
    ensures (u - v) % Uint32Range == 0
  {
    v % Uint32Range
  }

  /**
   * `GetClientSize`: a zero size without a window or when the rectangle cannot
   * be read; otherwise the extents of the client rectangle as unsigned values.
   */
  function GetClientSize(w: Window, rect: Option<Rect>): (s: WindowSize)
    ensures !w.hasWindow || rect.None? ==> s == WindowSize(0, 0)
    ensures w.hasWindow && rect.Some? && rect.value.left <= rect.value.right < rect.value.left + Uint32Range ==>
      s.width == rect.value.right - rect.value.left
    ensures w.hasWindow && rect.Some? && rect.value.top <= rect.value.bottom < rect.value.top + Uint32Range ==>
      s.height == rect.value.bottom - rect.value.top
    ensures 0 <= s.width < Uint32Range && 0 <= s.height < Uint32Range
  {
    if w.hasWindow && rect.Some? then
      WindowSize(ToUint32(rect.value.right - rect.value.left), ToUint32(rect.value.bottom - rect.value.top))
    else WindowSize(0, 0)
  }

  /** `ConsumeResizeFlag`: reports whether a resize happened since the last call, and forgets it. */
  function ConsumeResizeFlag(w: Window): (r: (Window, bool))
    ensures r.1 == w.framebufferResized
    ensures !r.0.framebufferResized && r.0.hasWindow == w.hasWindow
  {
    (w.(framebufferResized := false), w.framebufferResized)
  }

  /** A resize is reported once: the next call reports none. */
  lemma ConsumeTwice(w: Window)
    ensures !ConsumeResizeFlag(ConsumeResizeFlag(w).0).1
  {
  }

  /**
   * The thread's message queue as `PeekMessage` sees it: the posted messages,
   * and whether `PostQuitMessage` has been called, whose quit message is
   * delivered once the queue is otherwise empty.
   */
  datatype Queue = Queue(messages: seq<int>, quitPosted: bool)

  /**
   * `WindowProc`: destroying posts the quit message and returns 0; a size
   * change marks the framebuffer as resized when the window is attached; other
   * messages leave the window as it is.
   */
  function WindowProc(w: Window, q: Queue, msg: int): (r: (Window, Queue))
    ensures r.1.messages == q.messages
    ensures r.1.quitPosted <==> q.quitPosted || msg == WmDestroy
    ensures r.0.framebufferResized <==> w.framebufferResized || (msg == WmSize && w.hasWindow)
    ensures r.0.hasWindow == w.hasWindow
  {
    if msg == WmDestroy then (w, q.(quitPosted := true))
    else if msg == WmSize && w.hasWindow then (w.(framebufferResized := true), q)
    else (w, q)
  }

  /**
   * `PumpMessages`: dispatches queued messages until the queue is empty
   * (true) or the quit message is taken from it (false). A message after the
   * quit message stays queued.
   */
  function PumpMessages(w: Window, q: Queue): (r: (Window, Queue, bool))
    ensures r.2 <==> !q.quitPosted && WmQuit !in q.messages && WmDestroy !in q.messages
    ensures r.2 ==> r.1 == Queue([], false)
    ensures r.0.hasWindow == w.hasWindow
    ensures w.framebufferResized ==> r.0.framebufferResized
    ensures w.hasWindow && WmSize in q.messages && WmQuit !in q.messages ==> r.0.framebufferResized
    decreases |q.messages|
  {
    if |q.messages| == 0 then
      if q.quitPosted then (w, Queue([], false), false) else (w, q, true)
    else if q.messages[0] == WmQuit then (w, q.(messages := q.messages[1..]), false)
    else
      var s := WindowProc(w, q.(messages := q.messages[1..]), q.messages[0]);
      var r := PumpMessages(s.0, s.1);
      assert q.messages == [q.messages[0]] + q.messages[1..];
      r
  }

  /** Pumping a queue that only holds size changes keeps the loop running and marks the resize. */
  lemma SizeOnlyQueueKeepsRunning(w: Window, ms: seq<int>)
    requires w.hasWindow && |ms| > 0
    requires forall i :: 0 <= i < |ms| ==> ms[i] == WmSize
    ensures var r := PumpMessages(w, Queue(ms, false));
      r.2 && ConsumeResizeFlag(r.0).1
  {
  }
}

=== FILE: linalg.dfy ===
/**
 * The small slice of glm the renderers use: 3- and 4-component vectors and
 * column-major 4x4 matrices with plain multiplication.
 */
module LinAlg {

  datatype Vec2 = Vec2(x: real, y: real)
  datatype Vec3 = Vec3(x: real, y: real, z: real)
  datatype Vec4 = Vec4(x: real, y: real, z: real, w: real)

  /** Column-major, as glm stores a `mat4`. */
  datatype Mat4 = Mat4(c0: Vec4, c1: Vec4, c2: Vec4, c3: Vec4)

  function Add3(a: Vec3, b: Vec3): Vec3 {
    Vec3(a.x + b.x, a.y + b.y, a.z + b.z)
  }

  function Sub3(a: Vec3, b: Vec3): Vec3 {
    Vec3(a.x - b.x, a.y - b.y, a.z - b.z)
  }

  function Scale3(a: Vec3, s: real): Vec3 {
    Vec3(a.x * s, a.y * s, a.z * s)
  }

  function Add4(a: Vec4, b: Vec4): Vec4 {
    Vec4(a.x + b.x, a.y + b.y, a.z + b.z, a.w + b.w)
  }

  function Scale4(a: Vec4, s: real): Vec4 {
    Vec4(a.x * s, a.y * s, a.z * s, a.w * s)
  }

  /** `glm::vec4(v, 1.0f)`: a position in homogeneous coordinates. */
  function Point(v: Vec3): Vec4 {
    Vec4(v.x, v.y, v.z, 1.0)
  }

  /** Matrix times column vector. */
  function MulMV(m: Mat4, v: Vec4): Vec4 {
    Add4(Add4(Scale4(m.c0, v.x), Scale4(m.c1, v.y)), Add4(Scale4(m.c2, v.z), Scale4(m.c3, v.w)))
  }

  /** Matrix product: column j of `a * b` is `a` applied to column j of `b`. */
  function MulMM(a: Mat4, b: Mat4): Mat4 {
    Mat4(MulMV(a, b.c0), MulMV(a, b.c1), MulMV(a, b.c2), MulMV(a, b.c3))
  }

  function Identity(): Mat4 {
    Mat4(Vec4(1.0, 0.0, 0.0, 0.0), Vec4(0.0, 1.0, 0.0, 0.0), Vec4(0.0, 0.0, 1.0, 0.0), Vec4(0.0, 0.0, 0.0, 1.0))
  }

  /** `glm::translate(glm::mat4(1.0f), p)`. */
  function Translate(p: Vec3): (m: Mat4)
    ensures m.c0 == Identity().c0 && m.c1 == Identity().c1 && m.c2 == Identity().c2
    ensures m.c3 == Point(p)
  {
    Mat4(Identity().c0, Identity().c1, Identity().c2, Point(p))
  }

  /** The model matrix of an entity moves each of its vertices by the entity's position. */
  lemma TranslateMovesPoint(p: Vec3, v: Vec3)
    ensures MulMV(Translate(p), Point(v)) == Point(Add3(v, p))
  {
  }
}

=== FILE: numeric.dfy ===
/** Real-number helpers that spell out the C++ conversions the renderers rely on. */
module Numeric {

  /** `static_cast<int>` of a real: truncation toward zero. */
  function Trunc(x: real): (r: int)
    ensures x >= 0.0 ==> 0 <= r && r as real <= x < r as real + 1.0
    ensures x < 0.0 ==> r <= 0 && r as real - 1.0 < x <= r as real
  {
    if x >= 0.0 then x.Floor else -((-x).Floor)
  }

  /** `std::floor` as a real. */
  function FloorR(x: real): (r: real)
    ensures r <= x < r + 1.0
    ensures r == r.Floor as real
  {
    x.Floor as real
  }

  /** `std::ceil` as a real. */
  function CeilR(x: real): (r: real)
    ensures r - 1.0 < x <= r
    ensures r == r.Floor as real
  {
    var n := -((-x).Floor);
    assert (-x).Floor as real <= -x;
    n as real
  }

  /** `std::clamp(v, lo, hi)`, written the way the standard library evaluates it. */
  function Clamp(v: real, lo: real, hi: real): (r: real)
    requires lo <= hi
    ensures lo <= r <= hi
    ensures lo <= v <= hi ==> r == v
    ensures v < lo ==> r == lo
    ensures hi < v ==> r == hi
  {
    if v < lo then lo else if hi < v then hi else v
  }

  function Abs(x: real): (r: real)
    ensures r >= 0.0
    ensures r == x || r == -x
  {
    if x < 0.0 then -x else x
  }

  function Min3(a: real, b: real, c: real): (r: real)
    ensures r <= a && r <= b && r <= c
    ensures r == a || r == b || r == c
  {
    if a <= b && a <= c then a else if b <= c then b else c
  }

  function Max3(a: real, b: real, c: real): (r: real)
    ensures r >= a && r >= b && r >= c
    ensures r == a || r == b || r == c
  {
    if a >= b && a >= c then a else if b >= c then b else c
  }

  /**
   * Division by a homogeneous w. The model yields 0 for a zero divisor where IEEE
   * arithmetic would produce an infinity or a NaN.
   */
  function DivOrZero(a: real, b: real): (r: real)
    ensures b != 0.0 ==> r * b == a
    ensures b == 0.0 ==> r == 0.0
  {
    if b == 0.0 then 0.0 else a / b
  }

  /** A coordinate inside [-w, w] divided by a positive w lies in [-1, 1]. */
  lemma NdcInUnitRange(c: real, w: real)
    requires w > 0.0 && -w <= c <= w
    ensures -1.0 <= DivOrZero(c, w) <= 1.0
  {
    assert DivOrZero(c, w) == c / w;
  }

  /** A fraction of a non-negative length stays within it. */
  lemma ScaleUnit(u: real, k: real, p: real)
    requires 0.0 <= u <= 1.0 && k >= 0.0 && p == u * k
    ensures 0.0 <= p <= k
  {
  }

  /**
   * C++ integer division: the quotient truncated toward zero, so the remainder
   * `a - q * b` takes the sign of the dividend and is smaller than `b` in size.
   */
  function DivTrunc(a: int, b: int): (q: int)
    requires b > 0
    ensures a >= 0 ==> 0 <= a - q * b < b
    ensures a < 0 ==> -b < a - q * b <= 0
    ensures q * b <= a < q * b + b || q * b - b < a <= q * b
  {
    if a >= 0 then a / b else -((-a) / b)
  }

  /** Truncation is odd in the dividend, which floor division is not. */
  lemma DivTruncOdd(a: int, b: int)
    requires b > 0
    ensures DivTrunc(-a, b) == -DivTrunc(a, b)
  {
  }

  /** −7 / 2 is −3 in C++, where Dafny's Euclidean division gives −4. */
  lemma DivTruncNotEuclidean()
    ensures DivTrunc(-7, 2) == -3 && (-7) / 2 == -4
  {
  }
}

=== FILE: opengl.dfy ===
/**
 * The OpenGL backend: a WGL context on the window's device context, one
 * immediate-mode batch per entity under fixed-function matrices, and GDI text
 * drawn after the buffers are swapped. The GL and WGL calls themselves are
 * foreign; the model records what each `draw` hands to them.
 */
module OpenGlRenderer {
  import opened LinAlg
  import opened Colors
  import opened Wrappers
  import opened Overlays
  import opened Entities
  import opened Worlds
  import opened Viewports
  import opened Projection
  import Raster
  import Dx12Renderer

  // ---------------------------------------------------------------- state

  /**
   * The renderer's fields: whether `GetDC` and `wglCreateContext` produced a
   * handle, whether a window is attached, the stored size and the world set
   * through `setWorld`.
   */
  datatype Gl = Gl(hasWindow: bool, hasDc: bool, hasContext: bool, width: int, height: int, world: Option<World>)

  /**
   * `initialize`: stores the window and the size, acquires the device context
   * and creates the context; `dcOk` and `contextOk` stand for the outcome of
   * `GetDC` and `wglCreateContext`. It reports success whatever they return.
   */
  function Initialize(r: Gl, hasWindow: bool, width: int, height: int, dcOk: bool, contextOk: bool): (res: (Gl, bool))
    ensures res.1
    ensures res.0.width == width && res.0.height == height && res.0.hasWindow == hasWindow
    ensures res.0.hasDc == dcOk && res.0.hasContext == contextOk
    ensures res.0.world == r.world
  {
    (Gl(hasWindow, dcOk, contextOk, width, height, r.world), true)
  }

  /**
   * `shutdown`: the context is always dropped; the device context is released
   * only while a window is still attached, so without one the handle stays.
   */
  function Shutdown(r: Gl): (s: Gl)
    ensures !s.hasContext && !s.hasWindow
    ensures s.hasDc <==> (r.hasDc && !r.hasWindow)
    ensures s.width == r.width && s.height == r.height && s.world == r.world
  {
    r.(hasContext := false, hasDc := r.hasDc && !r.hasWindow, hasWindow := false)
  }

  /** A second `shutdown` changes nothing more. */
  lemma ShutdownIdempotent(r: Gl)
    ensures Shutdown(Shutdown(r)) == Shutdown(r)
  {
  }

  /** `resize`: the stored size becomes the new one; `glViewport` is foreign. */
  function Resize(r: Gl, width: int, height: int): (s: Gl)
    ensures s.width == width && s.height == height
    ensures s.(width := r.width, height := r.height) == r
  {
    r.(width := width, height := height)
  }

  /** `setWorld`: only the world pointer changes. */
  function SetWorld(r: Gl, w: Option<World>): (s: Gl)
    ensures s.world == w
    ensures s.(world := r.world) == r
  {
    r.(world := w)
  }

  // -------------------------------------------------------------- entities

  /** `GL_TRIANGLES` or `GL_TRIANGLE_FAN`. */
  datatype Primitive = Triangles | TriangleFan

  /** One `glColor4f` followed by one `glVertex3f`. */
  datatype GlVertex = GlVertex(pos: Vec3, color: Color)

  /** One `glBegin` ... `glEnd` block with the matrices loaded before it. */
  datatype Batch = Batch(primitive: Primitive, projection: Mat4, modelView: Mat4, vertices: seq<GlVertex>)

  /**
   * `drawEntity`: nothing for an entity without vertices; otherwise the model-space
   * vertices in order, under `view * translate(position)`, each coloured by its own
   * colour when every vertex has one and by the uniform colour otherwise.
   */
  function EntityBatch(e: Entity, view: Mat4, projection: Mat4): (r: Option<Batch>)
    ensures r.None? <==> |e.vertices| == 0
    ensures r.Some? ==> (r.value.primitive == Triangles <==> |e.vertices| == 3)
    ensures r.Some? ==> r.value.projection == projection && r.value.modelView == MulMM(view, Translate(e.position))
    ensures r.Some? ==> |r.value.vertices| == |e.vertices|
    ensures r.Some? ==> forall i :: 0 <= i < |e.vertices| ==>
      r.value.vertices[i].pos == e.vertices[i] &&
      r.value.vertices[i].color == (if |e.vertexColors| == |e.vertices| then e.vertexColors[i] else e.color)
  {
    if |e.vertices| == 0 then None
    else
      var cs := ResolvedColors(e);
      var prim := if |e.vertices| == 3 then Triangles else TriangleFan;
      Some(Batch(prim, projection, MulMM(view, Translate(e.position)),
        seq(|e.vertices|, i requires 0 <= i < |e.vertices| => GlVertex(e.vertices[i], cs[i]))))
  }

  /**
   * The triangles GL assembles from `n` vertices: consecutive triples for a
   * triangle list, and for a fan every triangle on vertex 0 and two neighbours.
   */
  function Assembled(p: Primitive, n: nat): (r: seq<(nat, nat, nat)>)
  {
    match p
    case Triangles => seq(n / 3, k requires 0 <= k < n / 3 => (3 * k, 3 * k + 1, 3 * k + 2))
    case TriangleFan => if n < 3 then [] else seq(n - 2, k requires 0 <= k < n - 2 => (0, k + 1, k + 2))
  }

  /**
   * The triangles the OpenGL backend draws for an entity are exactly the fan the
   * DirectX12 rasterizer emits for a polygon with that many vertices.
   */
  lemma AssemblyMatchesSoftwareFan(e: Entity, view: Mat4, projection: Mat4)
    requires |e.vertices| > 0
    ensures var b := EntityBatch(e, view, projection).value;
      Assembled(b.primitive, |b.vertices|) == Raster.FanTriangles(|e.vertices|)
  {
    var n := |e.vertices|;
    var b := EntityBatch(e, view, projection).value;
    if n >= 3 {
      Raster.FanTrianglesIsFan(n);
    }
    if n == 3 {
      assert Assembled(Triangles, 3) == [(0, 1, 2)];
    }
  }

  /** The batches of the entities that draw anything, in world order. */
  function Batches(es: seq<Entity>, view: Mat4, projection: Mat4): (r: seq<Batch>)
    ensures |r| <= |es|
    ensures (forall i :: 0 <= i < |es| ==> |es[i].vertices| > 0) ==> |r| == |es|
    ensures (forall i :: 0 <= i < |es| ==> |es[i].vertices| == 0) ==> r == []
    ensures forall j :: 0 <= j < |r| ==> |r[j].vertices| > 0 && r[j].projection == projection
  {
    if |es| == 0 then []
    else
      var rest := Batches(es[..|es| - 1], view, projection);
      var e := es[|es| - 1];
      if |e.vertices| == 0 then rest else rest + [EntityBatch(e, view, projection).value]
  }

  // ------------------------------------------------------------------ text

  /**
   * One element of the viewport's overlay-text list: a label either at a fixed
   * screen position or anchored in the world.
   */
  datatype GlOverlayText = GlOverlayText(
    text: string, screenSpace: bool, screenPosition: (int, int), worldPosition: Vec3,
    alignRight: bool, pixelHeight: int, color: Color)

  /**
   * Where a label is anchored: a screen-space label at its stored position, any
   * other at the projection of its world position, or nowhere when that fails.
   */
  function Anchor(o: GlOverlayText, view: Mat4, projection: Mat4, width: int, height: int): (r: Option<(int, int)>)
    ensures o.screenSpace ==> r == Some(o.screenPosition)
    ensures !o.screenSpace ==>
      var c := ClipOf(o.worldPosition, view, projection);
      (r.None? <==> c.w <= 0.0 || c.z < -c.w || c.z > c.w)
  {
    if o.screenSpace then Some(o.screenPosition)
    else ProjectToScreen(o.worldPosition, view, projection, width, height)
  }

  /** The start of a label: a right-aligned one ends at its anchor, any other starts there. */
  function AlignX(anchorX: int, alignRight: bool, extent: int): (x: int)
    ensures alignRight ==> x + extent == anchorX
    ensures !alignRight ==> x == anchorX
  {
    if alignRight then anchorX - extent else anchorX
  }

  /**
   * The two backends place right-aligned text differently: DirectX12 treats the
   * stored x as a distance from the right edge, OpenGL as the point the text ends
   * at. They agree exactly when that point is `width - x`.
   */
  lemma RightAlignmentDiffers(vpWidth: int, t: Dx12Renderer.ResolvedText, extent: int)
    requires t.alignRight
    ensures Dx12Renderer.TextX(vpWidth, t, extent) == AlignX(vpWidth - t.x, true, extent)
    ensures Dx12Renderer.TextX(vpWidth, t, extent) == AlignX(t.x, true, extent) <==> 2 * t.x == vpWidth
  {
  }

  predicate Anchored(o: GlOverlayText, view: Mat4, projection: Mat4, width: int, height: int) {
    Anchor(o, view, projection, width, height).Some?
  }

  /** The `TextOutA` call for a label anchored at `a`. */
  function TextCall(o: GlOverlayText, a: (int, int), extent: (string, int) -> int): DrawnText {
    DrawnText(AlignX(a.0, o.alignRight, extent(o.text, o.pixelHeight)), a.1, o.text, ToColorRef(o.color), o.pixelHeight)
  }

  /**
   * `drawOverlayText`: nothing without a device context; otherwise one call per
   * anchored label in list order, labels whose projection fails being skipped.
   */
  function DrawOverlayText(hasDc: bool, os: seq<GlOverlayText>, view: Mat4, projection: Mat4,
                           width: int, height: int, extent: (string, int) -> int): (r: seq<DrawnText>)
    ensures !hasDc ==> r == []
    ensures |r| <= |os|
    ensures hasDc && (forall i :: 0 <= i < |os| ==> Anchored(os[i], view, projection, width, height)) ==>
      |r| == |os| &&
      forall i :: 0 <= i < |os| ==>
        r[i] == TextCall(os[i], Anchor(os[i], view, projection, width, height).value, extent)
    ensures (forall i :: 0 <= i < |os| ==> !Anchored(os[i], view, projection, width, height)) ==> r == []
  {
    if !hasDc || |os| == 0 then []
    else
      var rest := DrawOverlayText(hasDc, os[..|os| - 1], view, projection, width, height, extent);
      var o := os[|os| - 1];
      match Anchor(o, view, projection, width, height)
      case None => rest
      case Some(a) => rest + [TextCall(o, a, extent)]
  }

  /** Screen-space labels are all drawn, each at its stored position, aligned by its measured width. */
  lemma ScreenSpaceTextsAllDrawn(os: seq<GlOverlayText>, view: Mat4, projection: Mat4,
                                 width: int, height: int, extent: (string, int) -> int)
    requires forall i :: 0 <= i < |os| ==> os[i].screenSpace
    ensures var r := DrawOverlayText(true, os, view, projection, width, height, extent);
      |r| == |os| &&
      forall i :: 0 <= i < |os| ==>
        r[i].y == os[i].screenPosition.1 &&
        r[i].x + (if os[i].alignRight then extent(os[i].text, os[i].pixelHeight) else 0) == os[i].screenPosition.0
  {
    var r := DrawOverlayText(true, os, view, projection, width, height, extent);
    assert forall i :: 0 <= i < |os| ==> Anchor(os[i], view, projection, width, height) == Some(os[i].screenPosition);
  }

  // ------------------------------------------------------------------ draw

  /** What one `draw` call does: nothing, or a cleared frame with the batches and text calls. */
  datatype GlOutput =
    | Skipped
    | Drawn(resized: bool, width: int, height: int, batches: seq<Batch>, texts: seq<DrawnText>)

  /**
   * `draw`: skipped without both handles; otherwise the stored size follows the
   * viewport (through `resize` only when it differs), the frame is cleared, and
   * without a world it is swapped as is. With a world every entity is drawn under
   * the viewport's matrices and the overlay texts follow the swap. `overlayTexts`
   * is the viewport's overlay-text list.
   */
  function Draw(r: Gl, vp: Viewport, overlayTexts: seq<GlOverlayText>, extent: (string, int) -> int): (res: (Gl, GlOutput))
    ensures res.1.Skipped? <==> !r.hasDc || !r.hasContext
    ensures res.1.Skipped? ==> res.0 == r
    ensures res.1.Drawn? ==>
      && res.0 == r.(width := vp.width, height := vp.height)
      && (res.1.resized <==> r.width != vp.width || r.height != vp.height)
      && res.1.width == vp.width && res.1.height == vp.height
    ensures res.1.Drawn? && r.world.None? ==> res.1.batches == [] && res.1.texts == []
    ensures res.1.Drawn? && r.world.Some? ==>
      |res.1.batches| <= |r.world.value.entities| &&
      res.1.texts == DrawOverlayText(true, overlayTexts, vp.view, vp.projection, vp.width, vp.height, extent)
  {
    if !r.hasDc || !r.hasContext then (r, Skipped)
    else
      var resized := r.width != vp.width || r.height != vp.height;
      var s := if resized then Resize(r, vp.width, vp.height) else r;
      match s.world
      case None => (s, Drawn(resized, s.width, s.height, [], []))
      case Some(w) =>
        var batches := Batches(w.entities, vp.view, vp.projection);
        var texts := DrawOverlayText(s.hasDc, overlayTexts, vp.view, vp.projection, s.width, s.height, extent);
        (s, Drawn(resized, s.width, s.height, batches, texts))
  }

  /** A second `draw` of the same viewport never resizes. */
  lemma SecondDrawDoesNotResize(r: Gl, vp: Viewport, overlayTexts: seq<GlOverlayText>, extent: (string, int) -> int)
    requires r.hasDc && r.hasContext
    ensures var s := Draw(r, vp, overlayTexts, extent).0;
      Draw(s, vp, overlayTexts, extent).1.Drawn? && !Draw(s, vp, overlayTexts, extent).1.resized
  {
  }
}

=== FILE: overlays.dfy ===
/**
 * Text overlays: screen-space `AText`, world-anchored `AFloatingText`, and the
 * containers that hold them. `Overlay` stores both lists by value and
 * `ARenderOverlay` through owning pointers; their contents and their add
 * operations behave the same, so one datatype models both.
 */
module Overlays {
  import opened LinAlg
  import opened Colors
  import opened Seqs

  /** `AText`: a label at a fixed pixel position. */
  datatype Text = Text(text: string, x: int, y: int, alignRight: bool, pixelHeight: int, color: Color)

  /** `AFloatingText`: a label anchored at a world position, projected every frame. */
  datatype FloatingText = FloatingText(text: string, worldPosition: Vec3, pixelHeight: int, color: Color)

  /** `Overlay` and `ARenderOverlay`: the screen texts and the floating texts, in insertion order. */
  datatype Overlay = Overlay(texts: seq<Text>, floatingTexts: seq<FloatingText>)

  /** One `TextOutA` call of a text compositor: position, string, GDI colour and the font's character height. */
  datatype DrawnText = DrawnText(x: int, y: int, text: string, color: ColorRef, pixelHeight: int)

  /** `addText`: the new overlay and the position of the text the returned reference designates. */
  function AddText(o: Overlay, t: Text): (r: (Overlay, nat))
    ensures r.0.texts == o.texts + [t]
    ensures r.1 == |r.0.texts| - 1 && r.0.texts[r.1] == t
    ensures r.0.floatingTexts == o.floatingTexts
  {
    var (texts, last) := Push(o.texts, t);
    (o.(texts := texts), last)
  }

  /** `addFloatingText`. */
  function AddFloatingText(o: Overlay, t: FloatingText): (r: (Overlay, nat))
    ensures r.0.floatingTexts == o.floatingTexts + [t]
    ensures r.1 == |r.0.floatingTexts| - 1 && r.0.floatingTexts[r.1] == t
    ensures r.0.texts == o.texts
  {
    var (floating, last) := Push(o.floatingTexts, t);
    (o.(floatingTexts := floating), last)
  }

  /** Adding screen texts one by one lists them in insertion order after the existing ones. */
  function AddTexts(o: Overlay, ts: seq<Text>): (r: Overlay)
    ensures r.texts == o.texts + ts
    ensures r.floatingTexts == o.floatingTexts
    decreases |ts|
  {
    if |ts| == 0 then o else AddTexts(AddText(o, ts[0]).0, ts[1..])
  }

  /** Adding floating texts one by one lists them in insertion order after the existing ones. */
  function AddFloatingTexts(o: Overlay, ts: seq<FloatingText>): (r: Overlay)
    ensures r.floatingTexts == o.floatingTexts + ts
    ensures r.texts == o.texts
    decreases |ts|
  {
    if |ts| == 0 then o else AddFloatingTexts(AddFloatingText(o, ts[0]).0, ts[1..])
  }

  /**
   * The text a handle from `addText` designates stays the same while more
   * texts are added (for `ARenderOverlay` the reference itself stays valid,
   * since each text lives in its own allocation).
   */
  lemma {:induction false} AddTextHandleStable(o: Overlay, t: Text, more: seq<Text>)
    ensures var (o1, h) := AddText(o, t); AddTexts(o1, more).texts[h] == t
  {
    var (o1, h) := AddText(o, t);
    var r := AddTexts(o1, more);
    assert r.texts == o.texts + [t] + more;
  }
}

=== FILE: projection.dfy ===
/**
 * `projectToScreen`, shared verbatim by the OpenGL and the DirectX12 renderer:
 * a world point through `projection * view`, the perspective divide and the
 * viewport mapping to whole pixels.
 */
module Projection {
  import opened Numeric
  import opened LinAlg
  import opened Wrappers

  /** The clip-space position of a world point under `projection * view`. */
  function ClipOf(p: Vec3, view: Mat4, projection: Mat4): Vec4 {
    MulMV(MulMM(projection, view), Point(p))
  }

  lemma NdcOutside(z: real, w: real)
    requires w > 0.0
    ensures z / w < -1.0 <==> z < -w
    ensures z / w > 1.0 <==> z > w
  {
    assert (z / w) * w == z;
    if z / w < -1.0 {
      MulLtByPositive(z / w, -1.0, w);
    } else {
      MulLeByPositive(-1.0, z / w, w);
    }
    if z / w > 1.0 {
      MulLtByPositive(1.0, z / w, w);
    } else {
      MulLeByPositive(z / w, 1.0, w);
    }
  }

  lemma MulLtByPositive(a: real, b: real, w: real)
    requires w > 0.0 && a < b
    ensures a * w < b * w
  {
  }

  lemma MulLeByPositive(a: real, b: real, w: real)
    requires w > 0.0 && a <= b
    ensures a * w <= b * w
  {
  }

  /** The screen position of a clip-space point, or none when it is behind the camera or outside the depth range. */
  function ProjectClip(c: Vec4, width: int, height: int): (r: Option<(int, int)>)
    ensures r.None? <==> (c.w <= 0.0 || c.z < -c.w || c.z > c.w)
  {
    if c.w <= 0.0 then None
    else
      NdcOutside(c.z, c.w);
      var nz := c.z / c.w;
      if nz < -1.0 || nz > 1.0 then None
      else Some(ScreenPoint(c.x / c.w, c.y / c.w, width, height))
  }

  /** Normalised device x and y to truncated pixel coordinates, y downward. */
  function ScreenPoint(nx: real, ny: real, width: int, height: int): (int, int) {
    (Trunc((nx * 0.5 + 0.5) * width as real), Trunc((1.0 - (ny * 0.5 + 0.5)) * height as real))
  }

  lemma ScreenPointInside(nx: real, ny: real, width: nat, height: nat)
    requires -1.0 <= nx <= 1.0 && -1.0 <= ny <= 1.0
    ensures 0 <= ScreenPoint(nx, ny, width, height).0 <= width
    ensures 0 <= ScreenPoint(nx, ny, width, height).1 <= height
  {
    var sx, sy := (nx * 0.5 + 0.5) * width as real, (1.0 - (ny * 0.5 + 0.5)) * height as real;
    ScaleUnit(nx * 0.5 + 0.5, width as real, sx);
    ScaleUnit(1.0 - (ny * 0.5 + 0.5), height as real, sy);
  }

  /**
   * `projectToScreen`: no screen point for a point behind the camera or outside
   * the depth range; otherwise the truncated viewport position, y downward.
   */
  function ProjectToScreen(p: Vec3, view: Mat4, projection: Mat4, width: int, height: int): (r: Option<(int, int)>)
    ensures var c := ClipOf(p, view, projection);
      r.None? <==> (c.w <= 0.0 || c.z < -c.w || c.z > c.w)
  {
    ProjectClip(ClipOf(p, view, projection), width, height)
  }

  /** A clip-space point inside the view volume lands inside the viewport rectangle, edges included. */
  lemma ProjectClipInsideViewport(c: Vec4, width: nat, height: nat)
    requires c.w > 0.0 && -c.w <= c.x <= c.w && -c.w <= c.y <= c.w && -c.w <= c.z <= c.w
    ensures var r := ProjectClip(c, width, height);
      r.Some? && 0 <= r.value.0 <= width && 0 <= r.value.1 <= height
  {
    NdcInUnitRange(c.x, c.w);
    NdcInUnitRange(c.y, c.w);
    NdcInUnitRange(c.z, c.w);
    ScreenPointInside(c.x / c.w, c.y / c.w, width, height);
  }

  /** A world point inside the view volume lands inside the viewport rectangle, edges included. */
  lemma ProjectInsideViewport(p: Vec3, view: Mat4, projection: Mat4, width: nat, height: nat)
    requires var c := ClipOf(p, view, projection);
      c.w > 0.0 && -c.w <= c.x <= c.w && -c.w <= c.y <= c.w && -c.w <= c.z <= c.w
    ensures var r := ProjectToScreen(p, view, projection, width, height);
      r.Some? && 0 <= r.value.0 <= width && 0 <= r.value.1 <= height
  {
    ProjectClipInsideViewport(ClipOf(p, view, projection), width, height);
  }
}

=== FILE: raster.dfy ===
/**
 * The DirectX12 renderer's CPU rasterizer: perspective divide and viewport
 * mapping, fan triangulation of the clipped polygon, and the edge-function fill
 * of one triangle into a colour buffer and a depth buffer.
 */
module Raster {
  import opened Numeric
  import opened LinAlg
  import opened Colors
  import opened Wrappers
  import Clipping

  /** A vertex in pixel coordinates (y grows downward) with depth mapped to [0,1]. */
  datatype ScreenVertex = ScreenVertex(pos: Vec2, depth01: real, color: Color)

  /** Perspective divide followed by the viewport transform of the fill loop. */
  function ToScreen(v: Clipping.ClipVertex, width: int, height: int): (s: ScreenVertex)
    ensures s.color == v.color
  {
    var nx := DivOrZero(v.pos.x, v.pos.w);
    var ny := DivOrZero(v.pos.y, v.pos.w);
    var nz := DivOrZero(v.pos.z, v.pos.w);
    ScreenVertex(Vec2((nx * 0.5 + 0.5) * width as real, (1.0 - (ny * 0.5 + 0.5)) * height as real),
                 nz * 0.5 + 0.5, v.color)
  }

  /**
   * A vertex inside the clip volume with positive w lands inside the viewport,
   * and its depth inside [0,1]; NDC y = 1 maps to the top row.
   */
  lemma ToScreenInViewport(v: Clipping.ClipVertex, width: nat, height: nat)
    requires v.pos.w > 0.0
    requires forall q :: Clipping.Inside(v, q)
    ensures 0.0 <= ToScreen(v, width, height).pos.x <= width as real
    ensures 0.0 <= ToScreen(v, width, height).pos.y <= height as real
    ensures 0.0 <= ToScreen(v, width, height).depth01 <= 1.0
  {
    assert Clipping.Inside(v, Clipping.Left) && Clipping.Inside(v, Clipping.Right);
    assert Clipping.Inside(v, Clipping.Bottom) && Clipping.Inside(v, Clipping.Top);
    assert Clipping.Inside(v, Clipping.Near) && Clipping.Inside(v, Clipping.Far);
    var nx := DivOrZero(v.pos.x, v.pos.w);
    var ny := DivOrZero(v.pos.y, v.pos.w);
    NdcInUnitRange(v.pos.x, v.pos.w);
    NdcInUnitRange(v.pos.y, v.pos.w);
    NdcInUnitRange(v.pos.z, v.pos.w);
    var s := ToScreen(v, width, height);
    assert s.pos.x == (nx * 0.5 + 0.5) * width as real;
    assert s.pos.y == (1.0 - (ny * 0.5 + 0.5)) * height as real;
    ScaleUnit(nx * 0.5 + 0.5, width as real, s.pos.x);
    ScaleUnit(1.0 - (ny * 0.5 + 0.5), height as real, s.pos.y);
  }

  /** Triangles `(0, i, i + 1)` for `i` from `i` up to `n - 2`: the fan loop. */
  function FanFrom(i: nat, n: nat): seq<(nat, nat, nat)>
    decreases n - i
  {
    if i + 1 < n then [(0, i, i + 1)] + FanFrom(i + 1, n) else []
  }

  /**
   * The triangles emitted for a convex polygon of `n` screen vertices: one for a
   * triangle, two sharing the diagonal 0-2 for a quad, otherwise the fan loop.
   */
  function FanTriangles(n: nat): (r: seq<(nat, nat, nat)>)
    ensures r == [] <==> n < 3
    ensures forall k :: 0 <= k < |r| ==> r[k].0 == 0 && 0 < r[k].1 && r[k].1 + 1 == r[k].2 < n
  {
    if n < 3 then []
    else if n == 3 then [(0, 1, 2)]
    else if n == 4 then [(0, 1, 2), (0, 2, 3)]
    else
      FanFromShape(1, n);
      FanFrom(1, n)
  }

  lemma {:induction false} FanFromShape(i: nat, n: nat)
    requires 1 <= i
    ensures |FanFrom(i, n)| == if i + 1 < n then n - 1 - i else 0
    ensures forall k :: 0 <= k < |FanFrom(i, n)| ==> FanFrom(i, n)[k] == (0, i + k, i + k + 1)
    decreases n - i
  {
    if i + 1 < n {
      FanFromShape(i + 1, n);
    }
  }

  /**
   * Every case of the triangulation is the same fan: `n - 2` triangles, the k-th
   * being `(0, k + 1, k + 2)`, all indices below `n`, consecutive triangles sharing an edge.
   */
  lemma FanTrianglesIsFan(n: nat)
    requires n >= 3
    ensures |FanTriangles(n)| == n - 2
    ensures forall k :: 0 <= k < n - 2 ==> FanTriangles(n)[k] == (0, k + 1, k + 2)
    ensures forall k :: 0 <= k < n - 2 ==> FanTriangles(n)[k].2 < n
  {
    if n > 4 {
      FanFromShape(1, n);
    }
  }

  /** The `edge` lambda: twice the signed area of triangle a, b, p. */
  function Edge(a: Vec2, b: Vec2, px: real, py: real): real {
    (b.x - a.x) * (py - a.y) - (b.y - a.y) * (px - a.x)
  }

  /** Triangles whose doubled area is below this are skipped (`1e-5f`). */
  const AreaEpsilon: real := 0.00001

  /** One triangle handed to the fill, with its shading mode. */
  datatype Triangle = Triangle(v0: ScreenVertex, v1: ScreenVertex, v2: ScreenVertex,
                               interpolate: bool, uniform: Color)

  function Area(t: Triangle): real {
    Edge(t.v0.pos, t.v1.pos, t.v2.pos.x, t.v2.pos.y)
  }

  predicate Degenerate(t: Triangle) {
    Abs(Area(t)) < AreaEpsilon
  }

  /** A 32-bit BGRA pixel of the DIB section. */
  datatype Pixel = Pixel(b: int, g: int, r: int, a: int)

  /** What `memset(colorBits_, 0, ...)` leaves in every pixel. */
  const Cleared: Pixel := Pixel(0, 0, 0, 0)

  /** A fragment that passed the coverage test: its depth and the pixel it would write. */
  datatype Fragment = Fragment(depth: real, pixel: Pixel)

  /** The three edge values at a pixel centre. */
  function Weights(t: Triangle, x: int, y: int): (real, real, real) {
    var px := x as real + 0.5;
    var py := y as real + 0.5;
    (Edge(t.v1.pos, t.v2.pos, px, py), Edge(t.v2.pos, t.v0.pos, px, py), Edge(t.v0.pos, t.v1.pos, px, py))
  }

  /** The coverage test: all edge values share the sign of the area (zero counts for both). */
  predicate Covers(w: (real, real, real), area: real) {
    (w.0 >= 0.0 && w.1 >= 0.0 && w.2 >= 0.0 && area > 0.0) ||
    (w.0 <= 0.0 && w.1 <= 0.0 && w.2 <= 0.0 && area < 0.0)
  }

  /** The pixel written for a colour: each channel clamped and truncated, alpha opaque. */
  function PixelOf(c: Color): (p: Pixel)
    ensures IsByte(p.b) && IsByte(p.g) && IsByte(p.r) && p.a == 255
  {
    Pixel(ChannelByte(c.b), ChannelByte(c.g), ChannelByte(c.r), 255)
  }

  /**
   * The fragment the fill produces at pixel (x, y), if the pixel centre is covered:
   * depth and colour interpolated with the normalised edge values, or the uniform colour.
   */
  function FragmentAt(t: Triangle, x: int, y: int): (r: Option<Fragment>)
    ensures Degenerate(t) ==> r == None
    ensures r.Some? ==> Covers(Weights(t, x, y), Area(t))
    ensures r.Some? && !t.interpolate ==> r.value.pixel == PixelOf(t.uniform)
  {
    if Degenerate(t) then None
    else
      var area := Area(t);
      var w := Weights(t, x, y);
      if !Covers(w, area) then None
      else
        var inv := 1.0 / area;
        var l0, l1, l2 := w.0 * inv, w.1 * inv, w.2 * inv;
        var depth := t.v0.depth01 * l0 + t.v1.depth01 * l1 + t.v2.depth01 * l2;
        var c := if t.interpolate then
          Color(t.v0.color.r * l0 + t.v1.color.r * l1 + t.v2.color.r * l2,
                t.v0.color.g * l0 + t.v1.color.g * l1 + t.v2.color.g * l2,
                t.v0.color.b * l0 + t.v1.color.b * l1 + t.v2.color.b * l2,
                t.v0.color.a * l0 + t.v1.color.a * l1 + t.v2.color.a * l2)
        else t.uniform;
        Some(Fragment(depth, PixelOf(c)))
  }

  /** The depth test for one pixel: a covered fragment strictly nearer than the stored depth replaces it. */
  function ShadePixel(t: Triangle, x: int, y: int, stored: (real, Pixel)): (r: (real, Pixel))
    ensures r.0 <= stored.0
    ensures r == stored || (FragmentAt(t, x, y).Some? && r.0 < stored.0 &&
      r == (FragmentAt(t, x, y).value.depth, FragmentAt(t, x, y).value.pixel))
    ensures FragmentAt(t, x, y).Some? && FragmentAt(t, x, y).value.depth < stored.0 ==>
      r == (FragmentAt(t, x, y).value.depth, FragmentAt(t, x, y).value.pixel)
  {
    match FragmentAt(t, x, y)
    case Some(f) => if f.depth < stored.0 then (f.depth, f.pixel) else stored
    case None => stored
  }

  /** The back buffer: a colour and a depth value per pixel, row-major with y downward. */
  datatype Frame = Frame(width: nat, height: nat, depth: seq<real>, color: seq<Pixel>)

  predicate Valid(f: Frame) {
    |f.depth| == f.width * f.height && |f.color| == f.width * f.height
  }

  predicate InFrame(f: Frame, x: int, y: int) {
    0 <= x < f.width && 0 <= y < f.height
  }

  /** The buffer index of pixel (x, y) in rows of `width` pixels. */
  function Idx(x: int, y: int, width: int): int {
    y * width + x
  }

  lemma IdxInRange(x: int, y: int, width: nat, height: nat)
    requires 0 <= x < width && 0 <= y < height
    ensures 0 <= Idx(x, y, width) < width * height
  {
    assert y * width <= (height - 1) * width;
  }

  /** Distinct pixels of a frame have distinct buffer indices. */
  lemma IdxInjective(x: int, y: int, x2: int, y2: int, width: nat)
    requires 0 <= x < width && 0 <= x2 < width && 0 <= y && 0 <= y2
    requires Idx(x, y, width) == Idx(x2, y2, width)
    ensures x == x2 && y == y2
  {
    assert (y - y2) * width == x2 - x;
    MultipleBelowFactor(y - y2, width);
  }

  lemma MultipleBelowFactor(k: int, w: int)
    requires w > 0 && -w < k * w < w
    ensures k == 0
  {
  }

  /** The stored depth and pixel at (x, y). */
  function At(f: Frame, x: int, y: int): (real, Pixel)
    requires Valid(f) && InFrame(f, x, y)
  {
    IdxInRange(x, y, f.width, f.height);
    (f.depth[Idx(x, y, f.width)], f.color[Idx(x, y, f.width)])
  }

  /** The pixel rectangle the fill loop visits, inclusive at both ends. */
  datatype Box = Box(minX: int, maxX: int, minY: int, maxY: int)

  predicate InBox(b: Box, x: int, y: int) {
    b.minX <= x <= b.maxX && b.minY <= y <= b.maxY
  }

  /** One side of the bounding box: floor of the minimum and ceiling of the maximum, clamped to the buffer. */
  function Span(a: real, b: real, c: real, size: int): (r: (int, int))
    requires size >= 1
    ensures 0 <= r.0 <= r.1 <= size - 1
  {
    var lo := Trunc(Clamp(FloorR(Min3(a, b, c)), 0.0, (size - 1) as real));
    var hi := Trunc(Clamp(CeilR(Max3(a, b, c)), 0.0, (size - 1) as real));
    (lo, hi)
  }

  function BoundingBox(t: Triangle, width: int, height: int): (b: Box)
    requires width >= 1 && height >= 1
    ensures 0 <= b.minX <= b.maxX < width && 0 <= b.minY <= b.maxY < height
  {
    var sx := Span(t.v0.pos.x, t.v1.pos.x, t.v2.pos.x, width);
    var sy := Span(t.v0.pos.y, t.v1.pos.y, t.v2.pos.y, height);
    Box(sx.0, sx.1, sy.0, sy.1)
  }

  /**
   * The edge values at any point sum to the doubled area, and weight the vertices
   * to give the point back: they are unnormalised barycentric coordinates.
   */
  lemma EdgeIdentities(p0: Vec2, p1: Vec2, p2: Vec2, px: real, py: real)
    ensures Edge(p1, p2, px, py) + Edge(p2, p0, px, py) + Edge(p0, p1, px, py) == Edge(p0, p1, p2.x, p2.y)
    ensures Edge(p1, p2, px, py) * p0.x + Edge(p2, p0, px, py) * p1.x + Edge(p0, p1, px, py) * p2.x
            == Edge(p0, p1, p2.x, p2.y) * px
    ensures Edge(p1, p2, px, py) * p0.y + Edge(p2, p0, px, py) * p1.y + Edge(p0, p1, px, py) * p2.y
            == Edge(p0, p1, p2.x, p2.y) * py
  {
  }

  /** Dividing covered edge values by the area gives non-negative weights that sum to one. */
  lemma NormalisedWeights(w: (real, real, real), area: real, l0: real, l1: real, l2: real)
    requires Covers(w, area) && w.0 + w.1 + w.2 == area
    requires l0 == w.0 * (1.0 / area) && l1 == w.1 * (1.0 / area) && l2 == w.2 * (1.0 / area)
    ensures l0 >= 0.0 && l1 >= 0.0 && l2 >= 0.0 && l0 + l1 + l2 == 1.0
  {
    assert l0 + l1 + l2 == (w.0 + w.1 + w.2) * (1.0 / area);
  }

  lemma NormalisedCombination(w0: real, w1: real, w2: real, a: real, b: real, c: real, area: real, p: real)
    requires area != 0.0 && w0 * a + w1 * b + w2 * c == area * p
    ensures (w0 * (1.0 / area)) * a + (w1 * (1.0 / area)) * b + (w2 * (1.0 / area)) * c == p
  {
    assert (w0 * (1.0 / area)) * a + (w1 * (1.0 / area)) * b + (w2 * (1.0 / area)) * c
        == (w0 * a + w1 * b + w2 * c) * (1.0 / area);
  }

  lemma MulLe(l: real, u: real, v: real)
    requires l >= 0.0 && u <= v
    ensures l * u <= l * v
  {
  }

  lemma AddLe(a0: real, a1: real, a2: real, b0: real, b1: real, b2: real)
    requires a0 <= b0 && a1 <= b1 && a2 <= b2
    ensures a0 + a1 + a2 <= b0 + b1 + b2
  {
  }

  lemma SumOfScaled(l0: real, l1: real, l2: real, m: real)
    requires l0 + l1 + l2 == 1.0
    ensures l0 * m + l1 * m + l2 * m == m
  {
    assert l0 * m + l1 * m + l2 * m == (l0 + l1 + l2) * m;
  }

  /** A convex combination is at least any common lower bound of its values. */
  lemma ConvexAbove(l0: real, l1: real, l2: real, a: real, b: real, c: real, m: real)
    requires l0 >= 0.0 && l1 >= 0.0 && l2 >= 0.0 && l0 + l1 + l2 == 1.0
    requires m <= a && m <= b && m <= c
    ensures m <= l0 * a + l1 * b + l2 * c
  {
    MulLe(l0, m, a);
    MulLe(l1, m, b);
    MulLe(l2, m, c);
    SumOfScaled(l0, l1, l2, m);
    AddLe(l0 * m, l1 * m, l2 * m, l0 * a, l1 * b, l2 * c);
  }

  /** A convex combination is at most any common upper bound of its values. */
  lemma ConvexBelow(l0: real, l1: real, l2: real, a: real, b: real, c: real, n: real)
    requires l0 >= 0.0 && l1 >= 0.0 && l2 >= 0.0 && l0 + l1 + l2 == 1.0
    requires a <= n && b <= n && c <= n
    ensures l0 * a + l1 * b + l2 * c <= n
  {
    var x0, x1, x2 := l0 * a, l1 * b, l2 * c;
    var y0, y1, y2 := l0 * n, l1 * n, l2 * n;
    assert x0 <= y0 by { MulLe(l0, a, n); }
    assert x1 <= y1 by { MulLe(l1, b, n); }
    assert x2 <= y2 by { MulLe(l2, c, n); }
    SumOfScaled(l0, l1, l2, n);
    AddLe(x0, x1, x2, y0, y1, y2);
  }

  lemma ConvexLower(l0: real, l1: real, l2: real, a: real, b: real, c: real, r: real)
    requires l0 >= 0.0 && l1 >= 0.0 && l2 >= 0.0 && l0 + l1 + l2 == 1.0
    requires r == l0 * a + l1 * b + l2 * c
    ensures Min3(a, b, c) <= r
  {
    ConvexAbove(l0, l1, l2, a, b, c, Min3(a, b, c));
  }

  lemma ConvexUpper(l0: real, l1: real, l2: real, a: real, b: real, c: real, r: real)
    requires l0 >= 0.0 && l1 >= 0.0 && l2 >= 0.0 && l0 + l1 + l2 == 1.0
    requires r == l0 * a + l1 * b + l2 * c
    ensures r <= Max3(a, b, c)
  {
    ConvexBelow(l0, l1, l2, a, b, c, Max3(a, b, c));
  }

  /** A convex combination of three values lies between their minimum and maximum. */
  lemma Convex3(l0: real, l1: real, l2: real, a: real, b: real, c: real, r: real)
    requires l0 >= 0.0 && l1 >= 0.0 && l2 >= 0.0 && l0 + l1 + l2 == 1.0
    requires r == l0 * a + l1 * b + l2 * c
    ensures Min3(a, b, c) <= r <= Max3(a, b, c)
  {
    ConvexLower(l0, l1, l2, a, b, c, r);
    ConvexUpper(l0, l1, l2, a, b, c, r);
  }

  /**
   * Edge values that cover a point, normalised by the area, are convex weights
   * that reproduce each coordinate of the point from the vertices'.
   */
  lemma NormalisedPoint(w: (real, real, real), area: real, l0: real, l1: real, l2: real,
                        a0: real, a1: real, a2: real, b0: real, b1: real, b2: real, px: real, py: real)
    requires Covers(w, area) && w.0 + w.1 + w.2 == area
    requires w.0 * a0 + w.1 * a1 + w.2 * a2 == area * px
    requires w.0 * b0 + w.1 * b1 + w.2 * b2 == area * py
    requires l0 == w.0 * (1.0 / area) && l1 == w.1 * (1.0 / area) && l2 == w.2 * (1.0 / area)
    ensures l0 >= 0.0 && l1 >= 0.0 && l2 >= 0.0 && l0 + l1 + l2 == 1.0
    ensures l0 * a0 + l1 * a1 + l2 * a2 == px && l0 * b0 + l1 * b1 + l2 * b2 == py
  {
    NormalisedWeights(w, area, l0, l1, l2);
    NormalisedCombination(w.0, w.1, w.2, a0, a1, a2, area, px);
    NormalisedCombination(w.0, w.1, w.2, b0, b1, b2, area, py);
  }

  /** The normalised weights of a covered pixel. */
  function Lambdas(t: Triangle, x: int, y: int): (l: (real, real, real))
    requires Area(t) != 0.0
    ensures var w, area := Weights(t, x, y), Area(t);
      l.0 == w.0 * (1.0 / area) && l.1 == w.1 * (1.0 / area) && l.2 == w.2 * (1.0 / area)
  {
    var w := Weights(t, x, y);
    var inv := 1.0 / Area(t);
    (w.0 * inv, w.1 * inv, w.2 * inv)
  }

  /** The edge values at a pixel centre sum to the area and weight the vertices to the centre, scaled by the area. */
  lemma WeightIdentities(t: Triangle, x: int, y: int)
    ensures var w, px, py := Weights(t, x, y), x as real + 0.5, y as real + 0.5;
      && w.0 + w.1 + w.2 == Area(t)
      && w.0 * t.v0.pos.x + w.1 * t.v1.pos.x + w.2 * t.v2.pos.x == Area(t) * px
      && w.0 * t.v0.pos.y + w.1 * t.v1.pos.y + w.2 * t.v2.pos.y == Area(t) * py
  {
    EdgeIdentities(t.v0.pos, t.v1.pos, t.v2.pos, x as real + 0.5, y as real + 0.5);
  }

  /** At a covered pixel the normalised weights are convex and reproduce the pixel centre. */
  lemma FragmentWeights(t: Triangle, x: int, y: int)
    requires !Degenerate(t) && Covers(Weights(t, x, y), Area(t))
    ensures Area(t) != 0.0
    ensures var l := Lambdas(t, x, y);
      l.0 >= 0.0 && l.1 >= 0.0 && l.2 >= 0.0 && l.0 + l.1 + l.2 == 1.0 &&
      l.0 * t.v0.pos.x + l.1 * t.v1.pos.x + l.2 * t.v2.pos.x == x as real + 0.5 &&
      l.0 * t.v0.pos.y + l.1 * t.v1.pos.y + l.2 * t.v2.pos.y == y as real + 0.5
  {
    var l := Lambdas(t, x, y);
    var w, area := Weights(t, x, y), Area(t);
    var px, py := x as real + 0.5, y as real + 0.5;
    WeightIdentities(t, x, y);
    NormalisedPoint(w, area, l.0, l.1, l.2,
                    t.v0.pos.x, t.v1.pos.x, t.v2.pos.x, t.v0.pos.y, t.v1.pos.y, t.v2.pos.y, px, py);
  }

  lemma FragmentDepthIsCombination(t: Triangle, x: int, y: int)
    requires FragmentAt(t, x, y).Some?
    ensures Area(t) != 0.0
    ensures var l := Lambdas(t, x, y);
      FragmentAt(t, x, y).value.depth == t.v0.depth01 * l.0 + t.v1.depth01 * l.1 + t.v2.depth01 * l.2
  {
  }

  /** A written depth lies between the smallest and largest vertex depth. */
  lemma FragmentDepthBetween(t: Triangle, x: int, y: int)
    requires FragmentAt(t, x, y).Some?
    ensures Min3(t.v0.depth01, t.v1.depth01, t.v2.depth01) <= FragmentAt(t, x, y).value.depth
    ensures FragmentAt(t, x, y).value.depth <= Max3(t.v0.depth01, t.v1.depth01, t.v2.depth01)
  {
    FragmentWeights(t, x, y);
    FragmentDepthIsCombination(t, x, y);
    var l := Lambdas(t, x, y);
    Convex3(l.0, l.1, l.2, t.v0.depth01, t.v1.depth01, t.v2.depth01, FragmentAt(t, x, y).value.depth);
  }

  lemma SpanContains(a: real, b: real, c: real, size: int, x: int)
    requires size >= 1 && 0 <= x < size
    requires Min3(a, b, c) <= x as real + 0.5 <= Max3(a, b, c)
    ensures Span(a, b, c, size).0 <= x <= Span(a, b, c, size).1
  {
  }

  /** Every covered pixel of the buffer lies in the clamped bounding box the loop visits. */
  lemma CoveredInBox(t: Triangle, x: int, y: int, width: int, height: int)
    requires width >= 1 && height >= 1 && 0 <= x < width && 0 <= y < height
    requires !Degenerate(t) && Covers(Weights(t, x, y), Area(t))
    ensures InBox(BoundingBox(t, width, height), x, y)
  {
    FragmentWeights(t, x, y);
    var l := Lambdas(t, x, y);
    Convex3(l.0, l.1, l.2, t.v0.pos.x, t.v1.pos.x, t.v2.pos.x, x as real + 0.5);
    Convex3(l.0, l.1, l.2, t.v0.pos.y, t.v1.pos.y, t.v2.pos.y, y as real + 0.5);
    SpanContains(t.v0.pos.x, t.v1.pos.x, t.v2.pos.x, width, x);
    SpanContains(t.v0.pos.y, t.v1.pos.y, t.v2.pos.y, height, y);
  }

  /**
   * The fill loop's progress through the box: pixels in finished rows of the box,
   * and in the current row left of column `cx`, hold the depth-tested result;
   * every other pixel still holds what it held before the triangle.
   */
  predicate Progress(f: Frame, g: Frame, t: Triangle, b: Box, cy: int, cx: int, x: int, y: int)
    requires Valid(f) && Valid(g) && InFrame(f, x, y) && InFrame(g, x, y)
  {
    var done := (b.minY <= y < cy && b.minX <= x <= b.maxX) || (y == cy && b.minX <= x < cx);
    At(g, x, y) == if done then ShadePixel(t, x, y, At(f, x, y)) else At(f, x, y)
  }

  /** Writing pixel (x, y) leaves every other pixel's depth and colour as they were. */
  lemma WriteOnlyTouches(g: Frame, x: int, y: int, d: real, p: Pixel)
    requires Valid(g) && InFrame(g, x, y)
    ensures Idx(x, y, g.width) < |g.depth|
    ensures var h := g.(depth := g.depth[Idx(x, y, g.width) := d], color := g.color[Idx(x, y, g.width) := p]);
      Valid(h) && At(h, x, y) == (d, p) &&
      forall x2, y2 :: InFrame(g, x2, y2) && (x2 != x || y2 != y) ==> At(h, x2, y2) == At(g, x2, y2)
  {
    IdxInRange(x, y, g.width, g.height);
    var h := g.(depth := g.depth[Idx(x, y, g.width) := d], color := g.color[Idx(x, y, g.width) := p]);
    forall x2, y2 | InFrame(g, x2, y2) && (x2 != x || y2 != y)
      ensures At(h, x2, y2) == At(g, x2, y2)
    {
      IdxInRange(x2, y2, g.width, g.height);
      if Idx(x2, y2, g.width) == Idx(x, y, g.width) {
        IdxInjective(x2, y2, x, y, g.width);
      }
    }
  }

  /**
   * The `rasterizeTriangle` lambda on a `width * height` back buffer: the result is
   * as if every pixel of the buffer had been depth-tested against the triangle, so
   * the bounding box only saves work. A degenerate triangle leaves the buffer as it was.
   */
  method RasterizeTriangle(f: Frame, t: Triangle) returns (g: Frame)
    requires Valid(f) && f.width >= 1 && f.height >= 1
    ensures Valid(g) && g.width == f.width && g.height == f.height
    ensures forall x, y :: InFrame(f, x, y) ==> At(g, x, y) == ShadePixel(t, x, y, At(f, x, y))
    ensures Degenerate(t) ==> g == f
  {
    if Abs(Area(t)) < AreaEpsilon {
      return f;
    }
    var b := BoundingBox(t, f.width, f.height);
    g := f;
    var y := b.minY;
    while y <= b.maxY
      invariant b.minY <= y <= b.maxY + 1
      invariant Valid(g) && g.width == f.width && g.height == f.height
      invariant forall x2, y2 :: InFrame(f, x2, y2) ==> Progress(f, g, t, b, y, b.minX, x2, y2)
    {
      var x := b.minX;
      while x <= b.maxX
        invariant b.minX <= x <= b.maxX + 1
        invariant Valid(g) && g.width == f.width && g.height == f.height
        invariant forall x2, y2 :: InFrame(f, x2, y2) ==> Progress(f, g, t, b, y, x, x2, y2)
      {
        var frag := FragmentAt(t, x, y);
        IdxInRange(x, y, f.width, f.height);
        var idx := y * f.width + x;
        assert Progress(f, g, t, b, y, x, x, y);
        if frag.Some? && frag.value.depth < g.depth[idx] {
          WriteOnlyTouches(g, x, y, frag.value.depth, frag.value.pixel);
          var g' := g.(depth := g.depth[idx := frag.value.depth], color := g.color[idx := frag.value.pixel]);
          forall x2, y2 | InFrame(f, x2, y2) ensures Progress(f, g', t, b, y, x + 1, x2, y2) {
            assert Progress(f, g, t, b, y, x, x2, y2);
          }
          g := g';
        } else {
          forall x2, y2 | InFrame(f, x2, y2) ensures Progress(f, g, t, b, y, x + 1, x2, y2) {
            assert Progress(f, g, t, b, y, x, x2, y2);
          }
        }
        x := x + 1;
      }
      forall x2, y2 | InFrame(f, x2, y2) ensures Progress(f, g, t, b, y + 1, b.minX, x2, y2) {
        assert Progress(f, g, t, b, y, x, x2, y2);
      }
      y := y + 1;
    }
    forall x2, y2 | InFrame(f, x2, y2) ensures At(g, x2, y2) == ShadePixel(t, x2, y2, At(f, x2, y2)) {
      assert Progress(f, g, t, b, y, b.minX, x2, y2);
      if FragmentAt(t, x2, y2).Some? {
        CoveredInBox(t, x2, y2, f.width, f.height);
      }
    }
  }

  /** The depth test never moves a stored depth away from the viewer. */
  lemma ShadeNeverDeepens(t: Triangle, x: int, y: int, stored: (real, Pixel))
    ensures ShadePixel(t, x, y, stored).0 <= stored.0
    ensures FragmentAt(t, x, y).Some? && FragmentAt(t, x, y).value.depth >= stored.0 ==>
            ShadePixel(t, x, y, stored) == stored
  {
  }

  /**
   * With the depth buffer, the final depth of a pixel does not depend on the order
   * in which two triangles are drawn, and neither does its colour unless both
   * cover it at exactly the same depth.
   */
  lemma ShadeOrderIndependent(t1: Triangle, t2: Triangle, x: int, y: int, stored: (real, Pixel))
    ensures ShadePixel(t2, x, y, ShadePixel(t1, x, y, stored)).0 == ShadePixel(t1, x, y, ShadePixel(t2, x, y, stored)).0
    ensures (FragmentAt(t1, x, y).Some? && FragmentAt(t2, x, y).Some? ==>
               FragmentAt(t1, x, y).value.depth != FragmentAt(t2, x, y).value.depth) ==>
            ShadePixel(t2, x, y, ShadePixel(t1, x, y, stored)) == ShadePixel(t1, x, y, ShadePixel(t2, x, y, stored))
  {
  }
}

=== FILE: scene.dfy ===
/** `AEntity`: a vertex list with optional per-vertex colours, a uniform colour and a translation. */
module Entities {
  import opened LinAlg
  import opened Colors

  datatype Entity = Entity(vertices: seq<Vec3>, vertexColors: seq<Color>, color: Color, position: Vec3)

  /**
   * The in-class initialisers of `AEntity` live in its header, which is not part of
   * this model, so the uniform colour and position a new entity starts with are inputs.
   */
  datatype EntityDefaults = EntityDefaults(color: Color, position: Vec3)

  /** `AEntity(vertices)`: no per-vertex colours yet. */
  function NewEntity(vertices: seq<Vec3>, d: EntityDefaults): (e: Entity)
    ensures e.vertices == vertices && e.vertexColors == []
    ensures e.color == d.color && e.position == d.position
  {
    Entity(vertices, [], d.color, d.position)
  }

  /** `AEntity::createTriangle`. */
  function CreateTriangle(a: Vec3, b: Vec3, c: Vec3, d: EntityDefaults): (e: Entity)
    ensures |e.vertices| == 3
    ensures e.vertices[0] == a && e.vertices[1] == b && e.vertices[2] == c
    ensures e.vertexColors == []
  {
    NewEntity([a, b, c], d)
  }

  /** `AEntity::createRectangle`: a `width` x `height` rectangle on the XY plane, centred on the origin. */
  function CreateRectangle(width: real, height: real, d: EntityDefaults): (e: Entity)
    ensures |e.vertices| == 4
    ensures e.vertices[0] == Vec3(-width * 0.5, -height * 0.5, 0.0)
    ensures e.vertices[1] == Vec3(width * 0.5, -height * 0.5, 0.0)
    ensures e.vertices[2] == Vec3(width * 0.5, height * 0.5, 0.0)
    ensures e.vertices[3] == Vec3(-width * 0.5, height * 0.5, 0.0)
  {
    var hw := width * 0.5;
    var hh := height * 0.5;
    NewEntity([Vec3(-hw, -hh, 0.0), Vec3(hw, -hh, 0.0), Vec3(hw, hh, 0.0), Vec3(-hw, hh, 0.0)], d)
  }

  /** Sum of the vertices of a polygon. */
  function VertexSum(vs: seq<Vec3>): Vec3
  {
    if |vs| == 0 then Vec3(0.0, 0.0, 0.0) else Add3(VertexSum(vs[..|vs| - 1]), vs[|vs| - 1])
  }

  /**
   * Every rectangle vertex lies on the z = 0 plane, the rectangle spans exactly
   * `width` by `height`, and its vertex centroid is the origin.
   */
  lemma RectangleCentredOnOrigin(width: real, height: real, d: EntityDefaults)
    ensures var vs := CreateRectangle(width, height, d).vertices;
      && (forall i :: 0 <= i < |vs| ==> vs[i].z == 0.0)
      && VertexSum(vs) == Vec3(0.0, 0.0, 0.0)
      && vs[1].x - vs[0].x == width && vs[3].y - vs[0].y == height
  {
    var vs := CreateRectangle(width, height, d).vertices;
    assert vs[..3][..2] == vs[..2];
    assert vs[..2][..1] == vs[..1];
    assert vs[..1][..0] == [];
    assert vs[..4] == vs;
    assert VertexSum(vs[..1]) == vs[0];
    assert VertexSum(vs[..2]) == Add3(vs[0], vs[1]);
    assert VertexSum(vs[..3]) == Add3(Add3(vs[0], vs[1]), vs[2]);
  }

  /** `AEntity::setPosition`: only the position changes. */
  function SetPosition(e: Entity, p: Vec3): (r: Entity)
    ensures r.position == p
    ensures r.vertices == e.vertices && r.vertexColors == e.vertexColors && r.color == e.color
  {
    e.(position := p)
  }

  /** `AEntity::setColor`: only the uniform colour changes. */
  function SetColor(e: Entity, c: Color): (r: Entity)
    ensures r.color == c
    ensures r.vertices == e.vertices && r.vertexColors == e.vertexColors && r.position == e.position
  {
    e.(color := c)
  }

  /** `projection * view * model`, the model matrix being the entity's translation, as the software backends build it. */
  function EntityMvp(e: Entity, view: Mat4, projection: Mat4): Mat4 {
    MulMM(MulMM(projection, view), Translate(e.position))
  }

  /** Per-vertex colours are used exactly when there is one per vertex. */
  predicate HasPerVertexColors(e: Entity) {
    |e.vertexColors| == |e.vertices|
  }

  /** The colour each vertex is drawn with: its own one when every vertex has one, else the uniform colour. */
  function ResolvedColors(e: Entity): (cs: seq<Color>)
    ensures |cs| == |e.vertices|
    ensures forall i :: 0 <= i < |cs| ==> cs[i] == (if HasPerVertexColors(e) then e.vertexColors[i] else e.color)
  {
    if HasPerVertexColors(e) then e.vertexColors else seq(|e.vertices|, _ => e.color)
  }
}

/** `AWorld`: the insertion-ordered entities of a scene and its world-anchored labels. */
module Worlds {
  import opened Wrappers
  import opened Entities
  import opened Overlays

  datatype World = World(entities: seq<Entity>, floatingTexts: seq<FloatingText>)

  /** `AWorld::addEntity`: a null entity is ignored, any other is appended. */
  function AddEntity(w: World, e: Option<Entity>): (r: World)
    ensures e.None? ==> r == w
    ensures e.Some? ==> r.entities == w.entities + [e.value]
    ensures |r.entities| == |w.entities| + (if e.Some? then 1 else 0)
    ensures r.entities[..|w.entities|] == w.entities
    ensures r.floatingTexts == w.floatingTexts
  {
    match e
    case None => w
    case Some(x) => w.(entities := w.entities + [x])
  }

  /** `AWorld::getEntities`. */
  function GetEntities(w: World): seq<Entity> {
    w.entities
  }

  /** The non-null entities among `es`, in order. */
  function NonNull(es: seq<Option<Entity>>): seq<Entity>
  {
    if |es| == 0 then [] else NonNull(es[..|es| - 1]) + (if es[|es| - 1].Some? then [es[|es| - 1].value] else [])
  }

  /** Adding entities one by one. */
  function AddEntities(w: World, es: seq<Option<Entity>>): World
  {
    if |es| == 0 then w else AddEntity(AddEntities(w, es[..|es| - 1]), es[|es| - 1])
  }

  /** After any sequence of `addEntity` calls, `getEntities` lists the non-null ones in insertion order. */
  lemma {:induction false} EntitiesInInsertionOrder(w: World, es: seq<Option<Entity>>)
    ensures GetEntities(AddEntities(w, es)) == w.entities + NonNull(es)
  {
    if |es| > 0 {
      EntitiesInInsertionOrder(w, es[..|es| - 1]);
    }
  }
}

/** `AViewport`: one rendering surface with its camera matrices, world and overlays. */
module Viewports {
  import opened Wrappers
  import opened LinAlg
  import opened Worlds
  import opened Overlays

  datatype Viewport = Viewport(
    x: int, y: int, width: int, height: int,
    world: Option<World>,
    view: Mat4, projection: Mat4,
    overlays: seq<Option<Overlay>>)

  /** `AViewport(width, height)`: no world and no overlays yet; the matrices start as identity. */
  function NewViewport(width: int, height: int): (vp: Viewport)
    ensures vp.width == width && vp.height == height
    ensures vp.world.None? && vp.overlays == []
  {
    Viewport(0, 0, width, height, None, Identity(), Identity(), [])
  }

  /** `AViewport::getAspectRatio`: width over height, and 1 for a zero height. */
  function AspectRatio(vp: Viewport): (r: real)
    ensures vp.height == 0 ==> r == 1.0
    ensures vp.height != 0 ==> r * vp.height as real == vp.width as real
  {
    if vp.height == 0 then 1.0 else vp.width as real / vp.height as real
  }

  /** `AViewport::setSize`: exactly width and height change, and the aspect ratio follows them. */
  function SetSize(vp: Viewport, width: int, height: int): (r: Viewport)
    ensures r.width == width && r.height == height
    ensures r.(width := vp.width, height := vp.height) == vp
    ensures height != 0 ==> AspectRatio(r) * height as real == width as real
  {
    vp.(width := width, height := height)
  }

  /** `setRect(x, y, width, height)`, declared in the viewport's header; used by the windows. */
  function SetRect(vp: Viewport, x: int, y: int, width: int, height: int): (r: Viewport)
    ensures r.x == x && r.y == y && r.width == width && r.height == height
    ensures r.(x := vp.x, y := vp.y, width := vp.width, height := vp.height) == vp
  {
    vp.(x := x, y := y, width := width, height := height)
  }

  /** `AViewport::setWorld`: the viewport now refers to `w`; nothing else changes. */
  function SetWorld(vp: Viewport, w: World): (r: Viewport)
    ensures GetWorld(r) == Some(w)
    ensures r.(world := vp.world) == vp
  {
    vp.(world := Some(w))
  }

  /** `AViewport::getWorld`: null until a world is set. */
  function GetWorld(vp: Viewport): Option<World> {
    vp.world
  }

  /** `AViewport::setViewMatrix`: `getViewMatrix` then returns `m`; nothing else changes. */
  function SetViewMatrix(vp: Viewport, m: Mat4): (r: Viewport)
    ensures GetViewMatrix(r) == m
    ensures r.(view := vp.view) == vp
  {
    vp.(view := m)
  }

  /** `AViewport::setProjectionMatrix`: `getProjectionMatrix` then returns `m`; nothing else changes. */
  function SetProjectionMatrix(vp: Viewport, m: Mat4): (r: Viewport)
    ensures GetProjectionMatrix(r) == m
    ensures r.(projection := vp.projection) == vp
  {
    vp.(projection := m)
  }

  function GetViewMatrix(vp: Viewport): Mat4 {
    vp.view
  }

  function GetProjectionMatrix(vp: Viewport): Mat4 {
    vp.projection
  }
}

=== FILE: seqs.dfy ===
/** Sequence helpers shared by the containers of the model. */
module Seqs {

  /**
   * `push_back` followed by `back()`: the grown sequence and the position of the
   * element that was appended.
   */
  function Push<T>(s: seq<T>, x: T): (r: (seq<T>, nat))
    ensures |r.0| == |s| + 1
    ensures r.1 == |s| && r.0[r.1] == x
    ensures r.0[..|s|] == s
  {
    (s + [x], |s|)
  }

  /** The sequence rotated left by one: the first element moves to the end. */
  function RotateLeft<T>(s: seq<T>): (r: seq<T>)
    ensures |r| == |s|
    ensures multiset(r) == multiset(s)
    ensures forall i :: 0 <= i < |s| - 1 ==> r[i] == s[i + 1]
    ensures |s| > 0 ==> r[|s| - 1] == s[0]
  {
    if |s| == 0 then s else
      assert s == [s[0]] + s[1..];
      s[1..] + [s[0]]
  }

  /** Rotation left by `k` places: `k` successive left rotations. */
  function Rotate<T>(s: seq<T>, k: nat): (r: seq<T>)
    ensures |r| == |s|
    ensures multiset(r) == multiset(s)
    decreases k
  {
    if k == 0 then s else Rotate(RotateLeft(s), k - 1)
  }
}

=== FILE: tracker.dfy ===
/**
 * `ARenderTimeTracker`: per-backend accumulated draw time and sample count,
 * reported as shares of the total once per interval and then cleared. The
 * clock readings are parameters (milliseconds), the durations are reals, and
 * the printed report is returned as its lines.
 */
module RenderTimeTracker {
  import opened RenderWindows

  /** One backend's statistics. */
  datatype Stat = Stat(accumulatedMs: real, samples: nat)

  const EmptyStat := Stat(0.0, 0)

  /** One backend per slot, in the order the backend enumeration declares them. */
  const StatCount: nat := 5

  datatype Tracker = Tracker(stats: seq<Stat>, lastReport: real, reportInterval: real)

  /** One entry of the printed report. */
  datatype ReportLine = ReportLine(name: string, percent: real, averageMs: real)

  /** What `reportAndReset` prints: nothing when no time was accumulated, else one line per sampled backend. */
  datatype Report = Silent | Printed(lines: seq<ReportLine>)

  /** `static_cast<size_t>(backend)`. */
  function Index(b: Backend): (i: nat)
    ensures i < StatCount
    ensures i == 0 <==> b == NoBackend
  {
    match b
    case NoBackend => 0
    case OpenGL => 1
    case Vulkan => 2
    case DirectX11 => 3
    case DirectX12 => 4
  }

  /** `static_cast<EGraphicsBackend>(i)`. */
  function BackendAt(i: nat): Backend
    requires i < StatCount
  {
    [NoBackend, OpenGL, Vulkan, DirectX11, DirectX12][i]
  }

  /** Slots and backends correspond one to one. */
  lemma IndexRoundTrip(b: Backend, i: nat)
    requires i < StatCount
    ensures BackendAt(Index(b)) == b
    ensures Index(BackendAt(i)) == i
  {
  }

  /** `backendName`: a non-empty label, "None" exactly for the slot without a backend. */
  function BackendName(b: Backend): (n: string)
    ensures |n| > 0
    ensures n == "None" <==> b == NoBackend
  {
    match b
    case OpenGL => "OpenGL"
    case Vulkan => "Vulkan"
    case DirectX11 => "DX11"
    case DirectX12 => "DX12"
    case NoBackend => "None"
  }

  /** Different backends are reported under different names. */
  lemma BackendNamesDistinct(a: Backend, b: Backend)
    requires a != b
    ensures BackendName(a) != BackendName(b)
  {
  }

  /** The shape the tracker keeps: one slot per backend, and no time without a sample. */
  predicate Valid(t: Tracker) {
    |t.stats| == StatCount && forall i :: 0 <= i < |t.stats| ==> t.stats[i].samples == 0 ==> t.stats[i].accumulatedMs == 0.0
  }

  function Zeroed(): (s: seq<Stat>)
    ensures |s| == StatCount && forall i :: 0 <= i < |s| ==> s[i] == EmptyStat
  {
    seq(StatCount, _ => EmptyStat)
  }

  /** The constructor: empty statistics, the last report at construction time. */
  function NewTracker(reportInterval: real, now: real): (t: Tracker)
    ensures Valid(t) && t.lastReport == now
  {
    Tracker(Zeroed(), now, reportInterval)
  }

  function TotalMs(stats: seq<Stat>): real
    decreases |stats|
  {
    if |stats| == 0 then 0.0 else stats[0].accumulatedMs + TotalMs(stats[1..])
  }

  /** The lines for the slots from `from` on, each sampled slot in order. */
  function Lines(stats: seq<Stat>, from: nat, total: real): (ls: seq<ReportLine>)
    requires from <= |stats| == StatCount && total != 0.0
    ensures |ls| <= |stats| - from
    decreases |stats| - from
  {
    if from == |stats| then []
    else
      var s := stats[from];
      var rest := Lines(stats, from + 1, total);
      if s.samples == 0 then rest
      else [ReportLine(BackendName(BackendAt(from)), (s.accumulatedMs / total) * 100.0, s.accumulatedMs / s.samples as real)] + rest
  }

  /**
   * `reportAndReset`: the statistics are always cleared; something is printed
   * only when the accumulated total is positive.
   */
  function ReportAndReset(stats: seq<Stat>): (r: (seq<Stat>, Report))
    requires |stats| == StatCount
    ensures r.0 == Zeroed()
    ensures r.1.Printed? <==> TotalMs(stats) > 0.0
    ensures r.1.Printed? ==> r.1.lines == Lines(stats, 0, TotalMs(stats))
  {
    var total := TotalMs(stats);
    if total <= 0.0 then (Zeroed(), Silent)
    else (Zeroed(), Printed(Lines(stats, 0, total)))
  }

  function PercentSum(ls: seq<ReportLine>): real
    decreases |ls|
  {
    if |ls| == 0 then 0.0 else ls[0].percent + PercentSum(ls[1..])
  }

  /** Shares of one total add up. */
  lemma SharesAdd(a: real, b: real, total: real)
    requires total > 0.0
    ensures (a / total) * 100.0 + (b / total) * 100.0 == ((a + b) / total) * 100.0
  {
  }

  /** The percentages of the slots from `from` on add up to their share of the total. */
  lemma {:induction false} PercentSumOfLines(stats: seq<Stat>, from: nat, total: real)
    requires from <= |stats| == StatCount && total > 0.0
    requires forall i :: 0 <= i < |stats| ==> stats[i].samples == 0 ==> stats[i].accumulatedMs == 0.0
    ensures PercentSum(Lines(stats, from, total)) == (TotalMs(stats[from..]) / total) * 100.0
    decreases |stats| - from
  {
    if from < |stats| {
      var rest := Lines(stats, from + 1, total);
      var a := stats[from].accumulatedMs;
      var restMs := TotalMs(stats[from + 1..]);
      PercentSumOfLines(stats, from + 1, total);
      assert stats[from..][1..] == stats[from + 1..];
      assert TotalMs(stats[from..]) == a + restMs;
      SharesAdd(a, restMs, total);
      if stats[from].samples == 0 {
        assert Lines(stats, from, total) == rest;
        assert a == 0.0;
      } else {
        var ls := Lines(stats, from, total);
        assert ls[1..] == rest;
        assert ls[0].percent == (a / total) * 100.0;
      }
    } else {
      assert stats[from..] == [];
    }
  }

  /** A printed report's percentages add up to exactly 100. */
  lemma ReportSumsTo100(t: Tracker)
    requires Valid(t)
    ensures var r := ReportAndReset(t.stats).1;
      r.Printed? ==> PercentSum(r.lines) == 100.0
  {
    if TotalMs(t.stats) > 0.0 {
      var total := TotalMs(t.stats);
      PercentSumOfLines(t.stats, 0, total);
      assert t.stats[0..] == t.stats;
      assert total / total == 1.0;
    }
  }

  /**
   * `record`: a draw under `None` is not counted; otherwise the backend's slot
   * gains the elapsed time and one sample, and once the interval has passed
   * since the last report a report is made and the clock reading kept.
   */
  function Record(t: Tracker, b: Backend, elapsedMs: real, now: real): (r: (Tracker, Report))
    requires Valid(t)
    ensures Valid(r.0) && r.0.reportInterval == t.reportInterval
    ensures b == NoBackend ==> r == (t, Silent)
    ensures b != NoBackend && now - t.lastReport >= t.reportInterval ==> r.0.lastReport == now && r.0.stats == Zeroed()
    ensures b != NoBackend && now - t.lastReport >= t.reportInterval ==>
      var u := t.stats[Index(b) := Stat(t.stats[Index(b)].accumulatedMs + elapsedMs, t.stats[Index(b)].samples + 1)];
      && (r.1.Printed? <==> TotalMs(u) > 0.0)
      && (r.1.Printed? ==> r.1.lines == Lines(u, 0, TotalMs(u)))
    ensures b == NoBackend || now - t.lastReport < t.reportInterval ==> r.0.lastReport == t.lastReport
    ensures b != NoBackend && now - t.lastReport < t.reportInterval ==>
      && r.1 == Silent
      && r.0.stats[Index(b)] == Stat(t.stats[Index(b)].accumulatedMs + elapsedMs, t.stats[Index(b)].samples + 1)
      && forall i :: 0 <= i < StatCount && i != Index(b) ==> r.0.stats[i] == t.stats[i]
  {
    if b == NoBackend then (t, Silent)
    else
      var i := Index(b);
      var stats := t.stats[i := Stat(t.stats[i].accumulatedMs + elapsedMs, t.stats[i].samples + 1)];
      if now - t.lastReport >= t.reportInterval then
        var rep := ReportAndReset(stats);
        (t.(stats := rep.0, lastReport := now), rep.1)
      else (t.(stats := stats), Silent)
  }

  /** When a report fires, the backend that was just recorded is on it. */
  lemma {:induction false} RecordedBackendReported(stats: seq<Stat>, from: nat, total: real, i: nat)
    requires from <= i < |stats| == StatCount && total != 0.0
    requires stats[i].samples > 0
    ensures exists k :: 0 <= k < |Lines(stats, from, total)| && Lines(stats, from, total)[k].name == BackendName(BackendAt(i))
    decreases i - from
  {
    if from < i {
      RecordedBackendReported(stats, from + 1, total, i);
      var rest := Lines(stats, from + 1, total);
      var k :| 0 <= k < |rest| && rest[k].name == BackendName(BackendAt(i));
      if stats[from].samples != 0 {
        assert Lines(stats, from, total)[k + 1] == rest[k];
      } else {
        assert Lines(stats, from, total) == rest;
      }
    } else {
      assert Lines(stats, from, total)[0].name == BackendName(BackendAt(i));
    }
  }

  /** A report made by `record` names the backend whose draw was just recorded. */
  lemma RecordReportNamesBackend(t: Tracker, b: Backend, elapsedMs: real, now: real)
    requires Valid(t) && b != NoBackend
    ensures var r := Record(t, b, elapsedMs, now).1;
      r.Printed? ==> exists k :: 0 <= k < |r.lines| && r.lines[k].name == BackendName(b)
  {
    var i := Index(b);
    var stats := t.stats[i := Stat(t.stats[i].accumulatedMs + elapsedMs, t.stats[i].samples + 1)];
    if now - t.lastReport >= t.reportInterval && TotalMs(stats) > 0.0 {
      RecordedBackendReported(stats, 0, TotalMs(stats), i);
      IndexRoundTrip(b, i);
    }
  }
}

=== FILE: vulkan_app.dfy ===
/**
 * `VulkanApp`: bringing up a Vulkan instance, surface, physical device and
 * logical device for a Win32 window. Every Vulkan call is foreign, so what
 * the driver reports (available layers and extensions, the devices and their
 * queue families, whether each creation succeeds) is gathered in `Env`, and
 * the handles are modelled by whether they are null.
 */
module VulkanSetup {
  import opened Wrappers

  const SurfaceExtension := "VK_KHR_surface"
  const Win32SurfaceExtension := "VK_KHR_win32_surface"
  const DebugUtilsExtension := "VK_EXT_debug_utils"
  const SwapchainExtension := "VK_KHR_swapchain"
  const ValidationLayer := "VK_LAYER_KHRONOS_validation"

  /** `VkSurfaceFormatKHR`. */
  datatype SurfaceFormat = SurfaceFormat(format: int, colorSpace: int)

  /** A queue family: whether it has the graphics bit, and whether it can present to the window's surface. */
  datatype QueueFamily = QueueFamily(graphics: bool, present: bool)

  /** What `vkEnumeratePhysicalDevices` and the per-device queries report about one GPU. */
  datatype PhysicalDevice = PhysicalDevice(
    id: nat, name: string, extensions: seq<string>, families: seq<QueueFamily>,
    formats: seq<SurfaceFormat>, presentModes: seq<int>)

  /** `QueueFamilyIndices`. */
  datatype QueueFamilyIndices = QueueFamilyIndices(graphicsFamily: Option<nat>, presentFamily: Option<nat>)

  /** `QueueFamilyIndices::IsComplete`. */
  predicate IsComplete(q: QueueFamilyIndices) {
    q.graphicsFamily.Some? && q.presentFamily.Some?
  }

  // ------------------------------------------------------- queue families

  datatype Capability = Graphics | Present

  predicate Has(f: QueueFamily, c: Capability) {
    if c == Graphics then f.graphics else f.present
  }

  /** The last family before `n` with the capability: the one a forward scan that overwrites ends on. */
  function LastWith(fams: seq<QueueFamily>, n: nat, c: Capability): (r: Option<nat>)
    requires n <= |fams|
    ensures r.Some? ==> r.value < n && Has(fams[r.value], c) && forall j :: r.value < j < n ==> !Has(fams[j], c)
    ensures r.None? <==> forall j :: 0 <= j < n ==> !Has(fams[j], c)
  {
    if n == 0 then None
    else if Has(fams[n - 1], c) then Some(n - 1)
    else LastWith(fams, n - 1, c)
  }

  predicate CompleteBy(fams: seq<QueueFamily>, n: nat)
    requires n <= |fams|
  {
    LastWith(fams, n, Graphics).Some? && LastWith(fams, n, Present).Some?
  }

  /** How many families the scan looks at: up to the first one after which both are found, else all of them. */
  function ScanFrom(fams: seq<QueueFamily>, i: nat): (n: nat)
    requires i <= |fams|
    ensures i <= n <= |fams|
    ensures n < |fams| ==> CompleteBy(fams, n)
    ensures forall k :: i < k < n ==> !CompleteBy(fams, k)
    decreases |fams| - i
  {
    if i == |fams| then i
    else if CompleteBy(fams, i + 1) then i + 1
    else ScanFrom(fams, i + 1)
  }

  /** The indices `FindQueueFamilies` settles on, as a reference definition. */
  function QueueFamiliesOf(fams: seq<QueueFamily>): QueueFamilyIndices {
    var n := ScanFrom(fams, 0);
    QueueFamilyIndices(LastWith(fams, n, Graphics), LastWith(fams, n, Present))
  }

  /**
   * `FindQueueFamilies`: scans the families in order, remembering the latest
   * graphics-capable and the latest presenting one, and stops as soon as both
   * are known.
   */
  method FindQueueFamilies(fams: seq<QueueFamily>) returns (q: QueueFamilyIndices)
    ensures q == QueueFamiliesOf(fams)
    ensures q.graphicsFamily.Some? ==> q.graphicsFamily.value < |fams| && fams[q.graphicsFamily.value].graphics
    ensures q.presentFamily.Some? ==> q.presentFamily.value < |fams| && fams[q.presentFamily.value].present
  {
    var graphics: Option<nat> := None;
    var present: Option<nat> := None;
    var i := 0;
    while i < |fams|
      invariant 0 <= i <= |fams|
      invariant graphics == LastWith(fams, i, Graphics) && present == LastWith(fams, i, Present)
      invariant ScanFrom(fams, 0) == ScanFrom(fams, i)
      decreases |fams| - i
    {
      if fams[i].graphics {
        graphics := Some(i);
      }
      if fams[i].present {
        present := Some(i);
      }
      i := i + 1;
      if graphics.Some? && present.Some? {
        break;
      }
    }
    q := QueueFamilyIndices(graphics, present);
  }

  /** The scan finds both kinds of family exactly when the device has both. */
  lemma {:induction false} CompleteIffBothExist(fams: seq<QueueFamily>)
    ensures IsComplete(QueueFamiliesOf(fams)) <==>
      (exists i :: 0 <= i < |fams| && fams[i].graphics) && (exists j :: 0 <= j < |fams| && fams[j].present)
  {
    var n := ScanFrom(fams, 0);
    var g := LastWith(fams, n, Graphics);
    var p := LastWith(fams, n, Present);
    if g.Some? && p.Some? {
      assert Has(fams[g.value], Graphics) && Has(fams[p.value], Present);
    }
    if (exists i :: 0 <= i < |fams| && fams[i].graphics) && (exists j :: 0 <= j < |fams| && fams[j].present) {
      var i :| 0 <= i < |fams| && fams[i].graphics;
      var j :| 0 <= j < |fams| && fams[j].present;
      if n == |fams| {
        assert Has(fams[i], Graphics) && Has(fams[j], Present);
      }
    }
  }

  /** A family that can do both, placed first, is the one chosen for both. */
  lemma FirstFamilyDoingBoth(fams: seq<QueueFamily>)
    requires |fams| > 0 && fams[0].graphics && fams[0].present
    ensures QueueFamiliesOf(fams) == QueueFamilyIndices(Some(0), Some(0))
  {
    assert CompleteBy(fams, 1);
  }

  /**
   * The overwriting scan does not pick the first graphics family: with a
   * second graphics family before the first presenting one, the second wins.
   */
  lemma LaterGraphicsFamilyWins()
    ensures QueueFamiliesOf([QueueFamily(true, false), QueueFamily(true, false), QueueFamily(false, true)])
      == QueueFamilyIndices(Some(1), Some(2))
  {
    var fams := [QueueFamily(true, false), QueueFamily(true, false), QueueFamily(false, true)];
    assert !CompleteBy(fams, 1) && !CompleteBy(fams, 2) && CompleteBy(fams, 3);
    assert ScanFrom(fams, 2) == 3;
    assert ScanFrom(fams, 1) == 3;
  }

  // ------------------------------------------------------------ extensions

  /** `CheckValidationLayerSupport`: the one requested layer is among the available ones. */
  function ValidationLayerSupported(layers: seq<string>): (ok: bool)
    ensures ok <==> exists i :: 0 <= i < |layers| && layers[i] == ValidationLayer
  {
    ValidationLayer in layers
  }

  /**
   * `GatherRequiredExtensions`: surface and Win32 surface always; the
   * debug-utils extension as well exactly when validation is on and the
   * extension is available, which is also the new debug-utils flag.
   */
  function GatherRequiredExtensions(validation: bool, available: seq<string>): (r: (seq<string>, bool))
    ensures |r.0| == if r.1 then 3 else 2
    ensures r.0[..2] == [SurfaceExtension, Win32SurfaceExtension]
    ensures r.1 <==> validation && DebugUtilsExtension in available
    ensures DebugUtilsExtension in r.0 <==> r.1
  {
    var debugUtils := validation && DebugUtilsExtension in available;
    var required := [SurfaceExtension, Win32SurfaceExtension];
    if debugUtils then (required + [DebugUtilsExtension], true) else (required, false)
  }

  /** `CheckDeviceExtensionSupport`: the swapchain extension is offered. */
  function DeviceExtensionsSupported(d: PhysicalDevice): (ok: bool)
    ensures ok <==> exists i :: 0 <= i < |d.extensions| && d.extensions[i] == SwapchainExtension
  {
    SwapchainExtension in d.extensions
  }

  /**
   * `SetupDebugMessenger`: without validation or without debug utils there is
   * nothing to do and it reports success; otherwise it creates the messenger,
   * or reports failure. The result is whether a messenger now exists.
   */
  function SetupDebugMessenger(validation: bool, debugUtils: bool, messenger: bool, createOk: bool): (r: (bool, bool))
    ensures !validation || !debugUtils ==> r == (messenger, true)
    ensures validation && debugUtils ==> r == (createOk || messenger, createOk)
  {
    if !validation || !debugUtils then (messenger, true)
    else if createOk then (true, true)
    else (messenger, false)
  }

  // ------------------------------------------------------- device choice

  /**
   * Whether a device qualifies: the swapchain extension and complete queue
   * families, and, when `needSwapchainSupport`, at least one surface format
   * and one present mode (the earlier version's extra test).
   */
  predicate Suitable(d: PhysicalDevice, needSwapchainSupport: bool) {
    && DeviceExtensionsSupported(d)
    && IsComplete(QueueFamiliesOf(d.families))
    && (needSwapchainSupport ==> |d.formats| > 0 && |d.presentModes| > 0)
  }

  /** The first qualifying device from `from` on. */
  function FirstSuitable(ds: seq<PhysicalDevice>, from: nat, needSwapchainSupport: bool): (r: Option<nat>)
    requires from <= |ds|
    ensures r.Some? ==> from <= r.value < |ds| && Suitable(ds[r.value], needSwapchainSupport)
    ensures r.Some? ==> forall j :: from <= j < r.value ==> !Suitable(ds[j], needSwapchainSupport)
    ensures r.None? <==> forall j :: from <= j < |ds| ==> !Suitable(ds[j], needSwapchainSupport)
    decreases |ds| - from
  {
    if from == |ds| then None
    else if Suitable(ds[from], needSwapchainSupport) then Some(from)
    else FirstSuitable(ds, from + 1, needSwapchainSupport)
  }

  /** What the driver reports to one `Initialize` call. */
  datatype Env = Env(
    volkOk: bool, debugBuild: bool, layers: seq<string>, instanceExtensions: seq<string>,
    instanceOk: bool, messengerOk: bool, surfaceOk: bool,
    enumerateOk: bool, devices: seq<PhysicalDevice>, deviceOk: bool)

  /** `VulkanApp`'s fields; a handle is modelled by whether it is non-null. */
  datatype App = App(
    initialized: bool, validationEnabled: bool, debugUtilsEnabled: bool,
    instance: bool, debugMessenger: bool, surface: bool,
    physicalDevice: Option<PhysicalDevice>, queueFamilies: QueueFamilyIndices, selectedGpuName: string,
    device: bool)

  const NewApp := App(false, false, false, false, false, false, None, QueueFamilyIndices(None, None), "", false)

  /** Whether `PickPhysicalDevice` ends up holding a device. */
  predicate PickSucceeds(a: App, enumerateOk: bool, ds: seq<PhysicalDevice>, needSwapchainSupport: bool) {
    enumerateOk && |ds| > 0 && (a.physicalDevice.Some? || FirstSuitable(ds, 0, needSwapchainSupport).Some?)
  }

  /**
   * `PickPhysicalDevice`: with no devices it fails. Otherwise the first
   * qualifying device is taken, but only while no device is held yet, and it
   * succeeds when a device is held afterwards.
   */
  function PickPhysicalDevice(a: App, enumerateOk: bool, ds: seq<PhysicalDevice>, needSwapchainSupport: bool): (r: (App, bool))
    ensures !enumerateOk || |ds| == 0 ==> r == (a, false)
    ensures enumerateOk && |ds| > 0 && a.physicalDevice.Some? ==> r == (a, true)
    ensures r.1 <==> PickSucceeds(a, enumerateOk, ds, needSwapchainSupport)
    ensures r.0 == a.(physicalDevice := r.0.physicalDevice, queueFamilies := r.0.queueFamilies, selectedGpuName := r.0.selectedGpuName)
    ensures enumerateOk && |ds| > 0 && a.physicalDevice.None? && FirstSuitable(ds, 0, needSwapchainSupport).None? ==> r.0 == a
    ensures enumerateOk && |ds| > 0 && a.physicalDevice.None? && FirstSuitable(ds, 0, needSwapchainSupport).Some? ==>
      var i := FirstSuitable(ds, 0, needSwapchainSupport).value;
      r.0 == a.(physicalDevice := Some(ds[i]), queueFamilies := QueueFamiliesOf(ds[i].families), selectedGpuName := ds[i].name)
  {
    if !enumerateOk || |ds| == 0 then (a, false)
    else if a.physicalDevice.Some? then (a, true)
    else
      match FirstSuitable(ds, 0, needSwapchainSupport)
      case None => (a, false)
      case Some(i) =>
        (a.(physicalDevice := Some(ds[i]), queueFamilies := QueueFamiliesOf(ds[i].families), selectedGpuName := ds[i].name), true)
  }

  /**
   * The queue families `CreateLogicalDevice` asks queues of: the graphics
   * family, then the present family if it is a different one.
   */
  function UniqueQueues(q: QueueFamilyIndices): (r: seq<nat>)
    requires IsComplete(q)
    ensures 1 <= |r| <= 2 && forall i, j :: 0 <= i < j < |r| ==> r[i] != r[j]
    ensures r[0] == q.graphicsFamily.value
    ensures |r| == 1 <==> q.graphicsFamily == q.presentFamily
    ensures |r| == 2 ==> r[1] == q.presentFamily.value
    ensures forall f :: f in r <==> f == q.graphicsFamily.value || f == q.presentFamily.value
  {
    if q.presentFamily != q.graphicsFamily then [q.graphicsFamily.value, q.presentFamily.value]
    else [q.graphicsFamily.value]
  }

  /**
   * `Initialize`: once initialised it reports success at once. Otherwise it
   * runs the steps in order and stops at the first that fails, keeping what
   * the earlier steps made; a debug messenger that cannot be made is only a
   * warning. Validation is requested in debug builds only.
   */
  function Initialize(a: App, env: Env): (r: (App, bool))
    ensures a.initialized ==> r == (a, true)
    ensures !a.initialized ==> (r.1 <==>
      && env.volkOk && env.instanceOk && env.surfaceOk && env.deviceOk
      && PickSucceeds(a, env.enumerateOk, env.devices, false))
    ensures r.1 <==> r.0.initialized
    ensures !a.initialized && env.volkOk && env.instanceOk ==>
      r.0.validationEnabled == (env.debugBuild && ValidationLayerSupported(env.layers))
  {
    if a.initialized then (a, true)
    else if !env.volkOk then (a, false)
    else
      var validation := env.debugBuild && ValidationLayerSupported(env.layers);
      var debugUtils := GatherRequiredExtensions(validation, env.instanceExtensions).1;
      var s0 := a.(validationEnabled := validation, debugUtilsEnabled := debugUtils);
      if !env.instanceOk then (s0, false)
      else
        var messenger := SetupDebugMessenger(validation, debugUtils, a.debugMessenger, env.messengerOk).0;
        CreateDevice(s0.(instance := true, debugMessenger := messenger), env)
  }

  /**
   * The steps of `Initialize` after the instance: the surface, the physical
   * device and the logical device, stopping at the first that fails.
   */
  function CreateDevice(a: App, env: Env): (r: (App, bool))
    requires !a.initialized
    ensures r.1 <==> env.surfaceOk && env.deviceOk && PickSucceeds(a, env.enumerateOk, env.devices, false)
    ensures r.1 <==> r.0.initialized
    ensures r.0.validationEnabled == a.validationEnabled && r.0.instance == a.instance
  {
    if !env.surfaceOk then (a, false)
    else
      var picked := PickPhysicalDevice(a.(surface := true), env.enumerateOk, env.devices, false);
      if !picked.1 then (picked.0, false)
      else if !env.deviceOk then (picked.0, false)
      else (picked.0.(device := true, initialized := true), true)
  }

  /** A fresh app that initialises uses the first qualifying device, whose queue families are complete. */
  lemma FreshInitializeChoosesFirstSuitable(env: Env)
    ensures var r := Initialize(NewApp, env);
      r.1 ==>
        && (exists i :: FirstSuitable(env.devices, 0, false) == Some(i) && r.0.physicalDevice == Some(env.devices[i]))
        && IsComplete(r.0.queueFamilies)
  {
  }

  /**
   * `Cleanup`: the device, surface, messenger and instance are destroyed if
   * they exist, and the app is no longer initialised. The chosen physical
   * device and its queue families are left as they were.
   */
  function Cleanup(a: App): (r: App)
    ensures !r.initialized && !r.device && !r.surface && !r.debugMessenger && !r.instance
    ensures r.physicalDevice == a.physicalDevice && r.queueFamilies == a.queueFamilies
    ensures r.(initialized := a.initialized, device := a.device, surface := a.surface,
               debugMessenger := a.debugMessenger, instance := a.instance) == a
  {
    a.(device := false, surface := false, debugMessenger := false, instance := false, initialized := false)
  }

  lemma CleanupIdempotent(a: App)
    ensures Cleanup(Cleanup(a)) == Cleanup(a)
  {
  }

  /**
   * Because `Cleanup` keeps the physical device, initialising again reuses a
   * device of the destroyed instance, even when the new enumeration no longer
   * lists it.
   */
  lemma StaleDeviceAfterCleanup(d: PhysicalDevice, other: PhysicalDevice, env: Env)
    requires env.volkOk && env.instanceOk && env.surfaceOk && env.enumerateOk && env.deviceOk
    requires Suitable(d, false) && env.devices == [d]
    requires Suitable(other, false) && other != d
    ensures var first := Initialize(NewApp, env).0;
      var again := Initialize(Cleanup(first), env.(devices := [other]));
      again.1 && again.0.physicalDevice == Some(d) && d !in env.(devices := [other]).devices
  {
    assert FirstSuitable([d], 0, false) == Some(0);
  }

  /** `Cleanup` that also forgets the physical device, its queue families and its name. */
  function CleanupReleasingDevice(a: App): (r: App)
    ensures !r.initialized && !r.device && !r.surface && !r.debugMessenger && !r.instance
    ensures r.physicalDevice.None? && r.queueFamilies == QueueFamilyIndices(None, None) && r.selectedGpuName == ""
    ensures r.validationEnabled == a.validationEnabled && r.debugUtilsEnabled == a.debugUtilsEnabled
  {
    Cleanup(a).(physicalDevice := None, queueFamilies := QueueFamilyIndices(None, None), selectedGpuName := "")
  }

  /** After the releasing cleanup, initialising again chooses from the new enumeration only. */
  lemma ReinitializeChoosesAfresh(a: App, env: Env)
    ensures var r := Initialize(CleanupReleasingDevice(a), env);
      r.1 ==> (exists i :: FirstSuitable(env.devices, 0, false) == Some(i) && r.0.physicalDevice == Some(env.devices[i]))
  {
  }
}

=== FILE: vulkan_renderer.dfy ===
/**
 * The Vulkan backend as the source ships it: a Vulkan instance created only to
 * probe the runtime, and a GDI preview that projects every entity, orders the
 * resulting polygons far to near by their mean depth (painter's algorithm, no
 * depth buffer) and fills each with a gradient or a single colour.
 */
module VulkanRenderer {
  import opened Numeric
  import opened LinAlg
  import opened Colors
  import opened Wrappers
  import opened Entities
  import opened Worlds
  import opened Viewports
  import opened Projection

  // ---------------------------------------------------------------- state

  /**
   * The renderer's fields: window handle, instance, stored size, world, and the
   * memory DC, the bitmap and the size of the GDI back buffer.
   */
  datatype Vk = Vk(
    hasWindow: bool, hasInstance: bool, width: int, height: int, world: Option<World>,
    hasBackDc: bool, hasBitmap: bool, backWidth: int, backHeight: int)

  /**
   * `releaseBackBuffer`: the DC and the bitmap are freed together, and only when
   * the DC exists; the stored size always drops to zero.
   */
  function ReleaseBackBuffer(r: Vk): (s: Vk)
    ensures s.backWidth == 0 && s.backHeight == 0
    ensures !s.hasBackDc
    ensures s.hasBitmap <==> (r.hasBitmap && !r.hasBackDc)
    ensures s.(hasBackDc := r.hasBackDc, hasBitmap := r.hasBitmap, backWidth := r.backWidth, backHeight := r.backHeight) == r
  {
    if r.hasBackDc then r.(hasBackDc := false, hasBitmap := false, backWidth := 0, backHeight := 0)
    else r.(backWidth := 0, backHeight := 0)
  }

  /**
   * `ensureBackBuffer`: nothing without a window, nothing when a bitmap of the
   * requested size exists; otherwise the old buffer is released and a new one
   * created, `dcOk` and `bitmapOk` standing for the two GDI creations. The size
   * is recorded whether or not they succeed.
   */
  function EnsureBackBuffer(r: Vk, width: int, height: int, dcOk: bool, bitmapOk: bool): (s: Vk)
    ensures !r.hasWindow ==> s == r
    ensures r.hasBitmap && r.backWidth == width && r.backHeight == height ==> s == r
    ensures r.hasWindow && !(r.hasBitmap && r.backWidth == width && r.backHeight == height) ==>
      s.hasBackDc == dcOk && s.hasBitmap == bitmapOk
    ensures r.hasWindow ==> s.backWidth == width && s.backHeight == height
    ensures s.hasWindow == r.hasWindow && s.hasInstance == r.hasInstance && s.world == r.world
    ensures s.width == r.width && s.height == r.height
  {
    if !r.hasWindow then r
    else if r.hasBitmap && width == r.backWidth && height == r.backHeight then r
    else ReleaseBackBuffer(r).(hasBackDc := dcOk, hasBitmap := bitmapOk, backWidth := width, backHeight := height)
  }

  /** A second `ensureBackBuffer` with the same size changes nothing once a bitmap was created. */
  lemma EnsureBackBufferIdempotent(r: Vk, width: int, height: int, dcOk: bool, bitmapOk: bool, dcOk2: bool, bitmapOk2: bool)
    requires bitmapOk
    ensures var s := EnsureBackBuffer(r, width, height, dcOk, bitmapOk);
      EnsureBackBuffer(s, width, height, dcOk2, bitmapOk2) == s
  {
  }

  /** `resize`: stores the size and brings the back buffer to it. */
  function Resize(r: Vk, width: int, height: int, dcOk: bool, bitmapOk: bool): (s: Vk)
    ensures s.width == width && s.height == height
    ensures r.hasWindow ==> s.backWidth == width && s.backHeight == height
    ensures s.hasWindow == r.hasWindow && s.world == r.world && s.hasInstance == r.hasInstance
  {
    EnsureBackBuffer(r.(width := width, height := height), width, height, dcOk, bitmapOk)
  }

  /**
   * `initialize`: stores window and size, creates the back buffer and tries to
   * create an instance (`instanceOk`). It reports success even when the
   * instance could not be created, leaving the handle null.
   */
  function Initialize(r: Vk, hasWindow: bool, width: int, height: int, dcOk: bool, bitmapOk: bool, instanceOk: bool): (res: (Vk, bool))
    ensures res.1
    ensures res.0.hasInstance == instanceOk
    ensures res.0.hasWindow == hasWindow && res.0.width == width && res.0.height == height
    ensures hasWindow ==> res.0.backWidth == width && res.0.backHeight == height
  {
    var s := EnsureBackBuffer(r.(hasWindow := hasWindow, width := width, height := height), width, height, dcOk, bitmapOk);
    (s.(hasInstance := instanceOk), true)
  }

  /** `shutdown`: back buffer released, instance destroyed, window forgotten. */
  function Shutdown(r: Vk): (s: Vk)
    ensures !s.hasWindow && !s.hasInstance && !s.hasBackDc
    ensures s.backWidth == 0 && s.backHeight == 0
    ensures s.world == r.world
  {
    ReleaseBackBuffer(r).(hasInstance := false, hasWindow := false)
  }

  /** `setWorld`: only the world pointer changes. */
  function SetWorld(r: Vk, w: Option<World>): (s: Vk)
    ensures s.world == w
    ensures s.(world := r.world) == r
  {
    r.(world := w)
  }

  // ------------------------------------------------------------ primitives

  /** The sum of a list of reals. */
  function Sum(xs: seq<real>): real {
    if |xs| == 0 then 0.0 else Sum(xs[..|xs| - 1]) + xs[|xs| - 1]
  }

  /** A sum of `n` values in [lo, hi] lies in [n lo, n hi]. */
  lemma {:induction false} SumBounds(xs: seq<real>, lo: real, hi: real)
    requires forall i :: 0 <= i < |xs| ==> lo <= xs[i] <= hi
    ensures |xs| as real * lo <= Sum(xs) <= |xs| as real * hi
  {
    if |xs| > 0 {
      SumBounds(xs[..|xs| - 1], lo, hi);
      assert (|xs| - 1) as real * lo + lo == |xs| as real * lo;
      assert (|xs| - 1) as real * hi + hi == |xs| as real * hi;
    }
  }

  /** The mean of values in [lo, hi] lies in [lo, hi]. */
  lemma MeanBounds(xs: seq<real>, lo: real, hi: real)
    requires |xs| > 0
    requires forall i :: 0 <= i < |xs| ==> lo <= xs[i] <= hi
    ensures lo <= Sum(xs) / |xs| as real <= hi
  {
    SumBounds(xs, lo, hi);
    var n := |xs| as real;
    var m := Sum(xs) / n;
    assert m * n == Sum(xs);
    MeanWithin(m, n, lo, hi);
  }

  lemma MeanWithin(m: real, n: real, lo: real, hi: real)
    requires n > 0.0 && n * lo <= m * n <= n * hi
    ensures lo <= m <= hi
  {
  }

  /** A projected vertex: its truncated pixel position and its depth mapped to [0,1]. */
  datatype Projected = Projected(point: (int, int), depth01: real)

  /** Each vertex through `mvp`, in homogeneous clip coordinates. */
  function ClipPositions(mvp: Mat4, vs: seq<Vec3>): (r: seq<Vec4>)
    ensures |r| == |vs|
  {
    if |vs| == 0 then [] else ClipPositions(mvp, vs[..|vs| - 1]) + [MulMV(mvp, Point(vs[|vs| - 1]))]
  }

  /** The perspective divide and viewport mapping of one clip position with non-zero w. */
  function ProjectClipPosition(c: Vec4, width: int, height: int): Projected
    requires c.w != 0.0
  {
    Projected(ScreenPoint(c.x / c.w, c.y / c.w, width, height), (c.z / c.w) * 0.5 + 0.5)
  }

  /**
   * The inner vertex loop: positions whose clip w is exactly zero are skipped;
   * there is no depth-range test, unlike `projectToScreen`.
   */
  function ProjectClips(cs: seq<Vec4>, width: int, height: int): (r: seq<Projected>)
    ensures |r| <= |cs|
  {
    if |cs| == 0 then []
    else
      var rest := ProjectClips(cs[..|cs| - 1], width, height);
      var c := cs[|cs| - 1];
      if c.w == 0.0 then rest else rest + [ProjectClipPosition(c, width, height)]
  }

  /** Every position with a non-zero w is kept, in order. */
  lemma {:induction false} ProjectClipsKeepsAll(cs: seq<Vec4>, width: int, height: int)
    requires forall i :: 0 <= i < |cs| ==> cs[i].w != 0.0
    ensures var r := ProjectClips(cs, width, height);
      |r| == |cs| && forall i :: 0 <= i < |cs| ==> r[i] == ProjectClipPosition(cs[i], width, height)
  {
    if |cs| > 0 {
      ProjectClipsKeepsAll(cs[..|cs| - 1], width, height);
    }
  }

  /** A position with w exactly zero is dropped; nothing else about the list changes. */
  lemma ProjectClipsDropsZeroW(cs: seq<Vec4>, c: Vec4, width: int, height: int)
    requires c.w == 0.0
    ensures ProjectClips(cs + [c], width, height) == ProjectClips(cs, width, height)
  {
    assert (cs + [c])[..|cs|] == cs;
  }

  function Points(ps: seq<Projected>): (r: seq<(int, int)>)
    ensures |r| == |ps| && forall i :: 0 <= i < |ps| ==> r[i] == ps[i].point
  {
    seq(|ps|, i requires 0 <= i < |ps| => ps[i].point)
  }

  function Depths(ps: seq<Projected>): (r: seq<real>)
    ensures |r| == |ps| && forall i :: 0 <= i < |ps| ==> r[i] == ps[i].depth01
  {
    seq(|ps|, i requires 0 <= i < |ps| => ps[i].depth01)
  }

  /** The local `Primitive` struct of `draw`. */
  datatype VkPrimitive = VkPrimitive(
    points: seq<(int, int)>, colors: seq<Color>, hasPerVertexColors: bool,
    isTriangle: bool, depth: real, uniformColor: Color)

  /** What every built primitive satisfies. */
  predicate WellFormed(p: VkPrimitive) {
    && |p.points| >= 3
    && (p.hasPerVertexColors ==> |p.colors| >= |p.points|)
    && (p.isTriangle ==> |p.points| == 3)
  }

  /**
   * One entity's primitive from its projected vertices `ps`: none for fewer than
   * three vertices or fewer than three projected ones; otherwise the projected
   * points, the entity's colours, and the mean of the projected depths.
   */
  function BuildPrimitive(e: Entity, ps: seq<Projected>): (r: Option<VkPrimitive>)
    requires |ps| <= |e.vertices|
    ensures r.None? <==> |e.vertices| < 3 || |ps| < 3
    ensures r.Some? ==>
      && WellFormed(r.value)
      && r.value.points == Points(ps)
      && r.value.depth * |ps| as real == Sum(Depths(ps))
      && (r.value.isTriangle <==> |e.vertices| == 3)
      && (r.value.hasPerVertexColors <==> |e.vertexColors| == |e.vertices|)
      && r.value.colors == e.vertexColors && r.value.uniformColor == e.color
  {
    if |e.vertices| < 3 || |ps| < 3 then None
    else
      var depth := Sum(Depths(ps)) / |ps| as real;
      Some(VkPrimitive(Points(ps), e.vertexColors, |e.vertexColors| == |e.vertices|,
                       |e.vertices| == 3, depth, e.color))
  }

  /** A primitive whose vertices all project inside the depth range gets a depth in [0,1]. */
  lemma PrimitiveDepthInRange(e: Entity, ps: seq<Projected>)
    requires |ps| <= |e.vertices|
    requires BuildPrimitive(e, ps).Some?
    requires forall i :: 0 <= i < |ps| ==> 0.0 <= ps[i].depth01 <= 1.0
    ensures 0.0 <= BuildPrimitive(e, ps).value.depth <= 1.0
  {
    var ds := Depths(ps);
    assert forall i :: 0 <= i < |ds| ==> 0.0 <= ds[i] <= 1.0;
    MeanBounds(ds, 0.0, 1.0);
  }

  /** `projection * view * model` of every entity, in world order. */
  function EntityMvps(es: seq<Entity>, view: Mat4, projection: Mat4): (r: seq<Mat4>)
    ensures |r| == |es|
  {
    seq(|es|, i requires 0 <= i < |es| => EntityMvp(es[i], view, projection))
  }

  /** One iteration of the per-entity loop, under the entity's matrix `mvp`. */
  function EntityPrimitive(e: Entity, mvp: Mat4, width: int, height: int): (r: Option<VkPrimitive>)
    ensures |e.vertices| < 3 ==> r.None?
    ensures r.Some? ==> WellFormed(r.value)
  {
    BuildPrimitive(e, ProjectClips(ClipPositions(mvp, e.vertices), width, height))
  }

  /**
   * The per-entity loop: the primitives of the entities that produce one, in
   * world order, `mvps[i]` being the matrix of `es[i]`.
   */
  function BuildPrimitives(es: seq<Entity>, mvps: seq<Mat4>, width: int, height: int): (r: seq<VkPrimitive>)
    requires |mvps| == |es|
    ensures |r| <= |es|
    ensures forall i :: 0 <= i < |r| ==> WellFormed(r[i])
    ensures (forall i :: 0 <= i < |es| ==> |es[i].vertices| < 3) ==> r == []
  {
    if |es| == 0 then []
    else
      var rest := BuildPrimitives(es[..|es| - 1], mvps[..|es| - 1], width, height);
      var p := EntityPrimitive(es[|es| - 1], mvps[|es| - 1], width, height);
      if p.None? then rest else rest + [p.value]
  }

  // ------------------------------------------------------------ painter's sort

  /** Far to near: depths never increase along the list. */
  ghost predicate FarToNear(s: seq<VkPrimitive>) {
    forall i, j :: 0 <= i < j < |s| ==> s[i].depth >= s[j].depth
  }

  /** `p` placed into a far-to-near list before the first primitive that is not farther. */
  function InsertByDepth(p: VkPrimitive, s: seq<VkPrimitive>): (r: seq<VkPrimitive>)
    requires FarToNear(s)
    ensures FarToNear(r)
    ensures multiset(r) == multiset(s) + multiset{p}
    ensures |r| == |s| + 1
    ensures r[0] == p || (|s| > 0 && r[0] == s[0])
  {
    if |s| == 0 then [p]
    else if p.depth >= s[0].depth then [p] + s
    else
      var rest := InsertByDepth(p, s[1..]);
      assert s == [s[0]] + s[1..];
      assert rest[0].depth <= s[0].depth;
      [s[0]] + rest
  }

  /**
   * The `std::sort` call with the far-first comparator. The source's sort is not
   * stable, so only the order of depths and the contents are fixed.
   */
  function SortFarToNear(s: seq<VkPrimitive>): (r: seq<VkPrimitive>)
    ensures FarToNear(r)
    ensures multiset(r) == multiset(s)
    ensures |r| == |s|
  {
    if |s| == 0 then []
    else
      assert s == s[..|s| - 1] + [s[|s| - 1]];
      InsertByDepth(s[|s| - 1], SortFarToNear(s[..|s| - 1]))
  }

  /** Every primitive of the sorted list comes from the built list, and well-formedness survives sorting. */
  lemma SortedFromBuilt(s: seq<VkPrimitive>)
    requires forall i :: 0 <= i < |s| ==> WellFormed(s[i])
    ensures forall i :: 0 <= i < |SortFarToNear(s)| ==> SortFarToNear(s)[i] in s && WellFormed(SortFarToNear(s)[i])
  {
    var r := SortFarToNear(s);
    forall i | 0 <= i < |r|
      ensures r[i] in s && WellFormed(r[i])
    {
      assert r[i] in multiset(r);
    }
  }

  // ----------------------------------------------------------------- fills

  /** `clampToByte` of the gradient path: a clamped byte widened to 16 bits by `* 0x0101`. */
  function Channel16(c: real): (v: int)
    ensures 0 <= v <= 65535 && v % 257 == 0
    ensures v / 257 == ChannelByte(c)
  {
    ChannelByte(c) * 0x0101
  }

  /** One `TRIVERTEX`. */
  datatype TriVertex = TriVertex(x: int, y: int, red: int, green: int, blue: int, alpha: int)

  /** What is drawn for one primitive: a gradient triangle or a solid polygon. */
  datatype Fill =
    | Gradient(vertices: seq<TriVertex>)
    | Solid(points: seq<(int, int)>, rgb: ColorRef)

  function ChannelSum(cs: seq<Color>, ch: Color -> real): real {
    if |cs| == 0 then 0.0 else ChannelSum(cs[..|cs| - 1], ch) + ch(cs[|cs| - 1])
  }

  /**
   * The colour of a solid fill: the uniform colour, or, with per-vertex colours,
   * their average red, green and blue with alpha 1.
   */
  function SolidColor(p: VkPrimitive): (c: Color)
    requires WellFormed(p)
    ensures !p.hasPerVertexColors ==> c == p.uniformColor
    ensures p.hasPerVertexColors ==>
      var n := |p.colors| as real;
      && c.a == 1.0
      && c.r * n == ChannelSum(p.colors, (k: Color) => k.r)
      && c.g * n == ChannelSum(p.colors, (k: Color) => k.g)
      && c.b * n == ChannelSum(p.colors, (k: Color) => k.b)
  {
    if !p.hasPerVertexColors then p.uniformColor
    else
      var inv := 1.0 / |p.colors| as real;
      Color(ChannelSum(p.colors, (k: Color) => k.r) * inv,
            ChannelSum(p.colors, (k: Color) => k.g) * inv,
            ChannelSum(p.colors, (k: Color) => k.b) * inv, 1.0)
  }

  /**
   * `RGB(static_cast<int>(c * 255.0f), ...)` as written: no clamp, and `RGB`
   * keeps only the low byte of each channel.
   */
  function SolidRgbAsWritten(c: Color): (r: ColorRef)
    ensures IsByte(r.r) && IsByte(r.g) && IsByte(r.b)
    ensures (Trunc(c.r * 255.0) - r.r) % 256 == 0
  {
    ColorRef(Trunc(c.r * 255.0) % 256, Trunc(c.g * 255.0) % 256, Trunc(c.b * 255.0) % 256)
  }

  /** For channels inside [0,1] the written conversion is the clamped one. */
  lemma SolidRgbAgreesInRange(c: Color)
    requires 0.0 <= c.r <= 1.0 && 0.0 <= c.g <= 1.0 && 0.0 <= c.b <= 1.0
    ensures SolidRgbAsWritten(c) == ToColorRef(c)
  {
  }

  /**
   * A uniform colour slightly brighter than 1 wraps around: red 1.2 becomes
   * 306, whose low byte is 50, where every other path of the renderers gives 255.
   */
  lemma SolidRgbWrapsAbove(c: Color)
    requires c == Color(1.2, 0.0, 0.0, 1.0)
    ensures SolidRgbAsWritten(c).r == 50
    ensures ToColorRef(c).r == 255
  {
    assert c.r * 255.0 == 306.0;
    assert Trunc(306.0) == 306;
  }

  /**
   * The fill of one primitive, as the renderer draws it: only a triangle with
   * per-vertex colours gets a gradient; every other primitive is a solid polygon
   * in the solid colour converted without a clamp, wrapping each channel.
   */
  function FillOf(p: VkPrimitive): (f: Fill)
    requires WellFormed(p)
    ensures f.Gradient? <==> p.isTriangle && p.hasPerVertexColors
    ensures f.Gradient? ==> |f.vertices| == 3 && forall i :: 0 <= i < 3 ==>
      && f.vertices[i].x == p.points[i].0 && f.vertices[i].y == p.points[i].1
      && f.vertices[i].red == ChannelByte(p.colors[i].r) * 0x0101
      && f.vertices[i].green == ChannelByte(p.colors[i].g) * 0x0101
      && f.vertices[i].blue == ChannelByte(p.colors[i].b) * 0x0101
      && f.vertices[i].alpha == ChannelByte(p.colors[i].a) * 0x0101
    ensures f.Solid? ==> f.points == p.points && f.rgb == SolidRgbAsWritten(SolidColor(p))
  {
    if p.isTriangle && p.hasPerVertexColors then
      Gradient(seq(3, i requires 0 <= i < 3 =>
        TriVertex(p.points[i].0, p.points[i].1, Channel16(p.colors[i].r), Channel16(p.colors[i].g),
                  Channel16(p.colors[i].b), Channel16(p.colors[i].a))))
    else Solid(p.points, SolidRgbAsWritten(SolidColor(p)))
  }

  /**
   * The fill with the solid colour clamped to [0,1] before conversion, as every
   * other colour path of the renderers does: the same shape as `FillOf`, each
   * solid channel saturating at 0 and 255, and equal to `FillOf` whenever the
   * solid colour already lies in [0,1].
   */
  function ClampedFillOf(p: VkPrimitive): (f: Fill)
    requires WellFormed(p)
    ensures f.Gradient? <==> FillOf(p).Gradient?
    ensures f.Gradient? ==> f == FillOf(p)
    ensures f.Solid? ==> f.points == p.points && f.rgb == ToColorRef(SolidColor(p))
    ensures f.Solid? ==> var c := SolidColor(p);
      && (c.r >= 1.0 ==> f.rgb.r == 255) && (c.g >= 1.0 ==> f.rgb.g == 255) && (c.b >= 1.0 ==> f.rgb.b == 255)
      && (c.r <= 0.0 ==> f.rgb.r == 0) && (c.g <= 0.0 ==> f.rgb.g == 0) && (c.b <= 0.0 ==> f.rgb.b == 0)
  {
    var f := FillOf(p);
    if f.Gradient? then f else f.(rgb := ToColorRef(SolidColor(p)))
  }

  /** Inside [0,1] the clamp changes nothing: the two fills differ only for out-of-range colours. */
  lemma ClampedFillAgreesInRange(p: VkPrimitive)
    requires WellFormed(p)
    requires var c := SolidColor(p); 0.0 <= c.r <= 1.0 && 0.0 <= c.g <= 1.0 && 0.0 <= c.b <= 1.0
    ensures ClampedFillOf(p) == FillOf(p)
  {
    SolidRgbAgreesInRange(SolidColor(p));
  }

  /**
   * A solid square in uniform red 1.2: the renderer fills it with red 50, the
   * clamped fill with red 255.
   */
  lemma FillOfWrapsAbove(p: VkPrimitive)
    requires WellFormed(p) && !p.isTriangle && !p.hasPerVertexColors
    requires p.uniformColor == Color(1.2, 0.0, 0.0, 1.0)
    ensures FillOf(p).Solid? && FillOf(p).rgb.r == 50
    ensures ClampedFillOf(p).Solid? && ClampedFillOf(p).rgb.r == 255
  {
    SolidRgbWrapsAbove(p.uniformColor);
  }

  function Fills(ps: seq<VkPrimitive>): (r: seq<Fill>)
    requires forall i :: 0 <= i < |ps| ==> WellFormed(ps[i])
    ensures |r| == |ps| && forall i :: 0 <= i < |ps| ==> r[i] == FillOf(ps[i])
  {
    seq(|ps|, i requires 0 <= i < |ps| && WellFormed(ps[i]) => FillOf(ps[i]))
  }

  // ------------------------------------------------------------------ draw

  /** `RGB(18, 22, 28)`, the preview's background. */
  const ClearColor: ColorRef := ColorRef(18, 22, 28)

  /**
   * One `draw`: nothing, or the back buffer cleared and, with a world, the
   * primitives in drawing order with their fills, then blitted.
   */
  datatype VkOutput =
    | NotDrawn
    | Drawn(clear: ColorRef, width: int, height: int, primitives: seq<VkPrimitive>, fills: seq<Fill>)

  /**
   * `draw`: nothing without a window; the back buffer follows the viewport size,
   * and nothing is drawn when it lacks a DC or a bitmap. Otherwise the buffer is
   * cleared, and with a world the built primitives are drawn far to near.
   */
  function Draw(r: Vk, vp: Viewport, dcOk: bool, bitmapOk: bool): (res: (Vk, VkOutput))
    ensures !r.hasWindow ==> res == (r, NotDrawn)
    ensures r.hasWindow ==> res.0.backWidth == vp.width && res.0.backHeight == vp.height
    ensures r.hasWindow && (r.backWidth != vp.width || r.backHeight != vp.height) ==>
      (res.1.Drawn? <==> dcOk && bitmapOk)
    ensures res.1.Drawn? ==> res.1.clear == ClearColor && res.1.width == vp.width && res.1.height == vp.height
    ensures res.1.Drawn? && r.world.None? ==> res.1.primitives == [] && res.1.fills == []
    ensures res.1.Drawn? && r.world.Some? ==>
      var built := BuildPrimitives(r.world.value.entities, EntityMvps(r.world.value.entities, vp.view, vp.projection), vp.width, vp.height);
      && FarToNear(res.1.primitives)
      && multiset(res.1.primitives) == multiset(built)
      && |res.1.fills| == |res.1.primitives|
      && (forall i :: 0 <= i < |res.1.primitives| ==> WellFormed(res.1.primitives[i]))
      && forall i :: 0 <= i < |res.1.fills| ==> res.1.fills[i] == FillOf(res.1.primitives[i])
  {
    if !r.hasWindow then (r, NotDrawn)
    else
      var s := if vp.width != r.backWidth || vp.height != r.backHeight
               then Resize(r, vp.width, vp.height, dcOk, bitmapOk) else r;
      if !s.hasBackDc || !s.hasBitmap then (s, NotDrawn)
      else
        match s.world
        case None => (s, Drawn(ClearColor, s.backWidth, s.backHeight, [], []))
        case Some(w) =>
          assert w == r.world.value;
          var drawn := DrawWorld(w, vp);
          (s, Drawn(ClearColor, s.backWidth, s.backHeight, drawn.0, drawn.1))
  }

  /** The world part of `draw`: the built primitives, sorted far to near, each with its fill. */
  function DrawWorld(w: World, vp: Viewport): (res: (seq<VkPrimitive>, seq<Fill>))
    ensures var built := BuildPrimitives(w.entities, EntityMvps(w.entities, vp.view, vp.projection), vp.width, vp.height);
      && FarToNear(res.0)
      && multiset(res.0) == multiset(built)
      && |res.1| == |res.0|
      && forall i :: 0 <= i < |res.1| ==> WellFormed(res.0[i]) && res.1[i] == FillOf(res.0[i])
  {
    var built := BuildPrimitives(w.entities, EntityMvps(w.entities, vp.view, vp.projection), vp.width, vp.height);
    var sorted := SortFarToNear(built);
    SortedFromBuilt(built);
    (sorted, Fills(sorted))
  }
}

=== FILE: vulkan_swapchain.dfy ===
/**
 * The earlier `VulkanApp` that drew a triangle through a real swapchain: the
 * swapchain parameters it chooses from what the surface supports, its
 * stricter device test, and the frame loop that rotates through the frames
 * in flight and recreates the swapchain when the window changes. The number
 * of frames in flight is a header constant that is not part of this model, so
 * it is a parameter.
 */
module VulkanSwapchain {
  import opened Wrappers
  import opened VulkanSetup
  import LegacyWindow

  const FormatB8G8R8A8Srgb: int := 50
  const ColorSpaceSrgbNonlinear: int := 0
  const PresentModeMailbox: int := 1
  const PresentModeFifo: int := 2
  const Uint32Max: int := 0xFFFF_FFFF

  // ------------------------------------------------------------ parameters

  predicate Preferred(f: SurfaceFormat) {
    f.format == FormatB8G8R8A8Srgb && f.colorSpace == ColorSpaceSrgbNonlinear
  }

  /** The first preferred format from `from` on. */
  function FirstPreferred(fs: seq<SurfaceFormat>, from: nat): (r: Option<nat>)
    requires from <= |fs|
    ensures r.Some? ==> from <= r.value < |fs| && Preferred(fs[r.value])
    ensures r.Some? ==> forall j :: from <= j < r.value ==> !Preferred(fs[j])
    ensures r.None? <==> forall j :: from <= j < |fs| ==> !Preferred(fs[j])
    decreases |fs| - from
  {
    if from == |fs| then None
    else if Preferred(fs[from]) then Some(from)
    else FirstPreferred(fs, from + 1)
  }

  /**
   * `ChooseSwapSurfaceFormat`: the first 8-bit BGRA sRGB format in the
   * non-linear sRGB colour space; failing that the first format offered, or
   * a zeroed format when none is.
   */
  function ChooseSwapSurfaceFormat(fs: seq<SurfaceFormat>): (f: SurfaceFormat)
    ensures (exists i :: 0 <= i < |fs| && Preferred(fs[i])) ==> Preferred(f)
    ensures (exists i :: 0 <= i < |fs| && Preferred(fs[i])) ==>
      exists i :: 0 <= i < |fs| && fs[i] == f && forall j :: 0 <= j < i ==> !Preferred(fs[j])
    ensures (forall i :: 0 <= i < |fs| ==> !Preferred(fs[i])) && |fs| > 0 ==> f == fs[0]
    ensures |fs| == 0 ==> f == SurfaceFormat(0, 0)
  {
    match FirstPreferred(fs, 0)
    case Some(i) => fs[i]
    case None => if |fs| == 0 then SurfaceFormat(0, 0) else fs[0]
  }

  /** `ChoosePresentMode`: mailbox when offered, else FIFO, which every surface supports. */
  function ChoosePresentMode(ms: seq<int>): (m: int)
    ensures m == PresentModeMailbox <==> exists i :: 0 <= i < |ms| && ms[i] == PresentModeMailbox
    ensures m == PresentModeMailbox || m == PresentModeFifo
  {
    if PresentModeMailbox in ms then PresentModeMailbox else PresentModeFifo
  }

  datatype Extent2D = Extent2D(width: int, height: int)

  /** The part of `VkSurfaceCapabilitiesKHR` the swapchain uses. */
  datatype Capabilities = Capabilities(
    minImageCount: int, maxImageCount: int,
    currentExtent: Extent2D, minImageExtent: Extent2D, maxImageExtent: Extent2D)

  /** `std::clamp(v, lo, hi)` as the standard library writes it. */
  function ClampTo(v: int, lo: int, hi: int): (r: int)
    ensures lo <= hi ==> lo <= r <= hi
    ensures lo <= v <= hi ==> r == v
    ensures r == v || r == lo || r == hi
  {
    if v < lo then lo else if hi < v then hi else v
  }

  /**
   * `ChooseSwapExtent`: the surface's current extent unless its width is the
   * special value `UINT32_MAX`, meaning the window decides; then the client
   * size clamped to the supported range.
   */
  function ChooseSwapExtent(caps: Capabilities, client: LegacyWindow.WindowSize): (e: Extent2D)
    ensures caps.currentExtent.width != Uint32Max ==> e == caps.currentExtent
    ensures caps.currentExtent.width == Uint32Max && caps.minImageExtent.width <= caps.maxImageExtent.width ==>
      caps.minImageExtent.width <= e.width <= caps.maxImageExtent.width
    ensures caps.currentExtent.width == Uint32Max && caps.minImageExtent.height <= caps.maxImageExtent.height ==>
      caps.minImageExtent.height <= e.height <= caps.maxImageExtent.height
    ensures caps.currentExtent.width == Uint32Max && caps.minImageExtent.width <= client.width <= caps.maxImageExtent.width ==>
      e.width == client.width
    ensures caps.currentExtent.width == Uint32Max && caps.minImageExtent.height <= client.height <= caps.maxImageExtent.height ==>
      e.height == client.height
  {
    if caps.currentExtent.width != Uint32Max then caps.currentExtent
    else
      Extent2D(ClampTo(client.width, caps.minImageExtent.width, caps.maxImageExtent.width),
               ClampTo(client.height, caps.minImageExtent.height, caps.maxImageExtent.height))
  }

  /**
   * The image count `CreateSwapchain` asks for: one more than the minimum, so
   * the app need not wait on the driver, but no more than the maximum when
   * there is one (a maximum of 0 means no limit). The increment is `uint32_t`.
   */
  function ImageCount(caps: Capabilities): (n: int)
    requires 0 <= caps.minImageCount <= Uint32Max && 0 <= caps.maxImageCount <= Uint32Max
    ensures caps.maxImageCount == 0 && caps.minImageCount < Uint32Max ==> n == caps.minImageCount + 1
    ensures caps.maxImageCount > 0 ==> n <= caps.maxImageCount
    ensures caps.maxImageCount > caps.minImageCount ==> n == caps.minImageCount + 1
    ensures caps.minImageCount < Uint32Max && 0 < caps.maxImageCount <= caps.minImageCount ==> n == caps.maxImageCount
  {
    var count := (caps.minImageCount + 1) % (Uint32Max + 1);
    if caps.maxImageCount > 0 && count > caps.maxImageCount then caps.maxImageCount else count
  }

  datatype SharingMode = Exclusive | Concurrent

  /**
   * The sharing mode of the swapchain images: shared between the two families
   * when graphics and presentation use different ones, otherwise owned by the
   * one family and no family list is passed.
   */
  function ImageSharing(q: QueueFamilyIndices): (r: (SharingMode, seq<nat>))
    requires IsComplete(q)
    ensures r.0 == Concurrent <==> q.graphicsFamily != q.presentFamily
    ensures r.0 == Concurrent ==> r.1 == [q.graphicsFamily.value, q.presentFamily.value]
    ensures r.0 == Exclusive ==> r.1 == []
  {
    if q.graphicsFamily != q.presentFamily then (Concurrent, [q.graphicsFamily.value, q.presentFamily.value])
    else (Exclusive, [])
  }

  /** The image sharing agrees with the queues asked for: concurrent exactly when two distinct queues are. */
  lemma SharingMatchesUniqueQueues(q: QueueFamilyIndices)
    requires IsComplete(q)
    ensures ImageSharing(q).0 == Concurrent <==> |UniqueQueues(q)| == 2
    ensures ImageSharing(q).0 == Concurrent ==> ImageSharing(q).1 == UniqueQueues(q)
  {
  }

  /** The earlier device test is the later one plus a usable swapchain. */
  lemma OldTestIsStricter(d: PhysicalDevice)
    ensures Suitable(d, true) <==> Suitable(d, false) && |d.formats| > 0 && |d.presentModes| > 0
  {
  }

  /** So a device the earlier version picks is one the later version would accept too. */
  lemma OldPickAcceptedByNew(a: App, enumerateOk: bool, ds: seq<PhysicalDevice>)
    requires a.physicalDevice.None?
    ensures PickSucceeds(a, enumerateOk, ds, true) ==> PickSucceeds(a, enumerateOk, ds, false)
  {
    if PickSucceeds(a, enumerateOk, ds, true) {
      var i := FirstSuitable(ds, 0, true).value;
      assert Suitable(ds[i], false);
    }
  }

  // ------------------------------------------------------------ frame loop

  /**
   * The per-frame state: which frame in flight is next, how many swapchain
   * images there are, and for each image whose fence is not null the frame
   * whose fence last used it (`imagesInFlight_`).
   */
  datatype Frames = Frames(currentFrame: nat, imageCount: nat, imagesInFlight: map<nat, nat>)

  /** The frame indices stay below the number of frames in flight. */
  predicate ValidFrames(f: Frames, maxFrames: nat) {
    && f.currentFrame < maxFrames
    && forall i :: i in f.imagesInFlight ==> f.imagesInFlight[i] < maxFrames
  }

  /**
   * How far one `RecreateSwapchain` got. `CreateSwapchain` can only fail before
   * it fetches the new images; the image views, render pass, pipeline,
   * framebuffers and command buffers can fail after that, with the new images
   * in place but `imagesInFlight_` untouched; the render-finished semaphores are
   * created after `imagesInFlight_` was reset.
   */
  datatype Recreation =
    | Recreated(imageCount: nat)
    | SwapchainFailed
    | LaterStepFailed(imageCount: nat)
    | SemaphoreFailed(imageCount: nat)

  /**
   * `RecreateSwapchain` as the frame state sees it: it reports success only when
   * every step succeeded; once the swapchain exists the image count is the new
   * one, and from the reset on there is one null fence per image. A failure to
   * create the swapchain leaves the frame state as it was.
   */
  function RecreateSwapchain(f: Frames, rc: Recreation): (r: (Frames, bool))
    ensures r.1 == rc.Recreated? && r.0.currentFrame == f.currentFrame
    ensures rc.SwapchainFailed? ==> r.0 == f
    ensures !rc.SwapchainFailed? ==> r.0.imageCount == rc.imageCount
    ensures r.0.imagesInFlight == if rc.Recreated? || rc.SemaphoreFailed? then map[] else f.imagesInFlight
  {
    match rc
    case Recreated(n) => (f.(imageCount := n, imagesInFlight := map[]), true)
    case SwapchainFailed => (f, false)
    case LaterStepFailed(n) => (f.(imageCount := n), false)
    case SemaphoreFailed(n) => (f.(imageCount := n, imagesInFlight := map[]), false)
  }

  /** `VK_SUCCESS` and `VK_SUBOPTIMAL_KHR` both deliver an image. */
  datatype AcquireOutcome = AcquireOutOfDate | AcquireFailed | Acquired(index: nat)

  /** `VK_ERROR_OUT_OF_DATE_KHR` and `VK_SUBOPTIMAL_KHR` both ask for a new swapchain. */
  datatype PresentOutcome = Presented | PresentOutOfDate | PresentFailed

  /** What the window and the driver report during one `DrawFrame`. */
  datatype FrameInputs = FrameInputs(
    clientRect: Option<LegacyWindow.Rect>, onResize: Recreation,
    acquire: AcquireOutcome, onAcquire: Recreation,
    submitOk: bool, present: PresentOutcome, onPresent: Recreation)

  predicate ZeroSized(w: LegacyWindow.Window, inputs: FrameInputs) {
    var size := LegacyWindow.GetClientSize(w, inputs.clientRect);
    size.width == 0 || size.height == 0
  }

  /** Whether the frame gets to its end, where the next frame in flight is selected. */
  predicate FramePresented(w: LegacyWindow.Window, inputs: FrameInputs) {
    && !ZeroSized(w, inputs)
    && (w.framebufferResized ==> inputs.onResize.Recreated?)
    && inputs.acquire.Acquired?
    && inputs.submitOk
    && (inputs.present == Presented || (inputs.present == PresentOutOfDate && inputs.onPresent.Recreated?))
  }

  /**
   * The part of `DrawFrame` after an image was acquired: the image is marked
   * as used by this frame's fence, the work submitted and the image
   * presented; a stale swapchain is then recreated, and the next frame in
   * flight selected.
   */
  function SubmitAndPresent(f: Frames, index: nat, inputs: FrameInputs, maxFrames: nat): (r: (Frames, bool))
    requires maxFrames > 0
    ensures r.1 <==> inputs.submitOk && (inputs.present == Presented || (inputs.present == PresentOutOfDate && inputs.onPresent.Recreated?))
    ensures r.0.currentFrame == if r.1 then (f.currentFrame + 1) % maxFrames else f.currentFrame
    ensures inputs.present != PresentOutOfDate || !inputs.submitOk ==>
      r.0.imagesInFlight == f.imagesInFlight[index := f.currentFrame] && r.0.imageCount == f.imageCount
    ensures inputs.present == PresentOutOfDate && inputs.submitOk && inputs.onPresent.Recreated? ==>
      r.0.imagesInFlight == map[] && r.0.imageCount == inputs.onPresent.imageCount
    ensures ValidFrames(f, maxFrames) ==> ValidFrames(r.0, maxFrames)
  {
    var marked := f.(imagesInFlight := f.imagesInFlight[index := f.currentFrame]);
    var next := (f.currentFrame + 1) % maxFrames;
    if !inputs.submitOk || inputs.present == PresentFailed then (marked, false)
    else if inputs.present == Presented then (marked.(currentFrame := next), true)
    else
      assert inputs.present == PresentOutOfDate;
      var after := RecreateSwapchain(marked, inputs.onPresent);
      assert after.1 == inputs.onPresent.Recreated?;
      if after.1 then (after.0.(currentFrame := next), true) else (after.0, false)
  }

  /**
   * `DrawFrame`: a minimised window skips the frame and reports success. A
   * pending resize recreates the swapchain first. An out-of-date image
   * recreates it and ends the frame without selecting the next frame in
   * flight; any other acquire failure ends it with an error.
   */
  function DrawFrame(f: Frames, w: LegacyWindow.Window, inputs: FrameInputs, maxFrames: nat): (r: (Frames, LegacyWindow.Window, bool))
    requires maxFrames > 0
    ensures ZeroSized(w, inputs) ==> r == (f, w, true)
    ensures !ZeroSized(w, inputs) ==> r.1 == w.(framebufferResized := false)
    ensures r.0.currentFrame == if FramePresented(w, inputs) then (f.currentFrame + 1) % maxFrames else f.currentFrame
    ensures r.2 <==>
      || ZeroSized(w, inputs)
      || FramePresented(w, inputs)
      || (!ZeroSized(w, inputs) && (w.framebufferResized ==> inputs.onResize.Recreated?) && inputs.acquire.AcquireOutOfDate? && inputs.onAcquire.Recreated?)
    ensures FramePresented(w, inputs) && inputs.present == Presented ==>
      inputs.acquire.index in r.0.imagesInFlight && r.0.imagesInFlight[inputs.acquire.index] == f.currentFrame
    ensures ValidFrames(f, maxFrames) ==> ValidFrames(r.0, maxFrames)
  {
    if ZeroSized(w, inputs) then (f, w, true)
    else
      var consumed := LegacyWindow.ConsumeResizeFlag(w);
      var resized := if consumed.1 then RecreateSwapchain(f, inputs.onResize) else (f, true);
      if !resized.1 then (resized.0, consumed.0, false)
      else if inputs.acquire.AcquireOutOfDate? then
        var again := RecreateSwapchain(resized.0, inputs.onAcquire);
        (again.0, consumed.0, again.1)
      else if inputs.acquire.AcquireFailed? then (resized.0, consumed.0, false)
      else
        var done := SubmitAndPresent(resized.0, inputs.acquire.index, inputs, maxFrames);
        (done.0, consumed.0, done.1)
  }

  /** A frame whose present found the swapchain stale leaves no image in flight. */
  lemma StalePresentClearsImagesInFlight(f: Frames, w: LegacyWindow.Window, inputs: FrameInputs, maxFrames: nat)
    requires maxFrames > 0
    requires FramePresented(w, inputs) && inputs.present == PresentOutOfDate
    ensures var r := DrawFrame(f, w, inputs, maxFrames).0;
      r.imagesInFlight == map[] && r.imageCount == inputs.onPresent.imageCount
  {
  }

  /**
   * A resize whose recreation fails after the new swapchain exists ends the frame
   * with an error, yet the frame state already counts the new images while the
   * fences still refer to the old ones.
   */
  lemma ResizeFailureKeepsNewImages(f: Frames, w: LegacyWindow.Window, inputs: FrameInputs, maxFrames: nat)
    requires maxFrames > 0
    requires !ZeroSized(w, inputs) && w.framebufferResized && inputs.onResize.LaterStepFailed?
    ensures var r := DrawFrame(f, w, inputs, maxFrames);
      !r.2 && r.0.imageCount == inputs.onResize.imageCount && r.0.imagesInFlight == f.imagesInFlight
  {
  }

  /** A run of frames, each with its own inputs, the window carried from one to the next. */
  function DrawFrames(f: Frames, w: LegacyWindow.Window, ins: seq<FrameInputs>, maxFrames: nat): (r: (Frames, LegacyWindow.Window))
    requires maxFrames > 0
    decreases |ins|
  {
    if |ins| == 0 then (f, w)
    else
      var r := DrawFrame(f, w, ins[0], maxFrames);
      DrawFrames(r.0, r.1, ins[1..], maxFrames)
  }

  /**
   * The frames in flight are used round-robin: after `n` frames that all get
   * to the present, the current frame has moved on by `n` modulo the number
   * of frames in flight.
   */
  lemma {:induction false} FramesRotate(f: Frames, w: LegacyWindow.Window, ins: seq<FrameInputs>, maxFrames: nat)
    requires f.currentFrame < maxFrames
    requires forall k :: 0 <= k < |ins| ==> FramePresented(w, ins[k])
    ensures DrawFrames(f, w, ins, maxFrames).0.currentFrame == (f.currentFrame + |ins|) % maxFrames
    decreases |ins|
  {
    if |ins| > 0 {
      var r := DrawFrame(f, w, ins[0], maxFrames);
      assert FramePresented(w, ins[0]);
      forall k | 0 <= k < |ins[1..]|
        ensures FramePresented(r.1, ins[1..][k])
      {
        assert FramePresented(w, ins[k + 1]);
        assert LegacyWindow.GetClientSize(r.1, ins[k + 1].clientRect) == LegacyWindow.GetClientSize(w, ins[k + 1].clientRect);
      }
      FramesRotate(r.0, r.1, ins[1..], maxFrames);
      ModuloStep(f.currentFrame, |ins|, maxFrames);
    }
  }

  /** Moving on by one and then by `n - 1` is moving on by `n`. */
  lemma ModuloStep(c: nat, n: nat, m: nat)
    requires c < m && n > 0
    ensures (((c + 1) % m) + (n - 1)) % m == (c + n) % m
  {
    if c + 1 == m {
      assert (c + 1) % m == 0;
      ModuloPeriod(n - 1, m);
      assert c + n == (n - 1) + m;
    } else {
      assert (c + 1) % m == c + 1;
    }
  }

  /** Adding the modulus does not change a remainder. */
  lemma ModuloPeriod(x: nat, m: nat)
    requires m > 0
    ensures (x + m) % m == x % m
  {
    var q, r := x / m, x % m;
    assert x + m == (q + 1) * m + r;
    ModuloUnique(x + m, q + 1, r, m);
  }

  /** A remainder is the only one in range: Euclidean division is unique. */
  lemma ModuloUnique(x: int, q: int, r: int, m: int)
    requires m > 0 && 0 <= r < m && x == q * m + r
    ensures x % m == r
  {
    var d := q - x / m;
    assert d * m == x % m - r;
  }
}

=== FILE: win32.dfy ===
/**
 * `AWindowImplWin32`: the Win32 window behind `AWindow`. The window procedure
 * turns native messages into engine events queued on the window, and
 * `pollEvents` pumps the native queue and hands the collected events over.
 * The Win32 calls are foreign; the messages a pump delivers to this window's
 * procedure and the client rectangle are inputs.
 */
module Win32Window {
  import opened Numeric
  import opened Events
  import opened Wrappers

  // ------------------------------------------------------------ constants

  const VkEscape: int := 0x1B
  const VkSpace: int := 0x20
  const VkLeft: int := 0x25
  const VkUp: int := 0x26
  const VkRight: int := 0x27
  const VkDown: int := 0x28
  const VkShift: int := 0x10
  const VkControl: int := 0x11

  const WmDestroy: int := 0x0002
  const WmSize: int := 0x0005
  const WmClose: int := 0x0010
  const WmEraseBkgnd: int := 0x0014
  const WmKeyDown: int := 0x0100
  const WmKeyUp: int := 0x0101
  const WmMouseMove: int := 0x0200
  const WmLButtonDown: int := 0x0201
  const WmLButtonUp: int := 0x0202
  const WmRButtonDown: int := 0x0204
  const WmRButtonUp: int := 0x0205
  const WmMButtonDown: int := 0x0207
  const WmMButtonUp: int := 0x0208

  /** The virtual-key code of an upper-case letter is its ASCII code. */
  function Letter(c: char): int {
    c as int
  }

  /** The virtual-key codes `mapVirtualKey` recognises. */
  function ListedKeys(): set<int> {
    {VkEscape, Letter('W'), Letter('Z'), Letter('A'), Letter('Q'), Letter('S'), Letter('D'), Letter('P'),
     Letter('O'), Letter('R'), Letter('F'), Letter('L'), VkUp, VkDown, VkLeft, VkRight, VkSpace, VkShift, VkControl}
  }

  /**
   * `mapVirtualKey`: the listed keys to their scancodes, with the AZERTY
   * aliases Z for W and Q for A, and everything else to `Unknown`.
   */
  function MapVirtualKey(w: int): (k: Scancode)
    ensures k == Unknown <==> w !in ListedKeys()
    ensures k == W <==> w == Letter('W') || w == Letter('Z')
    ensures k == A <==> w == Letter('A') || w == Letter('Q')
    ensures k != MouseLeft && k != MouseRight && k != MouseMiddle
  {
    if w == VkEscape then Escape
    else if w == Letter('W') || w == Letter('Z') then W
    else if w == Letter('A') || w == Letter('Q') then A
    else if w == Letter('S') then S
    else if w == Letter('D') then D
    else if w == Letter('P') then P
    else if w == Letter('O') then O
    else if w == Letter('R') then R
    else if w == Letter('F') then F
    else if w == Letter('L') then L
    else if w == VkUp then Up
    else if w == VkDown then Down
    else if w == VkLeft then Left
    else if w == VkRight then Right
    else if w == VkSpace then Space
    else if w == VkShift then Shift
    else if w == VkControl then Control
    else Unknown
  }

  /** Two different listed keys share a scancode only as one of the two AZERTY alias pairs. */
  lemma OnlyAliasesCollide(w1: int, w2: int)
    requires w1 in ListedKeys() && w2 in ListedKeys() && w1 != w2
    requires MapVirtualKey(w1) == MapVirtualKey(w2)
    ensures {w1, w2} == {Letter('W'), Letter('Z')} || {w1, w2} == {Letter('A'), Letter('Q')}
  {
  }

  /** `mapMouseButton`: each down/up pair to its button, any other message to `Unknown`. */
  function MapMouseButton(msg: int): (k: Scancode)
    ensures k == MouseLeft <==> msg == WmLButtonDown || msg == WmLButtonUp
    ensures k == MouseRight <==> msg == WmRButtonDown || msg == WmRButtonUp
    ensures k == MouseMiddle <==> msg == WmMButtonDown || msg == WmMButtonUp
    ensures k == MouseLeft || k == MouseRight || k == MouseMiddle || k == Unknown
  {
    if msg == WmLButtonDown || msg == WmLButtonUp then MouseLeft
    else if msg == WmRButtonDown || msg == WmRButtonUp then MouseRight
    else if msg == WmMButtonDown || msg == WmMButtonUp then MouseMiddle
    else Unknown
  }

  // ------------------------------------------------------ lParam words

  /** `LOWORD`: bits 0 to 15. */
  function LoWord(l: int): (v: int)
    ensures 0 <= v < 0x10000
  {
    l % 0x10000
  }

  /** `HIWORD`: bits 16 to 31. */
  function HiWord(l: int): (v: int)
    ensures 0 <= v < 0x10000
  {
    (l / 0x10000) % 0x10000
  }

  /** A 16-bit word read as a signed `short`. */
  function SignedWord(v: int): (s: int)
    requires 0 <= v < 0x10000
    ensures -0x8000 <= s < 0x8000
    ensures (s - v) % 0x10000 == 0
  {
    if v >= 0x8000 then v - 0x10000 else v
  }

  /** `GET_X_LPARAM` and `GET_Y_LPARAM`: the signed low and high words. */
  function GetX(l: int): int {
    SignedWord(LoWord(l))
  }

  function GetY(l: int): int {
    SignedWord(HiWord(l))
  }

  /** `MAKELPARAM(lo, hi)` of two 16-bit words. */
  function MakeLParam(lo: int, hi: int): int {
    (hi % 0x10000) * 0x10000 + lo % 0x10000
  }

  /** The size a `WM_SIZE` carries is recovered exactly by `handleSizeChange`. */
  lemma SizeRoundTrip(width: int, height: int)
    requires 0 <= width < 0x10000 && 0 <= height < 0x10000
    ensures LoWord(MakeLParam(width, height)) == width
    ensures HiWord(MakeLParam(width, height)) == height
  {
  }

  /** Negative client coordinates (a captured mouse outside the window) survive the word packing. */
  lemma PointRoundTrip(x: int, y: int)
    requires -0x8000 <= x < 0x8000 && -0x8000 <= y < 0x8000
    ensures GetX(MakeLParam(x, y)) == x
    ensures GetY(MakeLParam(x, y)) == y
  {
    var l := MakeLParam(x, y);
    assert LoWord(l) == x % 0x10000;
    assert HiWord(l) == y % 0x10000;
  }

  // ----------------------------------------------------------------- state

  /** The window's fields; `events` is the queue `pushEvent` appends to. */
  datatype Win32 = Win32(
    hasWindow: bool, open: bool, child: bool, width: int, height: int,
    lastMouse: (real, real), cursorGrabbed: bool, events: seq<Event>)

  /** `GetClientRect`. */
  datatype ClientRect = ClientRect(left: int, top: int, right: int, bottom: int)

  /** The centre of the client area, with C++ integer division. */
  function ClientCenter(rect: ClientRect): (int, int) {
    (rect.left + DivTrunc(rect.right - rect.left, 2), rect.top + DivTrunc(rect.bottom - rect.top, 2))
  }

  /**
   * `create`: the size and the child flag are stored first; the class is
   * registered once per process (`registered`), and a failed registration or
   * window creation reports false with the window still closed.
   */
  function Create(w: Win32, width: int, height: int, child: bool,
                  registered: bool, registerOk: bool, createOk: bool): (r: (Win32, bool, bool))
    ensures r.0.width == width && r.0.height == height && r.0.child == child
    ensures r.1 <==> (registered || registerOk) && createOk
    ensures r.1 ==> r.0.open && r.0.hasWindow
    ensures !r.1 ==> r.0.open == w.open
    ensures r.2 <==> registered || registerOk
  {
    var s := w.(width := width, height := height, child := child);
    if !registered && !registerOk then (s, false, false)
    else if !createOk then (s.(hasWindow := false), false, true)
    else (s.(hasWindow := true, open := true), true, true)
  }

  /** `close`: the window is destroyed if there is one, and the window is closed either way. */
  function Close(w: Win32): (r: Win32)
    ensures !r.open && !r.hasWindow
    ensures r.(open := w.open, hasWindow := w.hasWindow) == w
  {
    w.(open := false, hasWindow := false)
  }

  /** `setRect`: without a window nothing happens; otherwise the size is stored. */
  function SetRect(w: Win32, x: int, y: int, width: int, height: int): (r: Win32)
    ensures !w.hasWindow ==> r == w
    ensures w.hasWindow ==> r == w.(width := width, height := height)
  {
    if !w.hasWindow then w else w.(width := width, height := height)
  }

  /** `centerCursor`: with a window and a grabbed cursor, the remembered mouse position becomes the client centre. */
  function CenterCursor(w: Win32, rect: ClientRect): (r: Win32)
    ensures !w.hasWindow || !w.cursorGrabbed ==> r == w
    ensures w.hasWindow && w.cursorGrabbed ==>
      r == w.(lastMouse := (ClientCenter(rect).0 as real, ClientCenter(rect).1 as real))
  {
    if !w.hasWindow || !w.cursorGrabbed then w
    else
      var c := ClientCenter(rect);
      w.(lastMouse := (c.0 as real, c.1 as real))
  }

  /**
   * `setCursorGrabbed`: nothing without a window or when the state is already
   * the requested one; grabbing also re-centres the cursor.
   */
  function SetCursorGrabbed(w: Win32, grabbed: bool, rect: ClientRect): (r: Win32)
    ensures !w.hasWindow || grabbed == w.cursorGrabbed ==> r == w
    ensures w.hasWindow ==> r.cursorGrabbed == grabbed
    ensures w.hasWindow && grabbed && !w.cursorGrabbed ==>
      r.lastMouse == (ClientCenter(rect).0 as real, ClientCenter(rect).1 as real)
    ensures r.events == w.events && r.open == w.open && r.width == w.width && r.height == w.height
  {
    if !w.hasWindow || grabbed == w.cursorGrabbed then w
    else
      var s := w.(cursorGrabbed := grabbed);
      if grabbed then CenterCursor(s, rect) else s
  }

  // ------------------------------------------------------------- messages

  datatype Message = Message(msg: int, wParam: int, lParam: int)

  /** What the window procedure returns: a value of its own, or whatever `DefWindowProc` returns. */
  datatype WndResult = Returned(value: int) | DefaultProc

  /** The side effects the procedure asks of Windows. */
  datatype Requests = Requests(destroyWindow: bool, postQuit: bool)

  const NoRequests := Requests(false, false)

  /** `pushEvent`. */
  function PushEvent(w: Win32, e: Event): (r: Win32)
    ensures r.events == w.events + [e]
    ensures r.(events := w.events) == w
  {
    w.(events := w.events + [e])
  }

  /** `handleSizeChange`: width from the low word, height from the high word. */
  function HandleSizeChange(w: Win32, lParam: int): (r: Win32)
    ensures r.width == LoWord(lParam) && r.height == HiWord(lParam)
    ensures r.(width := w.width, height := w.height) == w
  {
    w.(width := LoWord(lParam), height := HiWord(lParam))
  }

  /**
   * What one message does apart from queueing: the new state, the event it
   * queues if any, the answer and the requests. It never reads the queue.
   */
  function Handle(w: Win32, m: Message, rect: ClientRect): (r: (Win32, Option<Event>, WndResult, Requests))
    ensures r.0.events == w.events
    ensures r.0.cursorGrabbed == w.cursorGrabbed && r.0.hasWindow == w.hasWindow && r.0.child == w.child
  {
    if m.msg == WmClose then (w.(open := false), Some(Closed), Returned(0), Requests(true, false))
    else if m.msg == WmDestroy then (w.(open := false), None, Returned(0), Requests(false, !w.child))
    else if m.msg == WmSize then (HandleSizeChange(w, m.lParam), None, DefaultProc, NoRequests)
    else if m.msg == WmKeyDown || m.msg == WmKeyUp then
      var k := MapVirtualKey(m.wParam);
      (w, if k == Unknown then None else Some(if m.msg == WmKeyDown then KeyPressed(k) else KeyReleased(k)), DefaultProc, NoRequests)
    else if m.msg == WmMouseMove then
      // `WM_MOUSEMOVE`: the delta from the remembered position, which then becomes the new one
      var x, y := GetX(m.lParam) as real, GetY(m.lParam) as real;
      var s := w.(lastMouse := (x, y));
      (if s.cursorGrabbed then CenterCursor(s, rect) else s,
       Some(MouseMoved(x - w.lastMouse.0, y - w.lastMouse.1, x, y)), DefaultProc, NoRequests)
    else if m.msg == WmEraseBkgnd then (w, None, Returned(1), NoRequests)
    else if m.msg == WmLButtonDown || m.msg == WmRButtonDown || m.msg == WmMButtonDown then
      (if w.cursorGrabbed then CenterCursor(w, rect) else w, Some(MouseButtonPressed(MapMouseButton(m.msg))), DefaultProc, NoRequests)
    else if m.msg == WmLButtonUp || m.msg == WmRButtonUp || m.msg == WmMButtonUp then
      (w, Some(MouseButtonReleased(MapMouseButton(m.msg))), DefaultProc, NoRequests)
    else (w, None, DefaultProc, NoRequests)
  }

  /** Queues the event, if there is one. */
  function QueueIfAny(w: Win32, e: Option<Event>): (r: Win32)
    ensures e.None? ==> r == w
    ensures e.Some? ==> r == PushEvent(w, e.value)
  {
    if e.Some? then PushEvent(w, e.value) else w
  }

  /**
   * `WndProc` for a window whose object is attached. Close and destroy end the
   * window (a top-level one also posts the quit message); size, key, mouse-move
   * and button messages update the window and queue at most one event each;
   * background erasing is swallowed; everything else goes to `DefWindowProc`.
   */
  function WndProc(w: Win32, m: Message, rect: ClientRect): (r: (Win32, WndResult, Requests))
    ensures r.0.events == w.events || (|r.0.events| == |w.events| + 1 && r.0.events[..|w.events|] == w.events)
    ensures r.0.cursorGrabbed == w.cursorGrabbed && r.0.hasWindow == w.hasWindow && r.0.child == w.child
    ensures m.msg !in {WmClose, WmDestroy, WmSize, WmKeyDown, WmKeyUp, WmMouseMove, WmEraseBkgnd,
                       WmLButtonDown, WmRButtonDown, WmMButtonDown, WmLButtonUp, WmRButtonUp, WmMButtonUp} ==>
      r == (w, DefaultProc, NoRequests)
  {
    var h := Handle(w, m, rect);
    (QueueIfAny(h.0, h.1), h.2, h.3)
  }

  /**
   * Close queues `Closed` and asks for the window to be destroyed; destroy
   * posts the quit message for a top-level window only; both answer 0. Size
   * takes the new client size from the words of `lParam`; erasing the
   * background is claimed as done and changes nothing.
   */
  lemma WndProcLifecycle(w: Win32, m: Message, rect: ClientRect)
    ensures var r := WndProc(w, m, rect);
      && (m.msg == WmClose ==> !r.0.open && r.0.events == w.events + [Closed] && r == (r.0, Returned(0), Requests(true, false)))
      && (m.msg == WmDestroy ==> !r.0.open && r.0.events == w.events && r.1 == Returned(0) && r.2 == Requests(false, !w.child))
      && (m.msg == WmSize ==> r.0 == HandleSizeChange(w, m.lParam) && r.1 == DefaultProc)
      && (m.msg == WmEraseBkgnd ==> r == (w, Returned(1), NoRequests))
  {
  }

  /** Key messages queue the press or release of a mapped key, and nothing for an unmapped one. */
  lemma WndProcKeys(w: Win32, m: Message, rect: ClientRect)
    requires m.msg == WmKeyDown || m.msg == WmKeyUp
    ensures var r := WndProc(w, m, rect);
      && (r.0.events == w.events <==> MapVirtualKey(m.wParam) == Unknown)
      && (m.msg == WmKeyDown && MapVirtualKey(m.wParam) != Unknown ==> r.0.events == w.events + [KeyPressed(MapVirtualKey(m.wParam))])
      && (m.msg == WmKeyUp && MapVirtualKey(m.wParam) != Unknown ==> r.0.events == w.events + [KeyReleased(MapVirtualKey(m.wParam))])
  {
  }

  /**
   * A mouse move queues the delta from the remembered position; without a
   * grabbed cursor the new position is remembered, with one the cursor is
   * re-centred instead.
   */
  lemma WndProcMouseMove(w: Win32, m: Message, rect: ClientRect)
    requires m.msg == WmMouseMove
    ensures var r := WndProc(w, m, rect);
      var x, y := GetX(m.lParam) as real, GetY(m.lParam) as real;
      && r.0.events == w.events + [MouseMoved(x - w.lastMouse.0, y - w.lastMouse.1, x, y)]
      && (!w.cursorGrabbed ==> r.0.lastMouse == (x, y))
      && (w.cursorGrabbed && w.hasWindow ==> r.0.lastMouse == (ClientCenter(rect).0 as real, ClientCenter(rect).1 as real))
  {
  }

  /** Button messages queue the matching button event, never `Unknown`. */
  lemma ButtonEventsNameTheButton(w: Win32, m: Message, rect: ClientRect)
    requires m.msg in {WmLButtonDown, WmRButtonDown, WmMButtonDown, WmLButtonUp, WmRButtonUp, WmMButtonUp}
    ensures var e := WndProc(w, m, rect).0.events;
      |e| == |w.events| + 1 &&
      (e[|w.events|] == MouseButtonPressed(MapMouseButton(m.msg)) || e[|w.events|] == MouseButtonReleased(MapMouseButton(m.msg))) &&
      MapMouseButton(m.msg) != Unknown
  {
  }

  /** The message pump: each message through the window procedure, in order. */
  function Pump(w: Win32, ms: seq<Message>, rect: ClientRect): (r: Win32)
    ensures |w.events| <= |r.events| <= |w.events| + |ms|
    ensures r.cursorGrabbed == w.cursorGrabbed && r.hasWindow == w.hasWindow && r.child == w.child
    decreases |ms|
  {
    if |ms| == 0 then w
    else
      var s := WndProc(w, ms[0], rect).0;
      Pump(s, ms[1..], rect)
  }

  /** The handling of a message does not depend on what is queued. */
  lemma HandleIgnoresQueue(w: Win32, m: Message, rect: ClientRect, evs: seq<Event>)
    ensures var a, b := Handle(w, m, rect), Handle(w.(events := evs), m, rect);
      b == (a.0.(events := evs), a.1, a.2, a.3)
  {
    if m.msg == WmMouseMove {
      var x, y := GetX(m.lParam) as real, GetY(m.lParam) as real;
      CenterCursorKeepsEvents(w.(lastMouse := (x, y)), rect, evs);
    } else if m.msg in {WmLButtonDown, WmRButtonDown, WmMButtonDown} {
      CenterCursorKeepsEvents(w, rect, evs);
    } else {
      NonPointerIgnoresQueue(w, m, rect, evs);
    }
  }

  lemma NonPointerIgnoresQueue(w: Win32, m: Message, rect: ClientRect, evs: seq<Event>)
    requires m.msg !in {WmMouseMove, WmLButtonDown, WmRButtonDown, WmMButtonDown}
    ensures var a, b := Handle(w, m, rect), Handle(w.(events := evs), m, rect);
      b == (a.0.(events := evs), a.1, a.2, a.3)
  {
  }

  /** Re-centring the cursor leaves the queue alone. */
  lemma CenterCursorKeepsEvents(w: Win32, rect: ClientRect, evs: seq<Event>)
    ensures CenterCursor(w.(events := evs), rect) == CenterCursor(w, rect).(events := evs)
  {
  }

  /** One message's handling does not look at the queue: it only appends to it. */
  lemma WndProcAppends(w: Win32, m: Message, rect: ClientRect)
    ensures var a, b := WndProc(w, m, rect), WndProc(w.(events := []), m, rect);
      a.0.events == w.events + b.0.events && b.0 == a.0.(events := b.0.events) && a.1 == b.1 && a.2 == b.2
  {
    HandleIgnoresQueue(w, m, rect, []);
    var h := Handle(w, m, rect);
    if h.1.Some? {
      assert w.events + [h.1.value] == w.events + [] + [h.1.value];
    }
  }

  /** Pumping does not depend on what was queued before: it only appends. */
  lemma {:induction false} PumpAppends(w: Win32, ms: seq<Message>, rect: ClientRect)
    ensures var p := Pump(w.(events := []), ms, rect);
      Pump(w, ms, rect) == p.(events := w.events + p.events)
    decreases |ms|
  {
    if |ms| > 0 {
      var e, rest := w.(events := []), ms[1..];
      var s, s0 := WndProc(w, ms[0], rect).0, WndProc(e, ms[0], rect).0;
      PumpStep(w, ms, rect);
      PumpStep(e, ms, rect);
      WndProcAppends(w, ms[0], rect);
      var z := s.(events := []);
      assert s0.(events := []) == z;
      PumpAppends(s, rest, rect);
      PumpAppends(s0, rest, rect);
      var pz := Pump(z, rest, rect);
      assert s.events + pz.events == w.events + (s0.events + pz.events);
    }
  }

  /** The pump handles the first message, then the rest. */
  lemma PumpStep(w: Win32, ms: seq<Message>, rect: ClientRect)
    requires |ms| > 0
    ensures Pump(w, ms, rect) == Pump(WndProc(w, ms[0], rect).0, ms[1..], rect)
  {
  }

  /**
   * `pollEvents`: the queue is cleared, the native queue pumped, and the events
   * queued meanwhile returned in order, leaving the queue empty.
   */
  function PollEvents(w: Win32, ms: seq<Message>, rect: ClientRect): (r: (Win32, seq<Event>))
    ensures r.0.events == []
    ensures |r.1| <= |ms|
    ensures r.0.(events := r.1) == Pump(w.(events := []), ms, rect)
  {
    var s := Pump(w.(events := []), ms, rect);
    (s.(events := []), s.events)
  }

  /** A second poll with nothing new in the native queue returns nothing. */
  lemma PollTwice(w: Win32, ms: seq<Message>, rect: ClientRect)
    ensures PollEvents(PollEvents(w, ms, rect).0, [], rect).1 == []
  {
  }

  /** The x movement carried by a mouse-move event. */
  function DeltaX(e: Event): real {
    if e.MouseMoved? then e.dx else 0.0
  }

  function SumDeltaX(es: seq<Event>): real
    decreases |es|
  {
    if |es| == 0 then 0.0 else DeltaX(es[0]) + SumDeltaX(es[1..])
  }

  lemma {:induction false} SumDeltaXAppend(a: seq<Event>, b: seq<Event>)
    ensures SumDeltaX(a + b) == SumDeltaX(a) + SumDeltaX(b)
    decreases |a|
  {
    if |a| > 0 {
      assert (a + b)[0] == a[0];
      assert (a + b)[1..] == a[1..] + b;
      SumDeltaXAppend(a[1..], b);
    } else {
      assert a + b == b;
    }
  }

  /**
   * Without a grabbed cursor the deltas of successive mouse moves telescope:
   * together they add up to the distance from the remembered position to the last one.
   */
  lemma {:induction false} MouseDeltasTelescope(w: Win32, ms: seq<Message>, rect: ClientRect)
    requires !w.cursorGrabbed
    requires forall i :: 0 <= i < |ms| ==> ms[i].msg == WmMouseMove
    ensures var r := Pump(w, ms, rect);
      SumDeltaX(r.events[|w.events|..]) == r.lastMouse.0 - w.lastMouse.0
    decreases |ms|
  {
    if |ms| > 0 {
      var s := WndProc(w, ms[0], rect).0;
      var r := Pump(s, ms[1..], rect);
      var ev := s.events[|w.events|];
      MouseDeltasTelescope(s, ms[1..], rect);
      WndProcMouseMove(w, ms[0], rect);
      assert s.events == w.events + [ev];
      PumpAppends(s, ms[1..], rect);
      var tail := r.events[|s.events|..];
      assert r.events == s.events + tail;
      assert r.events[|w.events|..] == [ev] + tail;
      SumDeltaXAppend([ev], tail);
    }
  }
}

=== FILE: windows.dfy ===
/**
 * The two window front-ends and the renderer they own. `AWindow` owns a
 * platform window, a viewport and an optional renderer; `ARenderWindow` adds
 * a second viewport and renderer of its own on top of an `AWindow`. Both
 * switch backends at run time and resize the renderer only when the client
 * size changed. A renderer is seen through the calls the window makes on it;
 * whether `initialize` succeeds is an input.
 */
module RenderWindows {
  import opened Wrappers
  import opened Worlds
  import Viewports

  /** `EGraphicsBackend`. */
  datatype Backend = NoBackend | OpenGL | Vulkan | DirectX11 | DirectX12

  /** A call on the renderer, in the order the window makes them. */
  datatype RendererCall =
    | Initialize(kind: Backend, width: int, height: int)
    | Shutdown(kind: Backend)
    | Resize(width: int, height: int)
    | SetWorld(world: Option<World>)
    | Draw(viewport: Viewports.Viewport)

  /** Whether a call list contains a resize. */
  predicate Resizes(calls: seq<RendererCall>) {
    exists i :: 0 <= i < |calls| && calls[i].Resize?
  }

  // ------------------------------------------------------------------ AWindow

  /**
   * `AWindow`'s fields: the platform window's size (what `getWidth` and
   * `getHeight` report) and whether it has a native window, the viewport, the
   * selected backend, the kind of renderer that exists, and the last size the
   * renderer was given.
   */
  datatype Window = Window(
    hasWindow: bool, width: int, height: int,
    viewport: Viewports.Viewport, backend: Backend, renderer: Option<Backend>,
    lastWidth: int, lastHeight: int)

  /** `AWindow`'s `createRenderer`: one renderer per backend, none for `None`. */
  function CreateRenderer(b: Backend): (r: Option<Backend>)
    ensures r.None? <==> b == NoBackend
    ensures r.Some? ==> r.value == b
  {
    if b == NoBackend then None else Some(b)
  }

  /**
   * The relation between the backend and the renderer that `AWindow` keeps:
   * there is a renderer exactly when the backend is not `None`, and it is of
   * that backend.
   */
  predicate Coherent(s: Window) {
    s.renderer == CreateRenderer(s.backend)
  }

  /**
   * `AWindow::recreateRenderer`: a renderer for the backend is created and
   * initialised; when it fails it is dropped and the backend falls back to
   * `None`; when it succeeds the size is recorded and the viewport's world
   * handed over.
   */
  function RecreateRenderer(s: Window, width: int, height: int, initOk: bool): (r: (Window, seq<RendererCall>))
    requires s.renderer.None?
    ensures s.backend == NoBackend ==> r == (s, [])
    ensures s.backend != NoBackend && !initOk ==>
      r.0 == s.(backend := NoBackend) && r.1 == [Initialize(s.backend, width, height)]
    ensures s.backend != NoBackend && initOk ==>
      && r.0 == s.(renderer := Some(s.backend), lastWidth := width, lastHeight := height)
      && r.1 == [Initialize(s.backend, width, height), SetWorld(s.viewport.world)]
    ensures Coherent(r.0)
  {
    var kind := CreateRenderer(s.backend);
    if kind.None? then (s, [])
    else if !initOk then (s.(backend := NoBackend), [Initialize(kind.value, width, height)])
    else (s.(renderer := kind, lastWidth := width, lastHeight := height),
          [Initialize(kind.value, width, height), SetWorld(s.viewport.world)])
  }

  /**
   * The `AWindow` constructor: the platform window stores its size even when
   * it cannot be created, the viewport covers it, and a renderer is set up
   * unless the backend is `None`.
   */
  function NewWindow(width: int, height: int, backend: Backend, created: bool, initOk: bool): (r: (Window, seq<RendererCall>))
    ensures Coherent(r.0)
    ensures r.0.width == width && r.0.height == height && r.0.viewport == Viewports.NewViewport(width, height)
    ensures r.0.backend == backend || (r.0.backend == NoBackend && !initOk)
  {
    var s := Window(created, width, height, Viewports.NewViewport(width, height), backend, None, 0, 0);
    if backend != NoBackend then RecreateRenderer(s, width, height, initOk) else (s, [])
  }

  /**
   * `AWindow::setGraphicsBackend`: the same backend again changes nothing;
   * otherwise the old renderer is shut down and dropped and, unless the new
   * backend is `None`, a new one is made for the current size.
   */
  function SetGraphicsBackend(s: Window, b: Backend, initOk: bool): (r: (Window, seq<RendererCall>))
    requires Coherent(s)
    ensures b == s.backend ==> r == (s, [])
    ensures Coherent(r.0)
    ensures b != s.backend && s.renderer.Some? ==> |r.1| > 0 && r.1[0] == Shutdown(s.backend)
    ensures b != s.backend ==> (r.0.backend == b <==> b == NoBackend || initOk)
    ensures b != s.backend && b != NoBackend && initOk ==> r.0.lastWidth == s.width && r.0.lastHeight == s.height
    ensures r.0.viewport == s.viewport && r.0.width == s.width && r.0.height == s.height
  {
    if s.backend == b then (s, [])
    else
      var down := if s.renderer.Some? then [Shutdown(s.renderer.value)] else [];
      var t := s.(backend := b, renderer := None);
      if b == NoBackend then (t, down)
      else
        var up := RecreateRenderer(t, s.width, s.height, initOk);
        (up.0, down + up.1)
  }

  /** Switching to `None` leaves no renderer, after shutting down the one there was. */
  lemma SwitchToNoneDropsRenderer(s: Window)
    requires Coherent(s) && s.backend != NoBackend
    ensures var r := SetGraphicsBackend(s, NoBackend, true);
      r.0.renderer.None? && r.0.backend == NoBackend && r.1 == [Shutdown(s.backend)]
  {
  }

  /**
   * `AWindow::display`: nothing without a renderer; otherwise the viewport and
   * the renderer are resized when the client size differs from the last one
   * recorded, and the world is handed over before the draw.
   */
  function Display(s: Window): (r: (Window, seq<RendererCall>))
    ensures s.renderer.None? ==> r == (s, [])
    ensures s.renderer.Some? ==>
      |r.1| >= 2 && r.1[|r.1| - 1] == Draw(r.0.viewport) && r.1[|r.1| - 2] == SetWorld(s.viewport.world)
    ensures s.renderer.Some? ==> (Resizes(r.1) <==> s.width != s.lastWidth || s.height != s.lastHeight)
    ensures s.renderer.Some? ==> r.0.lastWidth == s.width && r.0.lastHeight == s.height
    ensures Resizes(r.1) ==>
      r.1[0] == Resize(s.width, s.height) && r.0.viewport == Viewports.SetRect(s.viewport, 0, 0, s.width, s.height)
    ensures r.0.renderer == s.renderer && r.0.backend == s.backend
  {
    if s.renderer.None? then (s, [])
    else
      var t := if s.width != s.lastWidth || s.height != s.lastHeight then
        s.(viewport := Viewports.SetRect(s.viewport, 0, 0, s.width, s.height), lastWidth := s.width, lastHeight := s.height)
      else s;
      var resize := if s.width != s.lastWidth || s.height != s.lastHeight then [Resize(s.width, s.height)] else [];
      var calls := resize + [SetWorld(t.viewport.world), Draw(t.viewport)];
      assert |resize| == 1 ==> calls[0].Resize?;
      (t, calls)
  }

  /** A second frame at an unchanged size does not resize again. */
  lemma DisplayResizesOnce(s: Window)
    requires s.renderer.Some?
    ensures !Resizes(Display(Display(s).0).1)
  {
  }

  /**
   * `AWindow::setRect`: the platform window takes the new size if it exists,
   * the viewport always does, and the recorded size is invalidated.
   */
  function SetRect(s: Window, x: int, y: int, width: int, height: int): (r: Window)
    ensures r.viewport == Viewports.SetRect(s.viewport, 0, 0, width, height)
    ensures r.lastWidth == -1 && r.lastHeight == -1
    ensures s.hasWindow ==> r.width == width && r.height == height
    ensures !s.hasWindow ==> r.width == s.width && r.height == s.height
    ensures r.renderer == s.renderer && r.backend == s.backend
  {
    var sized := if s.hasWindow then s.(width := width, height := height) else s;
    sized.(viewport := Viewports.SetRect(s.viewport, 0, 0, width, height), lastWidth := -1, lastHeight := -1)
  }

  /** After `setRect`, the next frame resizes the renderer whenever the size is a real one. */
  lemma SetRectForcesResize(s: Window, x: int, y: int, width: int, height: int)
    requires s.renderer.Some?
    requires SetRect(s, x, y, width, height).width >= 0
    ensures Resizes(Display(SetRect(s, x, y, width, height)).1)
  {
  }

  /** Every operation of `AWindow` keeps the backend and the renderer in step. */
  lemma {:induction false} CoherentAlways(s: Window, b: Backend, initOk: bool, x: int, y: int, width: int, height: int)
    requires Coherent(s)
    ensures Coherent(SetGraphicsBackend(s, b, initOk).0)
    ensures Coherent(Display(s).0)
    ensures Coherent(SetRect(s, x, y, width, height))
  {
  }

  // ------------------------------------------------------------ ARenderWindow

  /** `ARenderWindow`'s `createRenderer`: any backend without a renderer of its own gets OpenGL. */
  function RenderCreateRenderer(b: Backend): (k: Backend)
    ensures k != NoBackend
    ensures b != NoBackend ==> k == b
  {
    if b == NoBackend then OpenGL else b
  }

  /** `ARenderWindow::Impl`: its own viewport, backend, renderer and last size, started at 0. */
  datatype RenderImpl = RenderImpl(
    viewport: Viewports.Viewport, backend: Backend, renderer: Option<Backend>,
    lastWidth: int, lastHeight: int)

  /**
   * `Impl::recreateRenderer`: a renderer always exists to be initialised;
   * when initialisation fails it is dropped but the backend is kept.
   */
  function RenderRecreate(s: RenderImpl, width: int, height: int, initOk: bool): (r: (RenderImpl, seq<RendererCall>))
    ensures !initOk ==> r.0 == s.(renderer := None)
    ensures initOk ==> r.0 == s.(renderer := Some(RenderCreateRenderer(s.backend)), lastWidth := width, lastHeight := height)
    ensures |r.1| >= 1 && r.1[0] == Initialize(RenderCreateRenderer(s.backend), width, height)
    ensures initOk ==> r.1 == [r.1[0], SetWorld(s.viewport.world)]
  {
    var kind := RenderCreateRenderer(s.backend);
    if !initOk then (s.(renderer := None), [Initialize(kind, width, height)])
    else (s.(renderer := Some(kind), lastWidth := width, lastHeight := height),
          [Initialize(kind, width, height), SetWorld(s.viewport.world)])
  }

  /** `ARenderWindow` is its base `AWindow` plus the implementation object. */
  datatype RenderWindow = RenderWindow(base: Window, impl: RenderImpl)

  /** The `ARenderWindow` constructor: the base window exists; a renderer is always attempted. */
  function NewRenderWindow(base: Window, width: int, height: int, backend: Backend, initOk: bool): (r: (RenderWindow, seq<RendererCall>))
    ensures r.0.base == base && r.0.impl.backend == backend
    ensures r.0.impl.renderer.Some? <==> initOk
    ensures r.0.impl.viewport == Viewports.NewViewport(width, height)
  {
    var made := RenderRecreate(RenderImpl(Viewports.NewViewport(width, height), backend, None, 0, 0), width, height, initOk);
    (RenderWindow(base, made.0), made.1)
  }

  /**
   * `Impl::setGraphicsBackend`: the same backend again changes nothing;
   * otherwise the old renderer is shut down and a new one made for the
   * owner's size, the backend being kept even when that fails.
   */
  function RenderSetGraphicsBackend(w: RenderWindow, b: Backend, initOk: bool): (r: (RenderWindow, seq<RendererCall>))
    ensures b == w.impl.backend ==> r == (w, [])
    ensures b != w.impl.backend ==> r.0.impl.backend == b
    ensures b != w.impl.backend ==> (r.0.impl.renderer.Some? <==> initOk)
    ensures b != w.impl.backend && initOk ==> r.0.impl.renderer == Some(RenderCreateRenderer(b))
    ensures b != w.impl.backend && w.impl.renderer.Some? ==> |r.1| > 0 && r.1[0] == Shutdown(w.impl.renderer.value)
    ensures r.0.base == w.base && r.0.impl.viewport == w.impl.viewport
  {
    if w.impl.backend == b then (w, [])
    else
      var down := if w.impl.renderer.Some? then [Shutdown(w.impl.renderer.value)] else [];
      var up := RenderRecreate(w.impl.(backend := b, renderer := None), w.base.width, w.base.height, initOk);
      (w.(impl := up.0), down + up.1)
  }

  /** The two windows part ways on a failed initialisation: `AWindow` gives up its backend, `ARenderWindow` keeps it. */
  lemma FailedSwitchDiffers(s: Window, w: RenderWindow, b: Backend)
    requires Coherent(s) && b != NoBackend && b != s.backend && b != w.impl.backend
    ensures SetGraphicsBackend(s, b, false).0.backend == NoBackend
    ensures RenderSetGraphicsBackend(w, b, false).0.impl.backend == b
    ensures SetGraphicsBackend(s, b, false).0.renderer.None? && RenderSetGraphicsBackend(w, b, false).0.impl.renderer.None?
  {
  }

  /** `Impl::display`, with the owner's client size. */
  function RenderDisplay(w: RenderWindow): (r: (RenderWindow, seq<RendererCall>))
    ensures w.impl.renderer.None? ==> r == (w, [])
    ensures w.impl.renderer.Some? ==>
      (Resizes(r.1) <==> w.base.width != w.impl.lastWidth || w.base.height != w.impl.lastHeight)
    ensures w.impl.renderer.Some? ==> r.0.impl.lastWidth == w.base.width && r.0.impl.lastHeight == w.base.height
    ensures w.impl.renderer.Some? ==> |r.1| >= 2 && r.1[|r.1| - 1] == Draw(r.0.impl.viewport)
    ensures r.0.base == w.base && r.0.impl.renderer == w.impl.renderer
  {
    var s := w.impl;
    if s.renderer.None? then (w, [])
    else
      var changed := w.base.width != s.lastWidth || w.base.height != s.lastHeight;
      var t := if changed then
        s.(viewport := Viewports.SetRect(s.viewport, 0, 0, w.base.width, w.base.height), lastWidth := w.base.width, lastHeight := w.base.height)
      else s;
      var resize := if changed then [Resize(w.base.width, w.base.height)] else [];
      var calls := resize + [SetWorld(t.viewport.world), Draw(t.viewport)];
      assert changed ==> calls[0].Resize?;
      (w.(impl := t), calls)
  }

  /**
   * `ARenderWindow::setRect`: the base window's `setRect`, then the own
   * viewport is set to cover the new size. Its recorded size is left alone.
   */
  function RenderSetRect(w: RenderWindow, x: int, y: int, width: int, height: int): (r: RenderWindow)
    ensures r.base == SetRect(w.base, x, y, width, height)
    ensures r.impl.viewport.x == 0 && r.impl.viewport.y == 0
    ensures r.impl.viewport.width == width && r.impl.viewport.height == height
    ensures r.impl.(viewport := w.impl.viewport) == w.impl
  {
    w.(base := SetRect(w.base, x, y, width, height), impl := w.impl.(viewport := Viewports.SetRect(w.impl.viewport, 0, 0, width, height)))
  }

  /**
   * Unlike `AWindow`, the render window's next frame after `setRect` resizes
   * only if the client size really differs from the one last given to the renderer.
   */
  lemma RenderSetRectResizesOnlyOnChange(w: RenderWindow, x: int, y: int, width: int, height: int)
    requires w.impl.renderer.Some?
    ensures var r := RenderSetRect(w, x, y, width, height);
      Resizes(RenderDisplay(r).1) <==> r.base.width != w.impl.lastWidth || r.base.height != w.impl.lastHeight
  {
  }
}

=== FILE: wrappers.dfy ===
/** Failure-compatible helper types shared by every module of the model. */
module Wrappers {

  /** A value that may be absent: a null pointer, a failed projection, an unset optional. */
  datatype Option<+T> = None | Some(value: T) {

    predicate IsFailure() {
      None?
    }

    function PropagateFailure<U>(): Option<U>
      requires None?
    {
      None
    }

    function Extract(): T
      requires Some?
    {
      value
    }
  }
}
